=== FILE: README.md ===
# Mizu backend — a Dafny model of its decision logic

Mizu is a blog backend in Rust. A GitHub push webhook tells it which Markdown
files changed. It fetches those files, reads their front matter and
reconciles the article table and the search index with them. It also serves
the articles by category, one by one, and through a Meilisearch full-text
search. The repository is partway through a refactor. An older tree
(`handlers/`, `common.rs`, `search.rs`, `some_errors.rs`) sits next to a
layered tree (`domain/`, `application/`, `infrastructure/`, `interfaces/`).
The model covers both trees and proves, where they overlap, that they agree.

The model is functional. Immutable datatypes and pure functions stand for
the Rust structs and `async fn`s. The outside world enters as parameters:
- the HMAC-SHA256 function (RFC 2104 over the SHA-256 of FIPS 180-4);
- the front-matter parser;
- the GitHub client's `get_file_content`;
- the repository's path lookup, transaction and `get_all`;
- the search engine;
- the event JSON parser;
- the "now" instant used as a fallback timestamp.

A parameter is a function value, so every property holds for every
behaviour of the collaborator.

One module per component of the backend:

| module | component |
|---|---|
| `Wrappers` | `Result` / `Option` with failure propagation |
| `TimeUtils` | `chrono_to_offset`, `offset_to_chrono` and the two timestamp ranges |
| `Category` | `PostCategory` codec of both trees, `PostParams` defaults |
| `Errors` | `SomeError` of the layered tree, its `From` conversions and its `IntoResponse` table |
| `LegacyErrors` | the older `SomeError` and its `IntoResponse` table |
| `FileFilter` | `is_valid_file` with `Path::extension` semantics |
| `Hex` | base16 decoding (section 8 of RFC 4648) as `hex::decode` does it on ASCII text, and its inverse |
| `Headers` | the case-insensitive `HeaderMap` lookup and `HeaderValue::to_str` |
| `Signature` | both copies of `verify_signature` |
| `GithubEvents` | `get_push_file_changes`, `get_repository_name`, `get_repository_owner` |
| `ArticleService` | push reconciliation, transaction order and index rebuild of `ArticleService` |
| `Reconciliation` | whole-push properties and worked scenarios of the reconciliation |
| `WebhookHandlers` | both `github_webhook` handlers, their per-file dispatch, `webhook_parser` |
| `ArticleHandlers` | `get_posts` clamping and offset, `get_post_digital`, the older `get_posts` |
| `Search` | search pagination and hit mapping, the search handlers of both trees, API-key selection |
| `Mocks` | the in-memory repository, search service and GitHub client used by the service tests |

Integer widths are explicit:
- `usize` arithmetic wraps modulo 2^64 (`Search.WrapUsize`).
- `i64` arithmetic wraps in two's complement (`ArticleHandlers.WrapI64`).
- A negative `i64` cast to `usize` adds 2^64 (`Mocks.I64AsUsize`).

This is the behaviour of a release build. A debug build panics instead.

### Where the code and its design disagree (the model follows the code)

- **Duplicates and disjointness.** Nothing de-duplicates paths across commits; a path changed by two commits is listed twice. Nor is "last commit wins" applied.
- **Modified files can also be deleted.** Only the articles of added files are kept clear of the delete set. An article of a *modified* file can be both upserted and deleted in the same push (`Reconciliation.ModifiedArticleCanBeDeleted`).
- **Modified files are not filtered.** The extension filter runs on the added files only (`Reconciliation.ModifiedFilesUnfiltered`).
- **The layered handler has no allow-list.** `interfaces/http/handlers/webhook.rs` processes pushes from any repository. The older handler and `ArticleService` consult the allow-list (`WebhookHandlers.LayeredIgnoresAllowList`).
- **Per-file loop input.** The layered handler's loop iterates the `(added, removed, modified)` triple directly, which does not type-check. The model feeds it the three lists concatenated in that order.
- **Repository name.** `get_file_content` is called with the full `owner/repo` name as the repository argument, as the service does.
- **Legacy error variants.** The older `handlers/search.rs` raises `CustomApiKeyNotFound` and the older `handlers/articles.rs` raises `ArticleNotFound`. Neither variant exists in `some_errors.rs`. The older webhook handler (`handlers/webhook.rs`) imports a `WebHooksError` from `some_errors.rs`, builds `VerifySignatureFailed`, `InvalidHeader` and `MissingHeader` from it, and converts a JSON parse error with `.into()`. `some_errors.rs` defines none of these. The model gives all three paths the layered error type. So `WebhookHandlers.ResponsesAgree` compares the two webhook handlers under that choice; in the source as written, the older handler does not compile.
- **Default search index.** `interfaces/http/handlers/search.rs` and `application/article_service.rs` import `domain::search::DEFAULT_SEARCH_INDEX`, which `domain/search.rs` does not define. The value `"articles"` comes from the older `handlers/search.rs` and `search.rs`. The model assumes the layered constant equals it, so `Search.GetSearchResults`, `Search.HandlersAgree` and the index that `ArticleService.ProcessPushEvent` rebuilds rest on that assumption.
- **Mock listing rows.** The mock repository's `get_posts_by_category` (`tests/common/mod.rs`) fills a `summary` field, while the DTO `PostResponse` in `interfaces/http/dtos.rs` declares `content`. `Mocks.ToResponse` follows the mock.
- **Article fields.** `build_article` stores the front matter's optional summary and a `path` that `domain::articles::Article` does not declare. The model's `Article` has both.

## Model

| member | source | states |
|---|---|---|
| TimeUtils.ChronoToOffset | backend/src/infrastructure/time_utils.rs:11-18 | succeeds exactly when the seconds are in `OffsetDateTime`'s range and the nanoseconds are below one second; keeps seconds and nanoseconds; out-of-range seconds are reported as such |
| TimeUtils.OffsetToChrono | backend/src/infrastructure/time_utils.rs:4-9 | `None` exactly when the seconds fall outside chrono's range; otherwise keeps seconds and nanoseconds and yields a valid chrono value |
| TimeUtils.OffsetAlwaysConvertible | backend/src/infrastructure/time_utils.rs:4-9 | every valid `OffsetDateTime` converts to chrono |
| TimeUtils.ChronoOffsetRoundTrip | backend/src/infrastructure/time_utils.rs:4-18 | if `chrono_to_offset(d)` is `Ok(o)` then `offset_to_chrono(o)` is `Some(d)` |
| TimeUtils.OffsetChronoRoundTrip | backend/src/infrastructure/time_utils.rs:4-18 | a valid offset timestamp survives the trip through chrono unchanged |
| TimeUtils.LeapSecondRejected | backend/src/infrastructure/time_utils.rs:13-17 | a chrono leap-second value (nanoseconds of one second or more) is always rejected |
| Category.AsStr | backend/src/domain/articles.rs:56-64 | the name is one of the five wire names |
| Category.FromStr | backend/src/domain/articles.rs:68-81 | accepts exactly the five lowercase names, and `as_str` of the result gives back the input; anything else is `Err("Invalid category: " + s)` |
| Category.LegacyFromStr | backend/src/common.rs:110-120 | `Some` exactly for the five names, and `as_str` of the result gives back the input |
| Category.FromStrAsStr | backend/src/domain/articles.rs:56-81 | both parsers invert `as_str` for every category |
| Category.AsStrInjective | backend/src/common.rs:99-107 | the five names are pairwise distinct |
| Category.ParsersAgree | backend/src/common.rs:99-120 | the `Result` and `Option` parsers accept the same strings and return the same category |
| Category.UpperCaseRejected | backend/src/domain/articles.rs:72-78 | parsing is case-sensitive: "ARTICLE" and "Article" are refused |
| Category.PostParamsFromQuery | backend/src/domain/articles.rs:92-107 | a missing page is 1 and a missing page size is 20; given values are kept |
| Errors.FromSqlx | backend/src/errors.rs:121-125 | a database failure becomes `Database(QueryFailed)` carrying the cause |
| Errors.FromConfigError | backend/src/errors.rs:127-146 | each of the four named missing keys maps to its own variant, in both directions; a missing `jwt_secret` is a fixed message; every other configuration error is wrapped in `Other` |
| Errors.IntoResponse | backend/src/errors.rs:186-330 | the status is 4xx exactly for client faults and 5xx otherwise; a 5xx carries one of three generic messages; the body is `error`, `error_code`, `status: "error"` in that order |
| Errors.StatusTable | backend/src/errors.rs:191-301 | the exact set of errors behind each status code: 401 signature failure, 404 missing article, 422 content parse or missing repository, 502 search engine, 503 query failure, 500 configuration and `Other`, 400 the rest of the client errors |
| Errors.ClientErrorCodes | backend/src/errors.rs:229-300 | the error code of every client-error row, including `INVALID_CONTENT` and `INVALID_PAYLOAD` for the two 422 rows, and that every 5xx code is `INTERNAL_ERROR` or `SERVICE_UNAVAILABLE` |
| Errors.ServerErrorRows | backend/src/errors.rs:193-228 | every 500 is `INTERNAL_ERROR`; 502 and 503 are `SERVICE_UNAVAILABLE` with their own "temporarily unavailable" messages |
| Errors.ClientErrorMessages | backend/src/errors.rs:230-293 | the user message of every client-error row |
| Errors.CodeDeterminesStatus | backend/src/errors.rs:191-301 | apart from `SERVICE_UNAVAILABLE`, the error code fixes the status |
| Errors.StatusFollowsCode | backend/src/errors.rs:191-301 | each error's status is the one its code stands for (`INTERNAL_ERROR` 500, `UNAUTHORIZED` 401, `NOT_FOUND` 404, `INVALID_CONTENT` and `INVALID_PAYLOAD` 422, the rest 400), for every code but `SERVICE_UNAVAILABLE` |
| Errors.ResponseIgnoresPayload | backend/src/errors.rs:191-327 | the response does not depend on any detail an error carries |
| LegacyErrors.Display | backend/src/some_errors.rs:5-45 | the `#[error]` text of each variant, with the transparent variants showing their cause |
| LegacyErrors.FromSqlx | backend/src/some_errors.rs:47-51 | a database failure becomes `Database(QueryFailed)` carrying the cause |
| LegacyErrors.IntoResponse | backend/src/some_errors.rs:53-97 | 4xx exactly for the category error; the body is `error`, `status: "error"` |
| LegacyErrors.StatusTable | backend/src/some_errors.rs:57-89 | which errors read "Server misconfiguration", "Search service misconfigured", "Search service unavailable"; which give 502, 503, 400 and 500 |
| FileFilter.Extension | backend/src/application/article_service.rs:208-209 | `Path::extension` on a file name: the dot-free text after its last `.`, which is not the first character; no extension when the name is `..` or has no `.` after its first character |
| FileFilter.PathExtension | backend/src/application/article_service.rs:208-209 | the extension of a path lies in its final component, after a last `.` that does not start that component |
| FileFilter.IsValidFile | backend/src/application/article_service.rs:203-213 | `is_valid_file`, shared by the service and both handlers: the extension is `md` or `mdx`, case-sensitively; a path with no extension is refused (characterised on bare names by `FileFilter.ValidBareName`) |
| FileFilter.ValidBareName | backend/src/application/article_service.rs:203-213 | on a name without `/`, the filter accepts exactly the names ending in `.md` or `.mdx` with a non-empty stem |
| FileFilter.ValidInDirectory | backend/src/interfaces/http/handlers/webhook.rs:124-134 | directories in front of a file name do not change the verdict |
| FileFilter.TrailingSlashIgnored | backend/src/handlers/webhook.rs:230-240 | a trailing `/` does not change the verdict |
| FileFilter.ContentFilesAccepted | backend/src/application/article_service.rs:203-213 | `a.md` and `b.mdx` are accepted, and so is `a.md` under any directory |
| FileFilter.UpperCaseExtensionRejected | backend/src/application/article_service.rs:206-212 | the extension comparison is case-sensitive: `a.MD` is refused, under any directory too |
| FileFilter.HiddenNameRejected | backend/src/application/article_service.rs:208-212 | `.md` alone has no extension and is refused, under any directory too |
| FileFilter.OtherNamesRejected | backend/src/application/article_service.rs:206-212 | `README` and `a.markdown` are refused |
| Hex.Decode | backend/src/infrastructure/github/signature.rs:100-105 | succeeds exactly on even-length all-hex text and yields half as many bytes; odd length is `OddLength`; otherwise the first bad character and its index are reported |
| Hex.DecodeEncode | backend/src/infrastructure/github/signature.rs:102 | decoding the encoding of any bytes gives them back |
| Hex.EncodeDecode | backend/src/infrastructure/github/signature.rs:146 | encoding decoded text gives the text back, with its letters in lower case |
| Hex.DecodeExamples | backend/src/infrastructure/github/signature.rs:159-172 | `0aFf` decodes to 10, 255; `abc` and `invalid_signature` have odd length; `zz` fails at index 0 |
| Headers.Get | backend/src/infrastructure/github/signature.rs:86-88 | `None` exactly when no entry has the lower-cased name; otherwise a value stored under that name |
| Headers.GetFirst | backend/src/infrastructure/github/signature.rs:86-88 | the value found is that of the first entry with the name |
| Headers.GetInsertSame | backend/src/infrastructure/github/signature.rs:148-153 | a value inserted under a name is found under any casing of that name |
| Headers.GetInsertOther | backend/src/infrastructure/github/signature.rs:148-153 | inserting one name leaves every other name's lookup unchanged |
| Headers.ToStr | backend/src/infrastructure/github/signature.rs:88 | succeeds exactly on visible ASCII and tab bytes, keeping every character |
| Headers.ToStrFromStr | backend/src/infrastructure/github/signature.rs:88 | printable ASCII text survives the trip into a header value and back |
| Headers.GetText | backend/src/infrastructure/github/signature.rs:86-89 | a text is found exactly for a present header whose value converts, and it is that value's text |
| Signature.StripPrefix | backend/src/infrastructure/github/signature.rs:95-98 | `Some` exactly when the text starts with the prefix; prefix plus rest is the text |
| Signature.VerifySignature | backend/src/infrastructure/github/signature.rs:76-125 | succeeds with "Ok" exactly when the header text is `sha256=` followed by hex of exactly the HMAC of the body; every failure is `VerifySignatureFailed` |
| Signature.LegacyVerifySignature | backend/src/handlers/webhook.rs:47-76 | true exactly when the header is authentic for the body's HMAC |
| Signature.CopiesAgree | backend/src/handlers/webhook.rs:47-76 | the boolean copy accepts exactly the requests the layered copy accepts |
| Signature.DecodeIffLower | backend/src/infrastructure/github/signature.rs:102-121 | the digits decode to the tag exactly when they are the tag's hex encoding up to letter case |
| Signature.CheckAuthentic | backend/src/infrastructure/github/signature.rs:86-121 | the header, prefix, hex and MAC steps together accept exactly the authentic headers |
| Signature.CheckTextAuthentic | backend/src/infrastructure/github/signature.rs:94-121 | for any header text and tag, the prefix, hex-decode and comparison steps succeed exactly when the text is `sha256=` followed by the tag's hex digits in either case |
| Signature.SignPrintable | backend/src/infrastructure/github/signature.rs:143-153 | the signature GitHub sends is printable ASCII |
| Signature.SignedHeaders | backend/src/infrastructure/github/signature.rs:148-153 | the headers built for a test carry the signature text |
| Signature.SignAuthentic | backend/src/infrastructure/github/signature.rs:109-121 | the signature text authenticates exactly the tag it was made from |
| Signature.SignedRequestAccepted | backend/src/infrastructure/github/signature.rs:132-157 | a body with its own signature is accepted |
| Signature.TamperedPayloadRejected | backend/src/infrastructure/github/signature.rs:116-121 | a signature made for one body is refused for a body with a different MAC |
| Signature.MissingHeaderRejected | backend/src/infrastructure/github/signature.rs:174-182 | no signature header, no acceptance |
| Signature.OpaqueHeaderRejected | backend/src/infrastructure/github/signature.rs:86-92 | a header value that is not visible ASCII is refused |
| Signature.WrongPrefixRejected | backend/src/infrastructure/github/signature.rs:95-98 | a header not starting with `sha256=` is refused |
| Signature.MalformedDigitsRejected | backend/src/infrastructure/github/signature.rs:102-105 | the right prefix followed by text that is not hex is refused |
| Signature.MalformedHeaderExamples | backend/src/infrastructure/github/signature.rs:159-197 | `sha1=abc123` lacks the prefix; `sha256=invalid_signature` has digits of odd length |
| GithubEvents.Records | backend/src/infrastructure/github/webhook.rs:253-279 | one record per path, in order, with the list's status, the commit's time and no raw URL |
| GithubEvents.CollectAppend | backend/src/infrastructure/github/webhook.rs:251-281 | collecting two runs of commits is collecting each and concatenating the lists |
| GithubEvents.CollectMatchesReference | backend/src/infrastructure/github/webhook.rs:251-281 | the loop's three lists equal the commit-by-commit concatenations |
| GithubEvents.AddedRecordsFromCommits | backend/src/infrastructure/github/webhook.rs:253-260 | each added record has status "added", no URL, and a path some commit added |
| GithubEvents.CommitAddsRecorded | backend/src/infrastructure/github/webhook.rs:253-260 | every path every commit added has its record: nothing is dropped |
| GithubEvents.GetPushFileChanges | backend/src/infrastructure/github/webhook.rs:241-286 | anything but a push kind with a push payload yields three empty lists |
| GithubEvents.PushChanges | backend/src/infrastructure/github/webhook.rs:247-285 | for a push, each list is the concatenation over commits of that list's paths |
| GithubEvents.GetRepositoryName | backend/src/infrastructure/github/webhook.rs:299-311 | an unsupported payload is `UnsupportedWebhookEvent`; push and pull request give the full name, or `MissingRepositoryName` |
| GithubEvents.GetRepositoryOwner | backend/src/infrastructure/github/webhook.rs:325-338 | the same, with the owner's login |
| GithubEvents.AccessorsAgreeOnSupport | backend/src/infrastructure/github/webhook.rs:299-337 | both accessors refuse exactly the same unsupported events |
| GithubEvents.PullRequestHasNoChanges | backend/src/infrastructure/github/webhook.rs:247-249 | a pull request has a repository name but no file changes |
| ArticleService.ExtractArticle | backend/src/application/article_service.rs:355-363 | parser errors pass through; a missing front-matter block is an error; otherwise the front matter and body |
| ArticleService.ArticleTime | backend/src/application/article_service.rs:238-241 | the commit time when it converts, the fallback instant otherwise |
| ArticleService.FetchFiles | backend/src/application/article_service.rs:233 | one fetched file per record, in order, with its path, time and fetch result |
| ArticleService.Usable | backend/src/application/article_service.rs:235-237 | a file is usable exactly when its fetch and its extraction both succeed |
| ArticleService.ArticleOf | backend/src/application/article_service.rs:238-260 | the article has the file's path, the front matter's ID, title, tags, category, summary and status, the body after the front matter as its content, and equal creation and update times from the commit |
| ArticleService.BuildArticle | backend/src/application/article_service.rs:505-524 | `build_article`: the front matter's fields, the given path and content, and the two given times (its use is stated by `ArticleService.ArticleOf`) |
| ArticleService.Built | backend/src/application/article_service.rs:296-325 | at most one article per file |
| ArticleService.BuiltSingle | backend/src/application/article_service.rs:297-323 | one file yields its article when it fetched and parsed, and nothing otherwise |
| ArticleService.BuiltAppend | backend/src/application/article_service.rs:296-325 | the loop handles each file on its own: the articles of two file lists are those of the first followed by those of the second; with `BuiltSingle`, the loop is the in-order map of `build_article` over the usable files |
| ArticleService.BuiltComplete | backend/src/application/article_service.rs:296-325 | a failed file is skipped with `continue`, so every usable file still yields its article |
| ArticleService.BuiltCompleteAll | backend/src/application/article_service.rs:296-325 | the same for all usable files at once |
| ArticleService.BuiltFirst | backend/src/application/article_service.rs:296-325 | when the first file is usable, its article comes first |
| ArticleService.BuiltInOrder | backend/src/application/article_service.rs:296-325 | the articles of two usable files come out in the order of the files |
| ArticleService.BuiltSound | backend/src/application/article_service.rs:296-325 | every built article has the path of one of the files |
| ArticleService.BuiltFromFiles | backend/src/application/article_service.rs:296-325 | every built article comes from a usable file with its path |
| ArticleService.ProcessModifiedEvent | backend/src/application/article_service.rs:279-326 | never fails; yields at most one article per modified file; every modified file that fetched and parsed yields its article; every article has a modified file's path |
| ArticleService.Step | backend/src/application/article_service.rs:235-271 | one iteration only appends to the lists and only removes claimed IDs from the leftover set; a usable file's article lands in one of the lists, and at most one article is added |
| ArticleService.Fold | backend/src/application/article_service.rs:234-273 | the leftover IDs stay within the removed files' IDs, and there is at most one article per added file |
| ArticleService.FoldRemovedIds | backend/src/application/article_service.rs:243-245 | the leftover delete set is the removed IDs minus those claimed by renames; renames claim only removed IDs |
| ArticleService.FoldModifyDistinct | backend/src/application/article_service.rs:243-252 | no removed ID is claimed twice |
| ArticleService.FoldAddNotDeleted | backend/src/application/article_service.rs:243-261 | no new article's ID is still to be deleted |
| ArticleService.FoldAddKnownIdClaimed | backend/src/application/article_service.rs:243-261 | a new article with a removed file's ID has that ID among the renamed articles' IDs, so a rename claimed it |
| ArticleService.FoldPartition | backend/src/application/article_service.rs:234-273 | every usable file lands in exactly one list, in order |
| ArticleService.FoldWithoutRemovals | backend/src/application/article_service.rs:243-261 | with no removed files every usable file is new |
| ArticleService.FoldIgnoresFailures | backend/src/application/article_service.rs:264-271 | a file that fails to fetch or parse changes nothing, and later files are still processed |
| ArticleService.FoldFromFiles | backend/src/application/article_service.rs:234-273 | every article of either list was built from one of the files |
| ArticleService.RemovedPaths | backend/src/application/article_service.rs:227 | the removed records' paths, in order |
| ArticleService.ProcessAddedAndRemoved | backend/src/application/article_service.rs:216-276 | fails exactly when the path lookup fails; the delete set is within the looked-up IDs and disjoint from both lists' IDs |
| ArticleService.ValidAdded | backend/src/application/article_service.rs:168 | a record is kept exactly when it is an added record whose path passes the filter |
| ArticleService.ValidAddedSingle | backend/src/application/article_service.rs:168 | one record is kept when its path passes the filter and dropped otherwise |
| ArticleService.ValidAddedAppend | backend/src/application/article_service.rs:168 | `retain` handles each record on its own: with `ValidAddedSingle`, it is an in-order filter that keeps repeated records |
| ArticleService.Reconcile | backend/src/application/article_service.rs:157-177 | name and owner errors come first and unchanged |
| ArticleService.Plan | backend/src/application/article_service.rs:179-182 | upsert before delete before commit; each batch is staged exactly when non-empty |
| ArticleService.RunTx | backend/src/application/article_service.rs:179-182 | statements run in order until the first failure, whose error is the result |
| ArticleService.CreateIndex | backend/src/application/article_service.rs:480-501 | success loads all stored articles into the named index with the three searchable fields and key `id` |
| ArticleService.ProcessPushEvent | backend/src/application/article_service.rs:154-187 | a failed reconciliation or transaction start touches nothing; the index is rebuilt only after a commit |
| ArticleService.ProcessGithubWebhookEvent | backend/src/application/article_service.rs:108-137 | name errors propagate; a repository outside the allow-list gives `Ok(())` with no effect; only pushes from allowed repositories stage anything |
| Reconciliation.ReconcileParts | backend/src/application/article_service.rs:157-177 | a successful reconciliation upserts modified, renamed, then new articles and deletes the leftover IDs |
| Reconciliation.OnlyModifiedOverlapDeletes | backend/src/application/article_service.rs:173-181 | only an article of a modified file can be both upserted and deleted |
| Reconciliation.AddedUpsertsValid | backend/src/application/article_service.rs:168 | every upserted article not from a modified file has a content-file path |
| Reconciliation.RenameBecomesUpdate | backend/src/application/article_service.rs:243-252 | a new path carrying a removed path's ID is upserted, and nothing is deleted |
| Reconciliation.RenameClaimsId | backend/src/application/article_service.rs:243-252 | for any paths: an added file carrying the ID of the removed file becomes a rename, claims that ID, and leaves nothing to delete |
| Reconciliation.ModifiedOnly | backend/src/application/article_service.rs:157-182 | for any path and removed files: one modified file and nothing added upserts that file's article and deletes every removed ID |
| Reconciliation.ModifiedFilesUnfiltered | backend/src/application/article_service.rs:162-168 | a modified `notes.txt` is upserted although the filter refuses it |
| Reconciliation.ModifiedArticleCanBeDeleted | backend/src/application/article_service.rs:173-181 | a modified file's article can sit in both the upsert list and the delete set |
| Reconciliation.SuccessfulPush | backend/src/application/article_service.rs:108-187 | with every collaborator succeeding, a push stages its plan, commits and rebuilds the index |
| Reconciliation.FailedStatementNoCommit | backend/src/application/article_service.rs:179-184 | a failing statement stops before `commit`, and the index is not rebuilt |
| WebhookHandlers.ActionFor | backend/src/interfaces/http/handlers/webhook.rs:69-116 | `added` goes to the added-file handler, `modified` to the modified-file handler, `removed` to the removed-file handler, each for the record's path; any other status picks none |
| WebhookHandlers.Dispatch | backend/src/interfaces/http/handlers/webhook.rs:67-118 | at most one action per change |
| WebhookHandlers.DispatchAppend | backend/src/interfaces/http/handlers/webhook.rs:67-118 | dispatching two runs of changes is dispatching each in turn: one file's outcome does not affect the next |
| WebhookHandlers.DispatchSound | backend/src/interfaces/http/handlers/webhook.rs:67-118 | every action comes from a content file with a known status |
| WebhookHandlers.DispatchComplete | backend/src/interfaces/http/handlers/webhook.rs:67-118 | every such file gets its action |
| WebhookHandlers.RecordsHandled | backend/src/interfaces/http/handlers/webhook.rs:68 | a change record is acted on exactly when its path passes the filter |
| WebhookHandlers.EventType | backend/src/interfaces/http/handlers/webhook.rs:23-29 | a missing event header is `MissingHeader`, a non-text one `InvalidHeader` |
| WebhookHandlers.ParseDelivery | backend/src/interfaces/http/handlers/webhook.rs:23-34 | succeeds exactly when the header is text and the body parses as that event |
| WebhookHandlers.PushActions | backend/src/interfaces/http/handlers/webhook.rs:45-121 | no name or owner, or no push, means no actions |
| WebhookHandlers.PushActionsByList | backend/src/interfaces/http/handlers/webhook.rs:65-118 | the actions are the dispatch of the added, removed and modified lists in turn |
| WebhookHandlers.GithubWebhook | backend/src/interfaces/http/handlers/webhook.rs:16-42 | a header that is not authentic fails with `VerifySignatureFailed` and no actions, before any other header is read; an authentic one is handled as `AfterSignature` |
| WebhookHandlers.AfterSignature | backend/src/interfaces/http/handlers/webhook.rs:23-41 | a parse error is returned with no actions; once parsed, the answer is "Webhook received" and the push's actions run |
| WebhookHandlers.LegacyPushActions | backend/src/handlers/webhook.rs:103-179 | the same per-file loop, after the name and owner checks |
| WebhookHandlers.LegacyProcessPayload | backend/src/handlers/webhook.rs:78-100 | only a name error fails; a repository outside the allow-list or a non-push event acts on nothing |
| WebhookHandlers.LegacyGithubWebhook | backend/src/handlers/webhook.rs:17-45 | the same check order as the layered handler: an unauthentic header fails with `VerifySignatureFailed` and no actions; an authentic one is handled as `LegacyAfterSignature` |
| WebhookHandlers.LegacyAfterSignature | backend/src/handlers/webhook.rs:26-44 | a parse error is returned with no actions; once parsed, the answer is "Webhook received", and actions run only for a push from an allowed repository |
| WebhookHandlers.ResponsesAgree | backend/src/handlers/webhook.rs:17-45 | both handlers answer every delivery alike |
| WebhookHandlers.ActionsAgree | backend/src/handlers/webhook.rs:78-100 | both act on the same files for a push from an allowed repository |
| WebhookHandlers.LayeredIgnoresAllowList | backend/src/interfaces/http/handlers/webhook.rs:45-67 | where the layered handler acts, an empty allow-list stops the older one |
| WebhookHandlers.ProcessWebhookPayload | backend/src/infrastructure/github/webhook_parser.rs:8-33 | name errors propagate unchanged; an unlisted name is "Repository not allowed"; a listed one gives the event kind |
| WebhookHandlers.ParserMatchesLegacyGate | backend/src/infrastructure/github/webhook_parser.rs:12-18 | the parser accepts exactly the events the older payload step acts on |
| ArticleHandlers.PageQueryOf | backend/src/interfaces/http/handlers/articles.rs:35-40 | page at least 1, page size clamped to [1, 100], offset `(page - 1) * size` without overflow and 0 for the first page |
| ArticleHandlers.GetPosts | backend/src/interfaces/http/handlers/articles.rs:28-60 | `get_posts`: the database receives the clamped query of `ArticleHandlers.PageQueryOf`, and its result or error is returned unchanged |
| ArticleHandlers.PagesTile | backend/src/interfaces/http/handlers/articles.rs:36-40 | page n + 1 starts where page n ends |
| ArticleHandlers.ClampIdempotent | backend/src/handlers/articles.rs:86-90 | clamping the clamped parameters changes nothing |
| ArticleHandlers.DefaultQuery | backend/src/handlers/articles.rs:24-39 | no parameters ask for the first twenty rows |
| ArticleHandlers.OffsetWraps | backend/src/interfaces/http/handlers/articles.rs:40 | past the last exact page the `i64` offset wraps negative |
| ArticleHandlers.GetPostDigital | backend/src/interfaces/http/handlers/articles.rs:62-80 | an unparseable category is `CategoryError` without a lookup; a missing row is `ArticleNotFound`; lookup errors pass through |
| ArticleHandlers.DigitalStatuses | backend/src/handlers/articles.rs:112-130 | a bad category answers 400, a missing post 404 |
| ArticleHandlers.LegacyGetPosts | backend/src/articles.rs:37-57 | an unknown category is refused before any query; a valid one is queried unchanged |
| ArticleHandlers.LegacyCategoryCheck | backend/src/articles.rs:38-44 | the list accepts exactly the parser's names; a refusal reads "Invalid Category type." with status 400 |
| Search.TrimEmptyIffBlank | backend/src/interfaces/http/handlers/search.rs:79 | `trim()` leaves nothing exactly for empty or white-space-only text |
| Search.TrimmedEmpty | backend/src/interfaces/http/handlers/search.rs:79 | `q.trim().is_empty()` holds exactly for blank queries |
| Search.FormattedText | backend/src/infrastructure/search/index.rs:218-231 | the formatted string when present and a string, "" otherwise |
| Search.ToHit | backend/src/infrastructure/search/index.rs:205-231 | ID, title and category copied; summary and content from the formatted result, "" when it is missing |
| Search.MapHits | backend/src/infrastructure/search/index.rs:205-235 | one result per hit, in order |
| Search.TotalPages | backend/src/infrastructure/search/index.rs:202-203 | `(total + limit - 1) / limit` when the sum fits in `usize` |
| Search.TotalPagesIsCeiling | backend/src/infrastructure/search/index.rs:202-203 | the page count is the ceiling of total over limit, and 0 exactly when there are no hits |
| Search.EmptyResponse | backend/src/interfaces/http/handlers/search.rs:79-86 | nothing found, no pages, the requested page echoed |
| Search.ResponseOf | backend/src/infrastructure/search/index.rs:202-237 | missing totals count as 0, the pages are their ceiling, the hits are mapped |
| Search.ServiceSearch | backend/src/infrastructure/search/index.rs:177-238 | asks for offset `(max(page, 1) - 1) * limit`; fails exactly when the engine does, as `Meilisearch`; the current page is at least 1 |
| Search.ServiceOffset | backend/src/infrastructure/search/index.rs:186-187 | without overflow the offset skips exactly the earlier pages |
| Search.GetSearchResults | backend/src/interfaces/http/handlers/search.rs:73-101 | a blank query answers empty with the raw page; otherwise the service's answer for index "articles", limit 6, errors propagated |
| Search.LegacyGetSearchResults | backend/src/handlers/search.rs:129-211 | the same blank rule; offset `6 * (current - 1)`; fails exactly when the engine does |
| Search.HandlersAgree | backend/src/search.rs:104-176 | the older and layered handlers succeed together, with the same response and the same engine error |
| Search.FindKey | backend/src/infrastructure/search/index.rs:165-168 | nothing found exactly when no key has the name |
| Search.FindKeyFirst | backend/src/infrastructure/search/index.rs:140-173 | the key found is the first one with the name |
| Search.GetStandardKey | backend/src/infrastructure/search/index.rs:140-160 | listing errors pass through; the first key with the fixed name, else the admin or search not-found error |
| Search.GetCustomKey | backend/src/infrastructure/search/index.rs:162-173 | the first key with the name, else `CustomApiKeyNotFound(name)` |
| Search.LegacyGetKey | backend/src/search.rs:214-232 | listing errors become `Meilisearch`; the lookup succeeds exactly when a key has the fixed admin or search name or the given name, returning the first such key; otherwise `DefaultAdminApiKeyNotFound`, `DefaultSearchApiKeyNotFound` or `KeyNameNotFound(name)` |
| Search.KeyLookupsAgree | backend/src/handlers/search.rs:254-287 | the older single lookup succeeds exactly when the newer ones do, with the same secret for the admin, search and custom keys |
| Search.StandardIsCustom | backend/src/infrastructure/search/index.rs:140-173 | a standard lookup is a custom lookup of its fixed name, up to the error |
| Mocks.WithArticles | backend/tests/common/mod.rs:48-56 | every article's ID is a key and every key is some article's ID |
| Mocks.WithArticlesLastWins | backend/tests/common/mod.rs:48-56 | a later article with the same ID replaces an earlier one |
| Mocks.WithArticlesWellKeyed | backend/tests/common/mod.rs:48-56 | every article is stored under its own ID |
| Mocks.FindOptionalById | backend/tests/common/mod.rs:61-64 | found exactly when stored, with the stored article |
| Mocks.Save | backend/tests/common/mod.rs:66-70 | the saved article is then found; no other ID changes |
| Mocks.DeleteByPath | backend/tests/common/mod.rs:72-77 | the key is then absent; no other key changes; an absent key is a no-op |
| Mocks.SaveThenDelete | backend/tests/common/mod.rs:303-313 | deleting a freshly saved article restores the repository |
| Mocks.GetPostById | backend/tests/common/mod.rs:109-115 | the stored article, or `ArticleNotFound` |
| Mocks.GetAll | backend/tests/common/mod.rs:117-120 | every stored article exactly once |
| Mocks.NewestFirstPairs | backend/tests/common/mod.rs:92 | in a newest-first list every earlier article is at least as new as every later one |
| Mocks.InsertByDate | backend/tests/common/mod.rs:92 | inserting keeps the list newest-first and adds exactly the one article |
| Mocks.SortByDate | backend/tests/common/mod.rs:92 | the sort is a newest-first permutation |
| Mocks.I64AsUsize | backend/tests/common/mod.rs:96-97 | non-negative values are kept; a negative value `x` becomes `x + 2^64`, at least 2^63 |
| Mocks.WindowLength | backend/tests/common/mod.rs:94-97 | `skip` then `take` yields at most `take` rows and never passes the end |
| Mocks.ToResponse | backend/tests/common/mod.rs:98-103 | the listing row copies ID, title, tags and summary |
| Mocks.FilterCategory | backend/tests/common/mod.rs:86-89 | exactly the category's articles, each once |
| Mocks.GetPostsByCategory | backend/tests/common/mod.rs:79-107 | the category's articles newest first, then the window at the cast offset and size |
| Mocks.TwentyFiveArticlesPaged | backend/tests/service_tests.rs:95-139 | 25 articles read 10 at a time give 10, 10 and 5; an empty category gives none |
| Mocks.NegativeCasts | backend/tests/common/mod.rs:96-97 | a negative offset skips everything; a negative size takes everything |
| Mocks.MockSearch | backend/tests/common/mod.rs:151-168 | an unknown query finds nothing; the total is the hit count; the page is the slice at `(page - 1) * limit`; the page is echoed |
| Mocks.MockSearchPaging | backend/tests/common/mod.rs:160-165 | the page count is the ceiling, and pages up to it are non-empty while later ones are empty |
| Mocks.FifteenHitsPaged | backend/tests/service_tests.rs:228-266 | 15 hits 5 at a time: three full pages |
| Mocks.TwentyHitsPageSizes | backend/tests/service_tests.rs:291-323 | 20 hits with sizes 10, 5 and 20 give 2, 4 and 1 pages; an unknown query gives none |
| Mocks.MockFileContent | backend/tests/common/mod.rs:203-209 | the stored text, or "File not found" with the path |

## Left out

- HMAC-SHA256 and SHA-256 are an uninterpreted parameter. Constant-time comparison is a timing property and cannot be stated.
- Front-matter YAML parsing (gray_matter) and JSON (de)serialisation are parameters. So are the event parser `WebhookEvent::try_from_header_and_body` and `ParsedEntity` handling.
- The GitHub API client, base64 and UTF-8 decoding of its answers, and the concurrency of `fetch_files`. Each fetch is a given result, and results are assumed to come back in input order.
- SQL and the transaction. `begin_transaction`, `upsert_batch`, `delete_batch`, `commit`, `get_by_paths` and `get_all` are parameters. Atomicity is the database's property.
- Meilisearch calls are left out: health checks, fetching keys over HTTP, index creation, `update_or_add_index_item`, `delete_index_item`, `get_search_result` and `create_search_index`. `create_index` is modelled only as the job it submits.
- `ArticleService.get_posts_by_category`, `get_article_by_id` and `search` only forward to the repository or the search service. Those are modelled by `Mocks` and `Search.ServiceSearch`.
- Routing, startup, configuration loading, `AppState` and the configuration file watcher are I/O and concurrency.
- `OffsetDateTime::now_utc()` is the `now` parameter.
- Logging is left out. The older `process_added_file`, `process_modified_file` and `process_removed_file` fetch and parse a file or only log it, and change no state. They are modelled as the recorded action.
- `find_optional_by_file_path` in the test mock is `todo!()`.
- `MockSearchService::create_index_client` is unimplemented.
- `create_test_article` and `create_test_search_hit` read the clock and format strings.
- Mocks.GetAll: the order of the result is left open, because it is the iteration order of a `HashMap`.
- Mocks.GetPostsByCategory: the order among articles with equal creation times is left open, because it comes from a `HashMap` iteration before a stable sort.
- Search.ServiceSearch: requires a limit of at least 1, because `limit == 0` divides by zero and panics.
- Mocks.MockSearch: requires a limit of at least 1 for the same reason. A page of 0 is modelled as the `usize` wrap of a release build.
- Search.TotalPagesIsCeiling: the ceiling is stated only when `total + limit - 1` fits in `usize`. Beyond that the sum wraps, as `Search.TotalPages` states.
- ArticleHandlers.PageQueryOf: the exact offset is stated up to the last page whose offset fits in `i64`. Beyond that it wraps, as `ArticleHandlers.OffsetWraps` shows.

=== FILE: article_handlers.dfy ===
/**
 The article HTTP handlers: the paged listing `get_posts`, the single-post
 lookup `get_post_digital`, and the older unpaged listing that validates the
 category string itself. The database is a parameter; what the handlers
 decide is which query they send and how its outcome becomes a response.

 `page` and `page_size` are `i64`; the offset `(page - 1) * page_size` is
 computed in `i64` and wraps on overflow (the behaviour of a release build).
 */
module ArticleHandlers {
  import opened Wrappers
  import opened Category
  import Errors
  import LegacyErrors

  const MaxPageSize: int := 100

  const I64Min: int := -0x8000_0000_0000_0000
  const I64Max: int := 0x7fff_ffff_ffff_ffff
  const TwoTo64: int := 0x1_0000_0000_0000_0000

  predicate InI64(x: int) {
    I64Min <= x <= I64Max
  }

  /** Two's-complement wrap-around of a mathematical integer into `i64`. */
  function WrapI64(x: int): (r: int)
    ensures InI64(r)
    ensures (x - r) % TwoTo64 == 0
    ensures InI64(x) ==> r == x
  {
    (x - I64Min) % TwoTo64 + I64Min
  }

  /** The largest page whose offset is computed without overflow for every
      page size the handler allows. */
  const LastExactPage: int := I64Max / MaxPageSize + 1

  /** The `LIMIT`/`OFFSET` query `get_posts` sends for one category. */
  datatype PageQuery = PageQuery(category: string, limit: int, offset: int)

  function Max(a: int, b: int): int { if a >= b then a else b }
  function Min(a: int, b: int): int { if a <= b then a else b }

  /** `page.max(1)`, `page_size.min(MAX_PAGE_SIZE).max(1)` and the offset. */
  function PageQueryOf(p: PostParams): (q: PageQuery)
    requires InI64(p.page) && InI64(p.pageSize)
    ensures q.category == AsStr(p.category) && q.category in CategoryNames
    ensures 1 <= q.limit <= MaxPageSize
    ensures 1 <= p.pageSize <= MaxPageSize ==> q.limit == p.pageSize
    ensures p.pageSize < 1 ==> q.limit == 1
    ensures p.pageSize > MaxPageSize ==> q.limit == MaxPageSize
    ensures InI64(q.offset)
    ensures p.page <= LastExactPage ==> 0 <= q.offset && q.offset == (Max(p.page, 1) - 1) * q.limit
    ensures p.page <= 1 ==> q.offset == 0
  {
    var page := Max(p.page, 1);
    var size := Max(Min(p.pageSize, MaxPageSize), 1);
    OffsetFits(page, size);
    PageQuery(AsStr(p.category), size, WrapI64((page - 1) * size))
  }

  /** Up to `LastExactPage` the offset of a clamped query fits in `i64`. */
  lemma OffsetFits(page: int, size: int)
    requires 1 <= page && 1 <= size <= MaxPageSize
    ensures page <= LastExactPage ==> 0 <= (page - 1) * size <= I64Max
  {
    if page <= LastExactPage {
      var n := page - 1;
      MulBound(n, size, MaxPageSize);
      assert n * MaxPageSize <= (I64Max / MaxPageSize) * MaxPageSize;
    }
  }

  lemma MulBound(n: nat, a: nat, b: nat)
    requires a <= b
    ensures 0 <= n * a <= n * b
  {
  }

  /** `get_posts`: the query's rows or the database's error. */
  function GetPosts<R>(p: PostParams, db: PageQuery -> Result<seq<R>, Errors.SomeError>): Result<seq<R>, Errors.SomeError>
    requires InI64(p.page) && InI64(p.pageSize)
  {
    db(PageQueryOf(p))
  }

  /** Consecutive pages follow one another: page `n + 1` starts where page `n`
      ends, so walking the pages visits every row once. */
  lemma PagesTile(c: PostCategory, page: int, pageSize: int)
    requires 1 <= page < LastExactPage && InI64(pageSize)
    ensures var q1 := PageQueryOf(PostParams(c, page, pageSize));
            var q2 := PageQueryOf(PostParams(c, page + 1, pageSize));
            q2.limit == q1.limit && q2.offset == q1.offset + q1.limit
  {
  }

  /** Clamping is idempotent: the query for the clamped parameters is the
      query for the original ones. */
  lemma ClampIdempotent(p: PostParams)
    requires InI64(p.page) && InI64(p.pageSize) && p.page <= LastExactPage
    ensures var q := PageQueryOf(p);
            PageQueryOf(PostParams(p.category, Max(p.page, 1), q.limit)) == q
  {
  }

  /** A query string with neither number asks for the first twenty rows. */
  lemma DefaultQuery(c: PostCategory)
    ensures PageQueryOf(PostParamsFromQuery(c, None, None)) == PageQuery(AsStr(c), 20, 0)
  {
  }

  /** Past `LastExactPage` the offset wraps: the largest page with the largest
      size yields a negative offset. */
  lemma OffsetWraps(c: PostCategory)
    ensures PageQueryOf(PostParams(c, I64Max, MaxPageSize)).offset < 0
    ensures PageQueryOf(PostParams(c, I64Max, MaxPageSize)).offset == -200
  {
    var x := (I64Max - 1) * MaxPageSize;
    assert x - TwoTo64 * 50 == -200;
    assert (x - I64Min) % TwoTo64 == -200 - I64Min;
  }

  /** `get_post_digital`: the category must parse, then the lookup by category
      and ID must find a row. */
  function GetPostDigital<A>(category: string, id: string,
                             fetch: (PostCategory, string) -> Result<Option<A>, Errors.SomeError>): (r: Result<A, Errors.SomeError>)
    ensures FromStr(category).Failure? ==> r == Failure(Errors.GetPosts(Errors.CategoryError))
    ensures FromStr(category).Success? && fetch(FromStr(category).value, id).Failure? ==>
              r == Failure(fetch(FromStr(category).value, id).error)
    ensures FromStr(category).Success? && fetch(FromStr(category).value, id) == Success(None) ==>
              r == Failure(Errors.GetPosts(Errors.ArticleNotFound))
    ensures r.Success? <==> FromStr(category).Success? && fetch(FromStr(category).value, id).Success?
                            && fetch(FromStr(category).value, id).value.Some?
    ensures r.Success? ==> r.value == fetch(FromStr(category).value, id).value.value
  {
    match FromStr(category)
    case Failure(_) => Failure(Errors.GetPosts(Errors.CategoryError))
    case Success(c) =>
      match fetch(c, id)
      case Failure(e) => Failure(e)
      case Success(None) => Failure(Errors.GetPosts(Errors.ArticleNotFound))
      case Success(Some(a)) => Success(a)
  }

  /** A bad category is a 400 and a missing post a 404; the lookup is only
      made for a category that parsed. */
  lemma DigitalStatuses<A>(category: string, id: string, fetch: (PostCategory, string) -> Result<Option<A>, Errors.SomeError>)
    ensures category !in CategoryNames ==>
              Errors.IntoResponse(GetPostDigital(category, id, fetch).error).status == 400
    ensures category in CategoryNames && fetch(FromStr(category).value, id) == Success(None) ==>
              Errors.IntoResponse(GetPostDigital(category, id, fetch).error).status == 404
  {
    if category !in CategoryNames {
      Errors.StatusTable(Errors.GetPosts(Errors.CategoryError));
    } else if fetch(FromStr(category).value, id) == Success(None) {
      Errors.StatusTable(Errors.GetPosts(Errors.ArticleNotFound));
    }
  }

  // ---------------------------------------------------------------------
  // The older unpaged listing

  /** The list `get_posts` of the older tree checks the category against. */
  const ValidCategories: seq<string> := ["article", "note", "think", "pictures", "talk"]

  /** Older `get_posts`: an unknown category string is refused before any
      query; otherwise every row of the category is returned. */
  function LegacyGetPosts<R>(category: string, query: string -> Result<seq<R>, LegacyErrors.SomeError>): (r: Result<seq<R>, LegacyErrors.SomeError>)
    ensures category !in ValidCategories ==> r == Failure(LegacyErrors.GetPosts(LegacyErrors.CategoryError))
    ensures category in ValidCategories ==> r == query(category)
  {
    if category !in ValidCategories then Failure(LegacyErrors.GetPosts(LegacyErrors.CategoryError))
    else query(category)
  }

  /** The hand-written list accepts exactly the names the category parser
      accepts, and a refusal reads "Invalid Category type." with status 400. */
  lemma LegacyCategoryCheck<R>(category: string, query: string -> Result<seq<R>, LegacyErrors.SomeError>)
    ensures category in ValidCategories <==> FromStr(category).Success?
    ensures category !in ValidCategories ==>
              LegacyErrors.Display(LegacyGetPosts(category, query).error) == "Invalid Category type."
              && LegacyErrors.IntoResponse(LegacyGetPosts(category, query).error).status == 400
  {
    assert forall s :: s in ValidCategories <==> s in CategoryNames;
  }
}

=== FILE: article_service.dfy ===
/**
 The reconciliation engine of `ArticleService`: from the file changes of one
 push it builds the articles to upsert and the IDs to delete, matching
 added files against removed ones by the front-matter ID so that a rename
 becomes an update, then stages both batches in one transaction and
 rebuilds the search index.

 The collaborators the service calls through traits (the GitHub client,
 the front-matter parser, the repository's path lookup, the transaction
 and the search service) are parameters bundled in `Env`.
 */
module ArticleService {
  import opened Wrappers
  import opened TimeUtils
  import Category
  import opened Errors
  import opened GithubEvents
  import opened FileFilter

  /** `ArticleFrontMatter`. */
  datatype FrontMatter = FrontMatter(
    id: string, title: string, tags: seq<string>, category: Category.PostCategory,
    summary: Option<string>, status: string)

  /** `Article` as `build_article` fills it: with the file's path and the
      front matter's optional summary. */
  datatype Article = Article(
    id: string, path: string, title: string, tags: seq<string>, category: Category.PostCategory,
    summary: Option<string>, content: string, status: string,
    createdAt: OffsetTime, updatedAt: OffsetTime)

  /** What the front-matter parser returns: the typed data, if the block
      deserialised, and the body after it. */
  datatype Parsed = Parsed(data: Option<FrontMatter>, content: string)

  /** One fetched file: its commit's time, the content or the fetch error, and its path. */
  datatype FetchedFile = FetchedFile(timestamp: ChronoTime, content: Result<string, SomeError>, path: string)

  /** The statements a push stages in its transaction. */
  datatype TxOp = UpsertBatch(articles: seq<Article>) | DeleteBatch(ids: set<string>) | CommitTx

  /** The search-index rebuild `create_index` performs. */
  datatype IndexJob = IndexJob(index: string, searchable: seq<string>, documents: seq<Article>, primaryKey: string)

  datatype Env = Env(
    getContent: (string, string, string) -> Result<string, SomeError>,
    parse: string -> Result<Parsed, SomeError>,
    getByPaths: seq<string> -> Result<set<string>, SomeError>,
    now: OffsetTime,
    begin: Result<Unit, SomeError>,
    exec: TxOp -> Result<Unit, SomeError>,
    createIndexClient: (string, seq<string>) -> Result<Unit, SomeError>,
    getAll: Result<seq<Article>, SomeError>,
    addDocuments: IndexJob -> Result<Unit, SomeError>)

  const ExtractFailedMessage: string := "Extract article info failed."
  const DefaultSearchIndex: string := "articles"
  const SearchableAttributes: seq<string> := ["title", "content", "summary"]

  /** `build_article`. */
  function BuildArticle(fm: FrontMatter, path: string, content: string, createdAt: OffsetTime, updatedAt: OffsetTime): Article {
    Article(fm.id, path, fm.title, fm.tags, fm.category, fm.summary, content, fm.status, createdAt, updatedAt)
  }

  /** `extract_article`: a parser error is passed on, and a front-matter block
      that did not deserialise is its own error. */
  function ExtractArticle(content: string, parse: string -> Result<Parsed, SomeError>): (r: Result<(FrontMatter, string), SomeError>)
    ensures r.Success? <==> parse(content).Success? && parse(content).value.data.Some?
    ensures parse(content).Failure? ==> r == Failure(parse(content).error)
    ensures parse(content).Success? && parse(content).value.data.None? ==>
              r == Failure(Other(Message(ExtractFailedMessage)))
    ensures r.Success? ==> r.value.0 == parse(content).value.data.value && r.value.1 == parse(content).value.content
  {
    match parse(content)
    case Failure(e) => Failure(e)
    case Success(p) =>
      match p.data
      case None => Failure(Other(Message(ExtractFailedMessage)))
      case Some(info) => Success((info, p.content))
  }

  /** `chrono_to_offset(timestamp).unwrap_or_else(|_| now)`. */
  function ArticleTime(ts: ChronoTime, now: OffsetTime): (t: OffsetTime)
    ensures ChronoToOffset(ts).Success? ==> t.seconds == ts.seconds && t.nanos == ts.nanos
    ensures ChronoToOffset(ts).Failure? ==> t == now
  {
    match ChronoToOffset(ts)
    case Success(t) => t
    case Failure(_) => now
  }

  /** Fetching the listed files one by one through `get_file_content`, in order. */
  function FetchFiles(owner: string, repo: string, changes: seq<FileChange>, env: Env): (r: seq<FetchedFile>)
    ensures |r| == |changes|
    ensures forall i :: 0 <= i < |r| ==> r[i].path == changes[i].filePath && r[i].timestamp == changes[i].timestamp
    ensures forall i :: 0 <= i < |r| ==> r[i].content == env.getContent(owner, repo, changes[i].filePath)
  {
    seq(|changes|, i requires 0 <= i < |changes| =>
      FetchedFile(changes[i].timestamp, env.getContent(owner, repo, changes[i].filePath), changes[i].filePath))
  }

  /** The front matter and body of a file whose fetch and extraction both succeeded. */
  function Usable(f: FetchedFile, env: Env): (r: Option<(FrontMatter, string)>)
    ensures r.Some? <==> f.content.Success? && ExtractArticle(f.content.value, env.parse).Success?
  {
    if f.content.Failure? then None
    else match ExtractArticle(f.content.value, env.parse)
      case Success(v) => Some(v)
      case Failure(_) => None
  }

  /** The article built from a usable file. */
  function ArticleOf(f: FetchedFile, env: Env): (a: Article)
    requires Usable(f, env).Some?
    ensures a.path == f.path && a.id == Usable(f, env).value.0.id
    ensures a.createdAt == a.updatedAt == ArticleTime(f.timestamp, env.now)
    ensures var (fm, body) := Usable(f, env).value;
            && a.title == fm.title && a.tags == fm.tags && a.category == fm.category
            && a.summary == fm.summary && a.status == fm.status && a.content == body
  {
    var (info, body) := Usable(f, env).value;
    var t := ArticleTime(f.timestamp, env.now);
    BuildArticle(info, f.path, body, t, t)
  }

  /** `process_modified_event`'s loop: the articles of the usable files, in order. */
  function Built(files: seq<FetchedFile>, env: Env): (r: seq<Article>)
    ensures |r| <= |files|
    decreases |files|
  {
    if files == [] then []
    else
      var prev := Built(files[..|files| - 1], env);
      var f := files[|files| - 1];
      if Usable(f, env).Some? then prev + [ArticleOf(f, env)] else prev
  }

  /** Every built article comes from one of the files, with that file's path. */
  lemma {:induction false} BuiltFromFiles(files: seq<FetchedFile>, env: Env, a: Article)
    requires a in Built(files, env)
    ensures exists i :: 0 <= i < |files| && files[i].path == a.path && Usable(files[i], env).Some?
    decreases |files|
  {
    var init := files[..|files| - 1];
    var f := files[|files| - 1];
    if Usable(f, env).Some? && a == ArticleOf(f, env) {
      assert files[|files| - 1].path == a.path;
    } else {
      BuiltFromFiles(init, env, a);
      var i :| 0 <= i < |init| && init[i].path == a.path && Usable(init[i], env).Some?;
      assert files[i] == init[i];
    }
  }

  /** The loop over one file: its article when it is usable, nothing otherwise. */
  lemma BuiltSingle(f: FetchedFile, env: Env)
    ensures Built([f], env) == if Usable(f, env).Some? then [ArticleOf(f, env)] else []
  {
    assert [f][..0] == [];
  }

  /** The loop handles each file on its own: together with `BuiltSingle` this
      makes `Built` the in-order map of `ArticleOf` over the usable files. */
  lemma {:induction false} BuiltAppend(a: seq<FetchedFile>, b: seq<FetchedFile>, env: Env)
    ensures Built(a + b, env) == Built(a, env) + Built(b, env)
    decreases |b|
  {
    if b == [] {
      assert a + b == a;
    } else {
      var init := b[..|b| - 1];
      assert (a + b)[..|a + b| - 1] == a + init;
      assert (a + b)[|a + b| - 1] == b[|b| - 1];
      BuiltAppend(a, init, env);
    }
  }

  /** A failed file does not stop the loop: every usable file yields its article. */
  lemma BuiltComplete(files: seq<FetchedFile>, env: Env, i: int)
    requires 0 <= i < |files| && Usable(files[i], env).Some?
    ensures ArticleOf(files[i], env) in Built(files, env)
  {
    var pre := files[..i];
    var post := files[i + 1..];
    assert files == pre + [files[i]] + post;
    BuiltAppend(pre + [files[i]], post, env);
    BuiltAppend(pre, [files[i]], env);
    BuiltSingle(files[i], env);
  }

  lemma BuiltCompleteAll(files: seq<FetchedFile>, env: Env)
    ensures forall i :: 0 <= i < |files| && Usable(files[i], env).Some? ==> ArticleOf(files[i], env) in Built(files, env)
  {
    forall i | 0 <= i < |files| && Usable(files[i], env).Some?
      ensures ArticleOf(files[i], env) in Built(files, env)
    {
      BuiltComplete(files, env, i);
    }
  }

  /** A usable first file yields the first article. */
  lemma BuiltFirst(files: seq<FetchedFile>, env: Env)
    requires files != [] && Usable(files[0], env).Some?
    ensures |Built(files, env)| > 0 && Built(files, env)[0] == ArticleOf(files[0], env)
  {
    assert files == [files[0]] + files[1..];
    BuiltAppend([files[0]], files[1..], env);
    BuiltSingle(files[0], env);
  }

  /** The articles come out in the order of their files. */
  lemma BuiltInOrder(files: seq<FetchedFile>, env: Env, i: int, j: int)
    requires 0 <= i < j < |files| && Usable(files[i], env).Some? && Usable(files[j], env).Some?
    ensures exists k, l :: 0 <= k < l < |Built(files, env)| &&
              Built(files, env)[k] == ArticleOf(files[i], env) && Built(files, env)[l] == ArticleOf(files[j], env)
  {
    var pre := files[..j];
    var post := files[j..];
    assert files == pre + post;
    assert pre[i] == files[i] && post[0] == files[j];
    BuiltAppend(pre, post, env);
    BuiltComplete(pre, env, i);
    BuiltFirst(post, env);
    var k :| 0 <= k < |Built(pre, env)| && Built(pre, env)[k] == ArticleOf(files[i], env);
    var l := |Built(pre, env)|;
    assert Built(files, env)[k] == ArticleOf(files[i], env);
    assert Built(files, env)[l] == ArticleOf(files[j], env);
  }

  /** `process_modified_event`: never fails; unreadable and unparseable files
      are skipped, and every other modified file yields its article. */
  function ProcessModifiedEvent(owner: string, repo: string, modified: seq<FileChange>, env: Env): (r: Result<seq<Article>, SomeError>)
    ensures r.Success?
    ensures |r.value| <= |modified|
    ensures forall i :: 0 <= i < |modified| && Usable(FetchFiles(owner, repo, modified, env)[i], env).Some? ==>
              ArticleOf(FetchFiles(owner, repo, modified, env)[i], env) in r.value
    ensures forall a :: a in r.value ==> exists i :: 0 <= i < |modified| && modified[i].filePath == a.path
  {
    var files := FetchFiles(owner, repo, modified, env);
    BuiltCompleteAll(files, env);
    BuiltSound(files, env);
    Success(Built(files, env))
  }

  lemma BuiltSound(files: seq<FetchedFile>, env: Env)
    ensures forall a :: a in Built(files, env) ==> exists i :: 0 <= i < |files| && files[i].path == a.path
  {
    forall a | a in Built(files, env)
      ensures exists i :: 0 <= i < |files| && files[i].path == a.path
    {
      BuiltFromFiles(files, env, a);
    }
  }

  // ---------------------------------------------------------------------
  // Added and removed files

  /** The state of `process_added_and_removed_event`'s loop: new articles,
      renamed articles, and the IDs of removed files not yet claimed. */
  datatype Split = Split(add: seq<Article>, renamed: seq<Article>, removed: set<string>)

  function Ids(s: seq<Article>): (r: set<string>)
    ensures forall a :: a in s ==> a.id in r
    ensures forall x :: x in r ==> exists a :: a in s && a.id == x
  {
    set a | a in s :: a.id
  }

  /** One iteration: a usable file whose ID a removed file held is a rename
      and claims that ID; any other usable file is a new article. */
  function Step(acc: Split, f: FetchedFile, env: Env): (r: Split)
    ensures acc.add <= r.add && acc.renamed <= r.renamed && r.removed <= acc.removed
    ensures |r.add| + |r.renamed| <= |acc.add| + |acc.renamed| + 1
    ensures Usable(f, env).Some? ==> ArticleOf(f, env) in r.add + r.renamed
  {
    match Usable(f, env)
    case None => acc
    case Some(_) =>
      var a := ArticleOf(f, env);
      if a.id in acc.removed then Split(acc.add, acc.renamed + [a], acc.removed - {a.id})
      else Split(acc.add + [a], acc.renamed, acc.removed)
  }

  /** The loop over the fetched added files, starting from the removed files' IDs. */
  function Fold(files: seq<FetchedFile>, removedIds: set<string>, env: Env): (r: Split)
    ensures r.removed <= removedIds
    ensures |r.add| + |r.renamed| <= |files|
    decreases |files|
  {
    if files == [] then Split([], [], removedIds)
    else Step(Fold(files[..|files| - 1], removedIds, env), files[|files| - 1], env)
  }

  /** The IDs still to delete are exactly the removed IDs no rename claimed,
      and every rename claimed one of them. */
  lemma {:induction false} FoldRemovedIds(files: seq<FetchedFile>, removedIds: set<string>, env: Env)
    ensures Fold(files, removedIds, env).removed == removedIds - Ids(Fold(files, removedIds, env).renamed)
    ensures Ids(Fold(files, removedIds, env).renamed) <= removedIds
    decreases |files|
  {
    if files != [] {
      var init := files[..|files| - 1];
      FoldRemovedIds(init, removedIds, env);
      var acc := Fold(init, removedIds, env);
      var f := files[|files| - 1];
      if Usable(f, env).Some? && ArticleOf(f, env).id in acc.removed {
        assert Ids(acc.renamed + [ArticleOf(f, env)]) == Ids(acc.renamed) + {ArticleOf(f, env).id};
      }
    }
  }

  /** No ID is claimed twice: the renamed articles have distinct IDs. */
  lemma {:induction false} FoldModifyDistinct(files: seq<FetchedFile>, removedIds: set<string>, env: Env)
    ensures var m := Fold(files, removedIds, env).renamed;
            forall i, j :: 0 <= i < j < |m| ==> m[i].id != m[j].id
    decreases |files|
  {
    if files != [] {
      var init := files[..|files| - 1];
      FoldModifyDistinct(init, removedIds, env);
      FoldRemovedIds(init, removedIds, env);
      var acc := Fold(init, removedIds, env);
      var f := files[|files| - 1];
      if Usable(f, env).Some? && ArticleOf(f, env).id in acc.removed {
        var m := acc.renamed + [ArticleOf(f, env)];
        forall i | 0 <= i < |m| - 1
          ensures m[i].id != m[|m| - 1].id
        {
          assert m[i] in acc.renamed;
        }
      }
    }
  }

  /** A new article never has an ID that is still to be deleted. */
  lemma {:induction false} FoldAddNotDeleted(files: seq<FetchedFile>, removedIds: set<string>, env: Env)
    ensures var s := Fold(files, removedIds, env);
            forall a :: a in s.add ==> a.id !in s.removed
    decreases |files|
  {
    if files != [] {
      FoldAddNotDeleted(files[..|files| - 1], removedIds, env);
    }
  }

  /** A new article whose ID a removed file held has that ID among the
      renamed articles' IDs: a rename claimed it. */
  lemma {:induction false} FoldAddKnownIdClaimed(files: seq<FetchedFile>, removedIds: set<string>, env: Env)
    ensures var s := Fold(files, removedIds, env);
            forall a :: a in s.add && a.id in removedIds ==> a.id in Ids(s.renamed)
    decreases |files|
  {
    if files != [] {
      var init := files[..|files| - 1];
      FoldAddKnownIdClaimed(init, removedIds, env);
      FoldRemovedIds(init, removedIds, env);
    }
  }

  /** Every usable file lands in exactly one of the two lists, none is lost or
      duplicated. */
  lemma {:induction false} FoldPartition(files: seq<FetchedFile>, removedIds: set<string>, env: Env)
    ensures var s := Fold(files, removedIds, env);
            multiset(s.add) + multiset(s.renamed) == multiset(Built(files, env))
    decreases |files|
  {
    if files != [] {
      FoldPartition(files[..|files| - 1], removedIds, env);
    }
  }

  /** With no removed files every usable file is new: the loop then builds
      what `process_modified_event` builds. */
  lemma {:induction false} FoldWithoutRemovals(files: seq<FetchedFile>, env: Env)
    ensures Fold(files, {}, env) == Split(Built(files, env), [], {})
    decreases |files|
  {
    if files != [] {
      FoldWithoutRemovals(files[..|files| - 1], env);
    }
  }

  /** The usable files of a list, in order. */
  function UsableFiles(files: seq<FetchedFile>, env: Env): (r: seq<FetchedFile>)
    ensures forall f :: f in r ==> f in files && Usable(f, env).Some?
    decreases |files|
  {
    if files == [] then []
    else
      var prev := UsableFiles(files[..|files| - 1], env);
      var f := files[|files| - 1];
      if Usable(f, env).Some? then prev + [f] else prev
  }

  /** A file that cannot be fetched or parsed is treated exactly as if it were
      not in the push. */
  lemma {:induction false} FoldIgnoresFailures(files: seq<FetchedFile>, removedIds: set<string>, env: Env)
    ensures Fold(files, removedIds, env) == Fold(UsableFiles(files, env), removedIds, env)
    decreases |files|
  {
    if files != [] {
      var init := files[..|files| - 1];
      var f := files[|files| - 1];
      FoldIgnoresFailures(init, removedIds, env);
      var u := UsableFiles(init, env);
      if Usable(f, env).Some? {
        assert (u + [f])[..|u + [f]| - 1] == u;
      }
    }
  }

  /** Every article the loop produced, new or renamed, was built from one of
      the files, with that file's path. */
  lemma FoldFromFiles(files: seq<FetchedFile>, removedIds: set<string>, env: Env)
    ensures var s := Fold(files, removedIds, env);
            forall a :: a in s.add + s.renamed ==> exists i :: 0 <= i < |files| && files[i].path == a.path
  {
    var s := Fold(files, removedIds, env);
    FoldPartition(files, removedIds, env);
    forall a | a in s.add + s.renamed
      ensures exists i :: 0 <= i < |files| && files[i].path == a.path
    {
      assert a in multiset(s.add) + multiset(s.renamed);
      BuiltFromFiles(files, env, a);
    }
  }

  /** The paths of the removed records, in order. */
  function RemovedPaths(removed: seq<FileChange>): (r: seq<string>)
    ensures |r| == |removed| && forall i :: 0 <= i < |r| ==> r[i] == removed[i].filePath
  {
    seq(|removed|, i requires 0 <= i < |removed| => removed[i].filePath)
  }

  /** `process_added_and_removed_event`: resolve the removed paths to IDs (a
      failure there aborts), then fold over the fetched added files. */
  function ProcessAddedAndRemoved(owner: string, repo: string, added: seq<FileChange>, removed: seq<FileChange>, env: Env): (r: Result<Split, SomeError>)
    ensures r.Failure? <==> env.getByPaths(RemovedPaths(removed)).Failure?
    ensures r.Failure? ==> r.error == env.getByPaths(RemovedPaths(removed)).error
    ensures r.Success? ==> r.value.removed <= env.getByPaths(RemovedPaths(removed)).value
    ensures r.Success? ==> forall a :: a in r.value.add + r.value.renamed ==> a.id !in r.value.removed
    ensures r.Success? ==> forall a :: a in r.value.add + r.value.renamed ==>
                             exists i :: 0 <= i < |added| && added[i].filePath == a.path
  {
    match env.getByPaths(RemovedPaths(removed))
    case Failure(e) => Failure(e)
    case Success(ids) =>
      var files := FetchFiles(owner, repo, added, env);
      FoldRemovedIds(files, ids, env);
      FoldAddNotDeleted(files, ids, env);
      FoldFromFiles(files, ids, env);
      Success(Fold(files, ids, env))
  }

  // ---------------------------------------------------------------------
  // The push as a whole

  /** The added records that pass `is_valid_file` (`retain`). */
  function ValidAdded(changes: seq<FileChange>): (r: seq<FileChange>)
    ensures forall c :: c in r <==> c in changes && IsValidFile(c.filePath)
    decreases |changes|
  {
    if changes == [] then []
    else
      var prev := ValidAdded(changes[..|changes| - 1]);
      var c := changes[|changes| - 1];
      if IsValidFile(c.filePath) then prev + [c] else prev
  }

  /** The filter on one record. */
  lemma ValidAddedSingle(c: FileChange)
    ensures ValidAdded([c]) == if IsValidFile(c.filePath) then [c] else []
  {
    assert [c][..0] == [];
  }

  /** The filter handles each record on its own: together with
      `ValidAddedSingle` this makes it an in-order filter that keeps
      repeated records. */
  lemma {:induction false} ValidAddedAppend(a: seq<FileChange>, b: seq<FileChange>)
    ensures ValidAdded(a + b) == ValidAdded(a) + ValidAdded(b)
    decreases |b|
  {
    if b == [] {
      assert a + b == a;
    } else {
      var init := b[..|b| - 1];
      assert (a + b)[..|a + b| - 1] == a + init;
      assert (a + b)[|a + b| - 1] == b[|b| - 1];
      ValidAddedAppend(a, init);
    }
  }

  /** What a push reconciles to: the articles to upsert (modified files,
      then renames, then new files) and the IDs to delete. */
  datatype Reconciled = Reconciled(upserts: seq<Article>, deletes: set<string>)

  /** The part of `process_push_event` before the transaction. */
  function Reconcile(e: WebhookEvent, env: Env): (r: Result<Reconciled, SomeError>)
    ensures GetRepositoryName(e).Failure? ==> r == Failure(GetRepositoryName(e).error)
    ensures GetRepositoryName(e).Success? && GetRepositoryOwner(e).Failure? ==> r == Failure(GetRepositoryOwner(e).error)
  {
    var repo :- GetRepositoryName(e);
    var owner :- GetRepositoryOwner(e);
    var changes := GetPushFileChanges(e);
    var modifiedArticles :- ProcessModifiedEvent(owner, repo, changes.modified, env);
    var split :- ProcessAddedAndRemoved(owner, repo, ValidAdded(changes.added), changes.removed, env);
    Success(Reconciled(modifiedArticles + split.renamed + split.add, split.removed))
  }

  /** `process_upsert_files`, `process_deleted_files` and `commit`, in that
      order; an empty batch is not sent. */
  function Plan(upserts: seq<Article>, deletes: set<string>): (r: seq<TxOp>)
    ensures |r| >= 1 && r[|r| - 1] == CommitTx
    ensures UpsertBatch(upserts) in r <==> upserts != []
    ensures DeleteBatch(deletes) in r <==> deletes != {}
    ensures forall op :: op in r ==> op == UpsertBatch(upserts) || op == DeleteBatch(deletes) || op == CommitTx
    ensures forall i, j :: 0 <= i < j < |r| ==> !(r[i].DeleteBatch? && r[j].UpsertBatch?) && !r[i].CommitTx?
  {
    (if upserts != [] then [UpsertBatch(upserts)] else [])
    + (if deletes != {} then [DeleteBatch(deletes)] else [])
    + [CommitTx]
  }

  /** Runs the statements in order and stops at the first failure: the
      statements issued and the outcome. */
  function RunTx(plan: seq<TxOp>, exec: TxOp -> Result<Unit, SomeError>): (r: (seq<TxOp>, Result<Unit, SomeError>))
    ensures |r.0| <= |plan| && r.0 == plan[..|r.0|]
    ensures r.1.Success? <==> forall op :: op in plan ==> exec(op).Success?
    ensures r.1.Success? ==> r.0 == plan
    ensures r.1.Failure? ==> |r.0| >= 1 && exec(r.0[|r.0| - 1]) == Failure(r.1.error)
    ensures forall i :: 0 <= i < |r.0| - 1 ==> exec(r.0[i]).Success?
  {
    if plan == [] then ([], Success(Unit))
    else
      match exec(plan[0])
      case Failure(e) => ([plan[0]], Failure(e))
      case Success(_) =>
        var (issued, res) := RunTx(plan[1..], exec);
        assert forall op :: op in plan[1..] ==> op in plan;
        ([plan[0]] + issued, res)
  }

  /** What a push did to the outside world: the statements it staged (empty
      when it stopped before the transaction), the index rebuild it asked
      for, and its result. */
  datatype PushOutcome = PushOutcome(issued: seq<TxOp>, index: Option<IndexJob>, result: Result<Unit, SomeError>)

  /** `create_index`: create the index client, read every article, load them
      keyed by `id`; the first failure is the result. */
  function CreateIndex(index: string, env: Env): (r: (Option<IndexJob>, Result<Unit, SomeError>))
    ensures r.1.Success? ==> r.0.Some? && env.getAll.Success? && r.0.value.documents == env.getAll.value
    ensures r.0.Some? ==> r.0.value.index == index && r.0.value.searchable == SearchableAttributes && r.0.value.primaryKey == "id"
    ensures r.0.Some? <==> env.createIndexClient(index, SearchableAttributes).Success? && env.getAll.Success?
    ensures env.createIndexClient(index, SearchableAttributes).Failure? ==> r.1 == Failure(env.createIndexClient(index, SearchableAttributes).error)
  {
    match env.createIndexClient(index, SearchableAttributes)
    case Failure(e) => (None, Failure(e))
    case Success(_) =>
      match env.getAll
      case Failure(e) => (None, Failure(e))
      case Success(all) =>
        var job := IndexJob(index, SearchableAttributes, all, "id");
        (Some(job), env.addDocuments(job))
  }

  /** `process_push_event`. */
  function ProcessPushEvent(e: WebhookEvent, env: Env): (r: PushOutcome)
    ensures Reconcile(e, env).Failure? ==> r == PushOutcome([], None, Failure(Reconcile(e, env).error))
    ensures env.begin.Failure? ==> r.issued == [] && r.index.None? && r.result.Failure?
    ensures r.index.Some? ==> |r.issued| >= 1 && r.issued[|r.issued| - 1] == CommitTx
                              && forall op :: op in r.issued ==> env.exec(op).Success?
    ensures r.result.Success? ==> r.index.Some? && Reconcile(e, env).Success?
                                  && r.issued == Plan(Reconcile(e, env).value.upserts, Reconcile(e, env).value.deletes)
  {
    match Reconcile(e, env)
    case Failure(err) => PushOutcome([], None, Failure(err))
    case Success(rec) =>
      match env.begin
      case Failure(err) => PushOutcome([], None, Failure(err))
      case Success(_) =>
        var plan := Plan(rec.upserts, rec.deletes);
        var (issued, res) := RunTx(plan, env.exec);
        match res
        case Failure(err) => PushOutcome(issued, None, Failure(err))
        case Success(_) =>
          var (job, indexed) := CreateIndex(DefaultSearchIndex, env);
          PushOutcome(issued, job, indexed)
  }

  /** `process_github_webhook_event`: only allowed repositories are processed,
      and only push events reach the engine; everything else is a quiet success. */
  function ProcessGithubWebhookEvent(e: WebhookEvent, allowed: set<string>, env: Env): (r: PushOutcome)
    ensures GetRepositoryName(e).Failure? ==> r == PushOutcome([], None, Failure(GetRepositoryName(e).error))
    ensures GetRepositoryName(e).Success? && GetRepositoryName(e).value !in allowed ==> r == PushOutcome([], None, Success(Unit))
    ensures e.kind != Push ==> r.issued == [] && r.index.None?
    ensures r.issued != [] ==> GetRepositoryName(e).Success? && GetRepositoryName(e).value in allowed && e.kind == Push
  {
    match GetRepositoryName(e)
    case Failure(err) => PushOutcome([], None, Failure(err))
    case Success(name) =>
      if name !in allowed then PushOutcome([], None, Success(Unit))
      else if e.kind == Push then ProcessPushEvent(e, env)
      else PushOutcome([], None, Success(Unit))
  }
}

=== FILE: category.dfy ===
/**
 The closed set of article categories and its string codec: `PostCategory`
 with `as_str` and `FromStr` in the layered tree, and the legacy copy whose
 `from_str` returns an `Option`. Also the query-parameter defaults of
 `PostParams`.
 */
module Category {
  import opened Wrappers

  datatype PostCategory = Article | Note | Think | Pictures | Talk

  /** The five wire names, in declaration order. */
  const CategoryNames: seq<string> := ["article", "note", "think", "pictures", "talk"]

  /** `PostCategory::as_str`. */
  function AsStr(c: PostCategory): (s: string)
    ensures s in CategoryNames
  {
    match c
    case Article => "article"
    case Note => "note"
    case Pictures => "pictures"
    case Talk => "talk"
    case Think => "think"
  }

  /** `impl FromStr for PostCategory`: case-sensitive match on the five names. */
  function FromStr(s: string): (r: Result<PostCategory, string>)
    ensures r.Success? <==> s in CategoryNames
    ensures r.Success? ==> AsStr(r.value) == s
    ensures r.Failure? ==> r.error == "Invalid category: " + s
  {
    match s
    case "article" => Success(Article)
    case "note" => Success(Note)
    case "pictures" => Success(Pictures)
    case "talk" => Success(Talk)
    case "think" => Success(Think)
    case _ => Failure("Invalid category: " + s)
  }

  /** The legacy `PostCategory::from_str` of the older tree, returning an `Option`. */
  function LegacyFromStr(s: string): (r: Option<PostCategory>)
    ensures r.Some? <==> s in CategoryNames
    ensures r.Some? ==> AsStr(r.value) == s
  {
    match s
    case "article" => Some(Article)
    case "note" => Some(Note)
    case "pictures" => Some(Pictures)
    case "talk" => Some(Talk)
    case "think" => Some(Think)
    case _ => None
  }

  /** Parsing what `as_str` printed gives back the category. */
  lemma FromStrAsStr(c: PostCategory)
    ensures FromStr(AsStr(c)) == Success(c)
    ensures LegacyFromStr(AsStr(c)) == Some(c)
  {
  }

  /** `as_str` is injective: the five names are pairwise distinct. */
  lemma AsStrInjective(c: PostCategory, d: PostCategory)
    requires AsStr(c) == AsStr(d)
    ensures c == d
  {
    FromStrAsStr(c);
    FromStrAsStr(d);
  }

  /** Both parsers accept exactly the same strings and agree on the result. */
  lemma ParsersAgree(s: string)
    ensures FromStr(s).Success? <==> LegacyFromStr(s).Some?
    ensures FromStr(s).Success? ==> FromStr(s).value == LegacyFromStr(s).value
  {
    if FromStr(s).Success? {
      AsStrInjective(FromStr(s).value, LegacyFromStr(s).value);
    }
  }

  /** Upper-case spellings are rejected. */
  lemma UpperCaseRejected()
    ensures FromStr("ARTICLE").Failure?
    ensures FromStr("Article").Failure?
  {
  }

  /** Default `page` and `page_size` of `PostParams` (`default_page`, `default_page_size`). */
  const DefaultPage: int := 1
  const DefaultPageSize: int := 20

  /** `PostParams` as deserialised from a query string: missing numbers take the defaults. */
  datatype PostParams = PostParams(category: PostCategory, page: int, pageSize: int)

  function PostParamsFromQuery(category: PostCategory, page: Option<int>, pageSize: Option<int>): (p: PostParams)
    ensures p.category == category
    ensures page.None? ==> p.page == 1
    ensures pageSize.None? ==> p.pageSize == 20
    ensures page.Some? ==> p.page == page.value
    ensures pageSize.Some? ==> p.pageSize == pageSize.value
  {
    PostParams(category, page.GetOr(DefaultPage), pageSize.GetOr(DefaultPageSize))
  }
}

=== FILE: errors.dfy ===
/**
 The error taxonomy of the layered tree (`SomeError` and its nested enums),
 the conversions into it, and `IntoResponse`: the table that turns every
 error into an HTTP status, a machine-readable code and a user message.
 Errors raised by foreign crates (sqlx, Meilisearch, serde_json, base64,
 gray_matter, octocrab) are carried as plain description strings.
 */
module Errors {

  datatype SearchError =
    | MeilisearchUrlMissing
    | MasterKeyMissing
    | DefaultSearchApiKeyNotFound
    | DefaultAdminApiKeyNotFound
    | CustomApiKeyNotFound(name: string)

  datatype DBError = DatabaseUrlMissing | QueryFailed(cause: string)

  datatype GetPostsError = CategoryError | ArticleNotFound

  datatype WebHooksError =
    | VerifySignatureFailed
    | InvalidHeader(header: string)
    | MissingHeader(header: string)
    | MissingRepositoryName
    | GithubWebhookSecretMissing
    | UnsupportedWebhookEvent

  datatype DecodeError = DecodeBase64(cause: string) | DecodeUtf8(cause: string)

  datatype ParseError = JsonParseError(cause: string) | ArticleParseError(cause: string)

  /** `config::ConfigError`, reduced to the case the conversion inspects. */
  datatype ConfigError = NotFound(field: string) | OtherConfigError(description: string)

  /** What an `anyhow::Error` inside `SomeError::Other` wraps. */
  datatype AnyError = Message(text: string) | WrappedConfig(config: ConfigError) | Foreign(description: string)

  datatype SomeError =
    | Search(search: SearchError)
    | Database(db: DBError)
    | Meilisearch(cause: string)
    | GetPosts(posts: GetPostsError)
    | WebHooks(hooks: WebHooksError)
    | Parse(parse: ParseError)
    | Decode(decode: DecodeError)
    | Other(any: AnyError)

  /** `From<sqlx::Error> for SomeError`. */
  function FromSqlx(cause: string): (e: SomeError)
    ensures e.Database? && e.db.QueryFailed? && e.db.cause == cause
  {
    Database(QueryFailed(cause))
  }

  /** `From<config::ConfigError> for SomeError`. */
  function FromConfigError(c: ConfigError): (e: SomeError)
    ensures e == Database(DatabaseUrlMissing) <==> c == NotFound("database_url")
    ensures e == Search(MeilisearchUrlMissing) <==> c == NotFound("meilisearch_url")
    ensures e == Search(MasterKeyMissing) <==> c == NotFound("meili_master_key")
    ensures e == WebHooks(GithubWebhookSecretMissing) <==> c == NotFound("github_webhook_secret")
    ensures e.Other? <==> !(c.NotFound? && c.field in ConfigSpecificFields)
    ensures c == NotFound("jwt_secret") ==> e == Other(Message("Can not get JWT_SECRET from environment"))
    ensures e.Other? && c != NotFound("jwt_secret") ==> e == Other(WrappedConfig(c))
  {
    match c
    case NotFound(field) =>
      if field == "database_url" then Database(DatabaseUrlMissing)
      else if field == "meilisearch_url" then Search(MeilisearchUrlMissing)
      else if field == "meili_master_key" then Search(MasterKeyMissing)
      else if field == "jwt_secret" then Other(Message("Can not get JWT_SECRET from environment"))
      else if field == "github_webhook_secret" then WebHooks(GithubWebhookSecretMissing)
      else Other(WrappedConfig(c))
    case OtherConfigError(_) => Other(WrappedConfig(c))
  }

  /** The configuration keys that have a dedicated error variant. */
  const ConfigSpecificFields: set<string> :=
    {"database_url", "meilisearch_url", "meili_master_key", "github_webhook_secret"}

  /** The HTTP response built by `IntoResponse`: a status code and the JSON
      object's fields in the order they are written. */
  datatype ErrorResponse = ErrorResponse(status: int, errorCode: string, message: string, body: seq<(string, string)>)

  /** The three user messages a 5xx response may carry. */
  const GenericServerMessages: set<string> :=
    {"Internal server error", "Search service temporarily unavailable", "Service temporarily unavailable"}

  /** Errors the client caused by its request, as opposed to the server's
      configuration or its collaborators. */
  predicate ClientFault(e: SomeError) {
    match e
    case GetPosts(_) => true
    case Parse(_) => true
    case Decode(_) => true
    case WebHooks(w) => !w.GithubWebhookSecretMissing?
    case _ => false
  }

  /** The `(status, error_code, user_message)` triple of each variant. */
  function Classify(e: SomeError): (int, string, string) {
    match e
    case Search(_) => (500, "INTERNAL_ERROR", "Internal server error")
    case Database(DatabaseUrlMissing) => (500, "INTERNAL_ERROR", "Internal server error")
    case WebHooks(GithubWebhookSecretMissing) => (500, "INTERNAL_ERROR", "Internal server error")
    case Meilisearch(_) => (502, "SERVICE_UNAVAILABLE", "Search service temporarily unavailable")
    case Database(QueryFailed(_)) => (503, "SERVICE_UNAVAILABLE", "Service temporarily unavailable")
    case GetPosts(CategoryError) => (400, "INVALID_CATEGORY", "Invalid category parameter")
    case Parse(JsonParseError(_)) => (400, "INVALID_REQUEST", "Invalid request format")
    case Parse(ArticleParseError(_)) => (422, "INVALID_CONTENT", "Invalid content format")
    case WebHooks(MissingHeader(_)) => (400, "MISSING_HEADER", "Missing required header")
    case WebHooks(InvalidHeader(_)) => (400, "INVALID_HEADER", "Invalid header value")
    case WebHooks(UnsupportedWebhookEvent) => (400, "UNSUPPORTED_EVENT", "Unsupported event type")
    case GetPosts(ArticleNotFound) => (404, "NOT_FOUND", "Resource not found")
    case WebHooks(VerifySignatureFailed) => (401, "UNAUTHORIZED", "Unauthorized")
    case WebHooks(MissingRepositoryName) => (422, "INVALID_PAYLOAD", "Invalid webhook payload")
    case Decode(DecodeBase64(_)) => (400, "INVALID_ENCODING", "Invalid encoding")
    case Decode(DecodeUtf8(_)) => (400, "INVALID_ENCODING", "Invalid encoding")
    case Other(_) => (500, "INTERNAL_ERROR", "Internal server error")
  }

  /** `impl IntoResponse for SomeError`. */
  function IntoResponse(e: SomeError): (r: ErrorResponse)
    ensures 400 <= r.status <= 599
    ensures 400 <= r.status <= 499 <==> ClientFault(e)
    ensures r.status >= 500 ==> r.message in GenericServerMessages
    ensures r.body == [("error", r.message), ("error_code", r.errorCode), ("status", "error")]
  {
    var (status, code, message) := Classify(e);
    ErrorResponse(status, code, message, [("error", message), ("error_code", code), ("status", "error")])
  }

  /** Each status code is produced by exactly these errors. */
  lemma StatusTable(e: SomeError)
    ensures IntoResponse(e).status == 401 <==> e == WebHooks(VerifySignatureFailed)
    ensures IntoResponse(e).status == 404 <==> e == GetPosts(ArticleNotFound)
    ensures IntoResponse(e).status == 422 <==>
              (e.Parse? && e.parse.ArticleParseError?) || e == WebHooks(MissingRepositoryName)
    ensures IntoResponse(e).status == 502 <==> e.Meilisearch?
    ensures IntoResponse(e).status == 503 <==> e.Database? && e.db.QueryFailed?
    ensures IntoResponse(e).status == 500 <==>
              e.Search? || e == Database(DatabaseUrlMissing) || e == WebHooks(GithubWebhookSecretMissing) || e.Other?
    ensures IntoResponse(e).status == 400 <==>
              e == GetPosts(CategoryError) || e.Decode? || (e.Parse? && e.parse.JsonParseError?)
              || (e.WebHooks? && (e.hooks.MissingHeader? || e.hooks.InvalidHeader? || e.hooks.UnsupportedWebhookEvent?))
  {
  }

  /** The codes of the client-error rows. */
  lemma ClientErrorCodes(e: SomeError)
    ensures e == WebHooks(VerifySignatureFailed) ==> IntoResponse(e).errorCode == "UNAUTHORIZED"
    ensures e.WebHooks? && e.hooks.MissingHeader? ==> IntoResponse(e).errorCode == "MISSING_HEADER"
    ensures e.WebHooks? && e.hooks.InvalidHeader? ==> IntoResponse(e).errorCode == "INVALID_HEADER"
    ensures e == WebHooks(UnsupportedWebhookEvent) ==> IntoResponse(e).errorCode == "UNSUPPORTED_EVENT"
    ensures e == GetPosts(CategoryError) ==> IntoResponse(e).errorCode == "INVALID_CATEGORY"
    ensures e.Parse? && e.parse.JsonParseError? ==> IntoResponse(e).errorCode == "INVALID_REQUEST"
    ensures e == GetPosts(ArticleNotFound) ==> IntoResponse(e).errorCode == "NOT_FOUND"
    ensures e.Decode? ==> IntoResponse(e).errorCode == "INVALID_ENCODING"
    ensures e.Parse? && e.parse.ArticleParseError? ==> IntoResponse(e).errorCode == "INVALID_CONTENT"
    ensures e == WebHooks(MissingRepositoryName) ==> IntoResponse(e).errorCode == "INVALID_PAYLOAD"
    ensures IntoResponse(e).status >= 500 ==>
              IntoResponse(e).errorCode in {"INTERNAL_ERROR", "SERVICE_UNAVAILABLE"}
    ensures IntoResponse(e).status == 500 ==> IntoResponse(e).message == "Internal server error"
  {
  }

  /** The server-error rows: configuration faults and `Other` are internal
      errors; the search engine and the database are unavailable services. */
  lemma ServerErrorRows(e: SomeError)
    ensures IntoResponse(e).status == 500 ==> IntoResponse(e).errorCode == "INTERNAL_ERROR"
    ensures IntoResponse(e).status == 502 ==>
              IntoResponse(e).errorCode == "SERVICE_UNAVAILABLE" && IntoResponse(e).message == "Search service temporarily unavailable"
    ensures IntoResponse(e).status == 503 ==>
              IntoResponse(e).errorCode == "SERVICE_UNAVAILABLE" && IntoResponse(e).message == "Service temporarily unavailable"
  {
  }

  /** The user messages of the client-error rows. */
  lemma ClientErrorMessages(e: SomeError)
    ensures e == GetPosts(CategoryError) ==> IntoResponse(e).message == "Invalid category parameter"
    ensures e.Parse? && e.parse.JsonParseError? ==> IntoResponse(e).message == "Invalid request format"
    ensures e.Parse? && e.parse.ArticleParseError? ==> IntoResponse(e).message == "Invalid content format"
    ensures e.WebHooks? && e.hooks.MissingHeader? ==> IntoResponse(e).message == "Missing required header"
    ensures e.WebHooks? && e.hooks.InvalidHeader? ==> IntoResponse(e).message == "Invalid header value"
    ensures e == WebHooks(UnsupportedWebhookEvent) ==> IntoResponse(e).message == "Unsupported event type"
    ensures e == GetPosts(ArticleNotFound) ==> IntoResponse(e).message == "Resource not found"
    ensures e == WebHooks(VerifySignatureFailed) ==> IntoResponse(e).message == "Unauthorized"
    ensures e == WebHooks(MissingRepositoryName) ==> IntoResponse(e).message == "Invalid webhook payload"
    ensures e.Decode? ==> IntoResponse(e).message == "Invalid encoding"
  {
  }

  /** The same error code always comes with the same status, except that
      `SERVICE_UNAVAILABLE` is shared by 502 (search) and 503 (database). */
  lemma CodeDeterminesStatus(e1: SomeError, e2: SomeError)
    requires IntoResponse(e1).errorCode == IntoResponse(e2).errorCode
    requires IntoResponse(e1).errorCode != "SERVICE_UNAVAILABLE"
    ensures IntoResponse(e1).status == IntoResponse(e2).status
  {
    StatusFollowsCode(e1);
    StatusFollowsCode(e2);
  }

  /** The status that goes with each error code but `SERVICE_UNAVAILABLE`. */
  function CodeStatus(code: string): int {
    match code
    case "INTERNAL_ERROR" => 500
    case "UNAUTHORIZED" => 401
    case "NOT_FOUND" => 404
    case "INVALID_CONTENT" => 422
    case "INVALID_PAYLOAD" => 422
    case _ => 400
  }

  /** Every error's status is the one its code stands for. */
  lemma StatusFollowsCode(e: SomeError)
    requires IntoResponse(e).errorCode != "SERVICE_UNAVAILABLE"
    ensures IntoResponse(e).status == CodeStatus(IntoResponse(e).errorCode)
  {
  }

  /** Replaces every payload an error carries by the empty string. */
  function Erase(e: SomeError): SomeError {
    match e
    case Search(CustomApiKeyNotFound(_)) => Search(CustomApiKeyNotFound(""))
    case Database(QueryFailed(_)) => Database(QueryFailed(""))
    case Meilisearch(_) => Meilisearch("")
    case WebHooks(InvalidHeader(_)) => WebHooks(InvalidHeader(""))
    case WebHooks(MissingHeader(_)) => WebHooks(MissingHeader(""))
    case Parse(JsonParseError(_)) => Parse(JsonParseError(""))
    case Parse(ArticleParseError(_)) => Parse(ArticleParseError(""))
    case Decode(DecodeBase64(_)) => Decode(DecodeBase64(""))
    case Decode(DecodeUtf8(_)) => Decode(DecodeUtf8(""))
    case Other(_) => Other(Message(""))
    case _ => e
  }

  /** The response never depends on the details an error carries, so nothing
      internal reaches the client. */
  lemma ResponseIgnoresPayload(e: SomeError)
    ensures IntoResponse(e) == IntoResponse(Erase(e))
  {
  }
}

=== FILE: file_filter.dfy ===
/**
 The content-file filter `is_valid_file`: a path is processed only when the
 extension of its final component, as Rust's `Path::extension` computes it,
 is `md` or `mdx`. The layered service, the layered handler and the legacy
 handler each carry a textually identical copy of this function; all three
 are modelled by `IsValidFile`.

 `Path::file_name` on a Unix path: trailing `/` are ignored, `.` components
 are normalised away, and a final `..` (or no component at all) gives no
 file name. `Path::extension` then takes the text after the last `.` of
 the file name, except that a name without `.` or whose only `.` is its
 first character has no extension.
 */
module FileFilter {
  import opened Wrappers

  /** Index just past the last `/` of `p`, or 0 when `p` has none. */
  function LastSlashEnd(p: string): (k: nat)
    ensures k <= |p|
    ensures k > 0 ==> p[k - 1] == '/'
    ensures forall i :: k <= i < |p| ==> p[i] != '/'
  {
    if p == [] then 0
    else if p[|p| - 1] == '/' then |p|
    else LastSlashEnd(p[..|p| - 1])
  }

  /** `Path::file_name`. */
  function FileName(p: string): (r: Option<string>)
    ensures r.Some? ==> r.value != [] && '/' !in r.value && r.value != "." && r.value != ".."
    decreases |p|
  {
    if p == [] then None
    else if p[|p| - 1] == '/' then FileName(p[..|p| - 1])
    else
      var k := LastSlashEnd(p);
      var segment := p[k..];
      if segment == "." then FileName(p[..k])
      else if segment == ".." then None
      else Some(segment)
  }

  /** Index of the last `.` of `s`, if any. */
  function LastDot(s: string): (r: Option<nat>)
    ensures r.Some? ==> r.value < |s| && s[r.value] == '.'
    ensures r.Some? ==> forall i :: r.value < i < |s| ==> s[i] != '.'
    ensures r.None? ==> forall i :: 0 <= i < |s| ==> s[i] != '.'
  {
    if s == [] then None
    else if s[|s| - 1] == '.' then Some(|s| - 1)
    else LastDot(s[..|s| - 1])
  }

  /** The extension of a file name (`rsplit_file_at_dot` followed by `before.and(after)`). */
  function Extension(name: string): (r: Option<string>)
    ensures r.Some? ==> '.' !in r.value && |r.value| + 1 < |name| && name[|name| - |r.value| - 1..] == "." + r.value
    ensures r.None? ==> name == ".." || forall i :: 0 < i < |name| ==> name[i] != '.'
    ensures name == ".." ==> r.None?
  {
    if name == ".." then None
    else match LastDot(name)
      case None => None
      case Some(i) =>
        if i == 0 then None
        else
          assert name[i..] == [name[i]] + name[i + 1..];
          Some(name[i + 1..])
  }

  /** `Path::extension`: the text after the last `.` of the file name, when
      that `.` is not the name's first character. */
  function PathExtension(p: string): (r: Option<string>)
    ensures r.Some? ==> FileName(p).Some? && '.' !in r.value && '/' !in r.value
    ensures r.Some? ==> var name := FileName(p).value;
                        |r.value| + 1 < |name| && name[|name| - |r.value| - 1..] == "." + r.value
    ensures FileName(p).Some? && r.None? ==> forall i :: 0 < i < |FileName(p).value| ==> FileName(p).value[i] != '.'
  {
    match FileName(p)
    case None => None
    case Some(name) => Extension(name)
  }

  const AllowedExtensions: seq<string> := ["md", "mdx"]

  /** `is_valid_file`: `extension().and_then(to_str).map(|e| allowed.contains(e)).unwrap_or(false)`. */
  predicate IsValidFile(p: string) {
    match PathExtension(p)
    case None => false
    case Some(ext) => ext in AllowedExtensions
  }

  /** Reference definition on a bare file name: it ends in `.md` or `.mdx` with
      at least one character in front of the dot. */
  predicate HasContentSuffix(name: string) {
    || (|name| > 3 && name[|name| - 3..] == ".md")
    || (|name| > 4 && name[|name| - 4..] == ".mdx")
  }

  lemma NoSlashMeansWholeSegment(p: string)
    requires '/' !in p
    ensures LastSlashEnd(p) == 0
  {
  }

  /** The postconditions of `LastDot` pin it down: the last `.` is the one
      with no `.` after it. */
  lemma LastDotAt(s: string, i: nat)
    requires i < |s| && s[i] == '.'
    requires forall j :: i < j < |s| ==> s[j] != '.'
    ensures LastDot(s) == Some(i)
  {
  }

  lemma SuffixGivesExtension(name: string)
    requires HasContentSuffix(name)
    ensures Extension(name).Some? && Extension(name).value in AllowedExtensions
  {
    var n := |name|;
    if n > 3 && name[n - 3..] == ".md" {
      assert name[n - 3] == '.' && name[n - 2] == 'm' && name[n - 1] == 'd';
      LastDotAt(name, n - 3);
      assert name[n - 2..] == "md";
    } else {
      assert name[n - 4] == '.' && name[n - 3] == 'm' && name[n - 2] == 'd' && name[n - 1] == 'x';
      LastDotAt(name, n - 4);
      assert name[n - 3..] == "mdx";
    }
  }

  lemma ExtensionGivesSuffix(name: string)
    requires Extension(name).Some? && Extension(name).value in AllowedExtensions
    ensures HasContentSuffix(name)
  {
    var n := |name|;
    var i := LastDot(name).value;
    var ext := name[i + 1..];
    assert i > 0 && Extension(name) == Some(ext);
    if ext == "md" {
      assert name[n - 3..] == [name[i]] + ext;
    } else {
      assert name[n - 4..] == [name[i]] + ext;
    }
  }

  /** On a path without `/`, the filter accepts exactly the names ending in
      `.md` or `.mdx` after a non-empty stem; the comparison is case-sensitive. */
  lemma {:induction false} ValidBareName(name: string)
    requires '/' !in name
    ensures IsValidFile(name) <==> HasContentSuffix(name)
  {
    if name == [] || name == "." || name == ".." {
      if name == "." {
        NoSlashMeansWholeSegment(name);
        assert FileName(name) == FileName([]);
      }
    } else {
      NoSlashMeansWholeSegment(name);
      assert name[0..] == name;
      assert FileName(name) == Some(name);
      if HasContentSuffix(name) {
        SuffixGivesExtension(name);
      } else if Extension(name).Some? && Extension(name).value in AllowedExtensions {
        ExtensionGivesSuffix(name);
      }
    }
  }

  /** Only the final component matters: directories in front of a file name do
      not change the verdict. */
  lemma {:induction false} ValidInDirectory(dir: string, name: string)
    requires '/' !in name && name != [] && name != "."
    ensures IsValidFile(dir + "/" + name) == IsValidFile(name)
  {
    var p := dir + "/" + name;
    var k := LastSlashEnd(p);
    assert p[|dir|] == '/';
    assert forall i | |dir| + 1 <= i < |p| :: p[i] == name[i - |dir| - 1] && p[i] in name;
    assert k == |dir| + 1;
    assert p[k..] == name;
    NoSlashMeansWholeSegment(name);
    assert name[0..] == name;
    if name == ".." {
      assert FileName(p) == None;
      assert FileName(name) == None;
    } else {
      assert FileName(p) == Some(name);
      assert FileName(name) == Some(name);
    }
  }

  /** Trailing separators are ignored. */
  lemma TrailingSlashIgnored(p: string)
    ensures IsValidFile(p + "/") == IsValidFile(p)
  {
    assert (p + "/")[..|p + "/"| - 1] == p;
  }

  /** Sample verdicts: `.md` and `.mdx` files are accepted, in any directory. */
  lemma ContentFilesAccepted(dir: string)
    ensures IsValidFile("a.md") && IsValidFile(dir + "/a.md")
    ensures IsValidFile("b.mdx")
  {
    assert dir + "/" + "a.md" == dir + "/a.md";
    ValidBareName("a.md");
    ValidInDirectory(dir, "a.md");
    ValidBareName("b.mdx");
  }

  /** The extension comparison is case-sensitive. */
  lemma UpperCaseExtensionRejected(dir: string)
    ensures !IsValidFile("a.MD") && !IsValidFile(dir + "/a.MD")
  {
    assert dir + "/" + "a.MD" == dir + "/a.MD";
    assert "a.MD"[1..] != ".md";
    ValidBareName("a.MD");
    ValidInDirectory(dir, "a.MD");
  }

  /** A name that is only a dot and an extension has no extension at all. */
  lemma HiddenNameRejected(dir: string)
    ensures !IsValidFile(".md") && !IsValidFile(dir + "/.md")
  {
    assert dir + "/" + ".md" == dir + "/.md";
    ValidBareName(".md");
    ValidInDirectory(dir, ".md");
  }

  /** Names without an allowed extension are skipped. */
  lemma OtherNamesRejected()
    ensures !IsValidFile("README") && !IsValidFile("a.markdown")
  {
    ValidBareName("README");
    ValidBareName("a.markdown");
  }
}

=== FILE: github_events.dfy ===
/**
 The slice of a parsed GitHub webhook event the backend reads (octocrab's
 `WebhookEvent`), and the `WebhookHandler` accessors on it: the per-status
 file-change lists of a push, the repository's full name and its owner.
 */
module GithubEvents {
  import opened Wrappers
  import opened TimeUtils
  import Errors

  /** The `X-GitHub-Event` kind the event was parsed as. */
  datatype EventKind = Push | PullRequest | OtherKind(name: string)

  /** One commit of a push: the paths it added, removed and modified. */
  datatype Commit = Commit(added: seq<string>, removed: seq<string>, modified: seq<string>, timestamp: ChronoTime)

  /** The kind-specific payload. */
  datatype Payload = PushPayload(commits: seq<Commit>) | PullRequestPayload | OtherPayload

  datatype Owner = Owner(login: string)

  datatype Repository = Repository(fullName: Option<string>, owner: Option<Owner>)

  datatype WebhookEvent = WebhookEvent(kind: EventKind, specific: Payload, repository: Option<Repository>)

  /** `FileChange`: one path with the status it was listed under and its commit's time. */
  datatype FileChange = FileChange(filePath: string, status: string, timestamp: ChronoTime, rowUrl: Option<string>)

  /** The triple `(added, removed, modified)` returned by `get_push_file_changes`. */
  datatype FileChanges = FileChanges(added: seq<FileChange>, removed: seq<FileChange>, modified: seq<FileChange>)

  const NoChanges: FileChanges := FileChanges([], [], [])

  /** The records pushed for one list of paths of one commit. */
  function Records(paths: seq<string>, status: string, timestamp: ChronoTime): (r: seq<FileChange>)
    ensures |r| == |paths|
    ensures forall i :: 0 <= i < |r| ==> r[i] == FileChange(paths[i], status, timestamp, None)
  {
    seq(|paths|, i requires 0 <= i < |paths| => FileChange(paths[i], status, timestamp, None))
  }

  /** The three lists after the loop has visited `commits` in order. */
  function Collect(commits: seq<Commit>): FileChanges
    decreases |commits|
  {
    if commits == [] then NoChanges
    else
      var prev := Collect(commits[..|commits| - 1]);
      var c := commits[|commits| - 1];
      FileChanges(prev.added + Records(c.added, "added", c.timestamp),
                  prev.removed + Records(c.removed, "removed", c.timestamp),
                  prev.modified + Records(c.modified, "modified", c.timestamp))
  }

  function Concat(a: FileChanges, b: FileChanges): FileChanges {
    FileChanges(a.added + b.added, a.removed + b.removed, a.modified + b.modified)
  }

  /** Reference definition: each list is the concatenation, commit by commit,
      of that commit's records, written front to back. */
  function AddedOf(commits: seq<Commit>): seq<FileChange> {
    if commits == [] then [] else Records(commits[0].added, "added", commits[0].timestamp) + AddedOf(commits[1..])
  }

  function RemovedOf(commits: seq<Commit>): seq<FileChange> {
    if commits == [] then [] else Records(commits[0].removed, "removed", commits[0].timestamp) + RemovedOf(commits[1..])
  }

  function ModifiedOf(commits: seq<Commit>): seq<FileChange> {
    if commits == [] then [] else Records(commits[0].modified, "modified", commits[0].timestamp) + ModifiedOf(commits[1..])
  }

  /** Collecting two runs of commits is collecting each and concatenating. */
  lemma {:induction false} CollectAppend(a: seq<Commit>, b: seq<Commit>)
    ensures Collect(a + b) == Concat(Collect(a), Collect(b))
    decreases |b|
  {
    if b == [] {
      assert a + b == a;
    } else {
      var b' := b[..|b| - 1];
      assert (a + b)[..|a + b| - 1] == a + b';
      assert (a + b)[|a + b| - 1] == b[|b| - 1];
      CollectAppend(a, b');
    }
  }

  /** The loop's lists agree with the front-to-back reference definition. */
  lemma {:induction false} CollectMatchesReference(commits: seq<Commit>)
    ensures Collect(commits) == FileChanges(AddedOf(commits), RemovedOf(commits), ModifiedOf(commits))
    decreases |commits|
  {
    if commits != [] {
      var c := commits[0];
      CollectMatchesReference(commits[1..]);
      assert commits == [c] + commits[1..];
      CollectAppend([c], commits[1..]);
      assert [c][..0] == [];
      var one := Collect([c]);
      assert one.added == Records(c.added, "added", c.timestamp);
      assert one.removed == Records(c.removed, "removed", c.timestamp);
      assert one.modified == Records(c.modified, "modified", c.timestamp);
    }
  }

  /** Every record of the `added` list names a path some commit added, with
      that commit's time; none carries a URL. */
  lemma {:induction false} AddedRecordsFromCommits(commits: seq<Commit>, k: nat)
    requires k < |AddedOf(commits)|
    ensures AddedOf(commits)[k].status == "added" && AddedOf(commits)[k].rowUrl.None?
    ensures exists j :: 0 <= j < |commits| && AddedOf(commits)[k].filePath in commits[j].added
                        && AddedOf(commits)[k].timestamp == commits[j].timestamp
    decreases |commits|
  {
    var first := Records(commits[0].added, "added", commits[0].timestamp);
    if k < |first| {
      assert AddedOf(commits)[k] == first[k];
      assert commits[0].added[k] in commits[0].added;
    } else {
      AddedRecordsFromCommits(commits[1..], k - |first|);
      assert AddedOf(commits)[k] == AddedOf(commits[1..])[k - |first|];
      var j :| 0 <= j < |commits[1..]| && AddedOf(commits[1..])[k - |first|].filePath in commits[1..][j].added
                && AddedOf(commits[1..])[k - |first|].timestamp == commits[1..][j].timestamp;
      assert commits[1..][j] == commits[j + 1];
    }
  }

  /** Conversely every added path of every commit has a record: nothing is
      deduplicated or dropped. */
  lemma {:induction false} CommitAddsRecorded(commits: seq<Commit>, j: nat, p: nat)
    requires j < |commits| && p < |commits[j].added|
    ensures FileChange(commits[j].added[p], "added", commits[j].timestamp, None) in AddedOf(commits)
    decreases |commits|
  {
    var first := Records(commits[0].added, "added", commits[0].timestamp);
    if j == 0 {
      assert first[p] in first;
    } else {
      CommitAddsRecorded(commits[1..], j - 1, p);
    }
  }

  /** `get_push_file_changes`: only an event whose kind and payload are both
      push produces records. */
  function GetPushFileChanges(e: WebhookEvent): (r: FileChanges)
    ensures !(e.kind == Push && e.specific.PushPayload?) ==> r == NoChanges
  {
    if e.kind == Push && e.specific.PushPayload? then Collect(e.specific.commits) else NoChanges
  }

  /** The added records of a push, in commit order then list order. */
  lemma PushChanges(e: WebhookEvent)
    requires e.kind == Push && e.specific.PushPayload?
    ensures GetPushFileChanges(e).added == AddedOf(e.specific.commits)
    ensures GetPushFileChanges(e).removed == RemovedOf(e.specific.commits)
    ensures GetPushFileChanges(e).modified == ModifiedOf(e.specific.commits)
  {
    CollectMatchesReference(e.specific.commits);
  }

  /** `get_repository_name`: the payload, not the kind, decides whether the
      event is supported. */
  function GetRepositoryName(e: WebhookEvent): (r: Result<string, Errors.SomeError>)
    ensures e.specific.OtherPayload? ==> r == Failure(Errors.WebHooks(Errors.UnsupportedWebhookEvent))
    ensures !e.specific.OtherPayload? ==>
              (r.Success? <==> e.repository.Some? && e.repository.value.fullName.Some?)
    ensures r.Success? ==> r.value == e.repository.value.fullName.value
    ensures r.Failure? && !e.specific.OtherPayload? ==> r.error == Errors.WebHooks(Errors.MissingRepositoryName)
  {
    match e.specific
    case OtherPayload => Failure(Errors.WebHooks(Errors.UnsupportedWebhookEvent))
    case _ =>
      if e.repository.Some? && e.repository.value.fullName.Some? then Success(e.repository.value.fullName.value)
      else Failure(Errors.WebHooks(Errors.MissingRepositoryName))
  }

  /** `get_repository_owner`: a missing owner is reported as a missing repository name. */
  function GetRepositoryOwner(e: WebhookEvent): (r: Result<string, Errors.SomeError>)
    ensures e.specific.OtherPayload? ==> r == Failure(Errors.WebHooks(Errors.UnsupportedWebhookEvent))
    ensures !e.specific.OtherPayload? ==>
              (r.Success? <==> e.repository.Some? && e.repository.value.owner.Some?)
    ensures r.Success? ==> r.value == e.repository.value.owner.value.login
    ensures r.Failure? && !e.specific.OtherPayload? ==> r.error == Errors.WebHooks(Errors.MissingRepositoryName)
  {
    match e.specific
    case OtherPayload => Failure(Errors.WebHooks(Errors.UnsupportedWebhookEvent))
    case _ =>
      if e.repository.Some? && e.repository.value.owner.Some? then Success(e.repository.value.owner.value.login)
      else Failure(Errors.WebHooks(Errors.MissingRepositoryName))
  }

  /** The two accessors fail for the same unsupported events, and a name
      without an owner (or the reverse) is possible. */
  lemma AccessorsAgreeOnSupport(e: WebhookEvent)
    ensures GetRepositoryName(e) == Failure(Errors.WebHooks(Errors.UnsupportedWebhookEvent)) <==>
            GetRepositoryOwner(e) == Failure(Errors.WebHooks(Errors.UnsupportedWebhookEvent))
  {
  }

  /** A pull-request event has a repository name but never any file changes. */
  lemma PullRequestHasNoChanges(e: WebhookEvent)
    requires e.specific.PullRequestPayload?
    ensures GetPushFileChanges(e) == NoChanges
    ensures e.repository.Some? && e.repository.value.fullName.Some? ==> GetRepositoryName(e).Success?
  {
  }
}

=== FILE: headers.dfy ===
/**
 The part of `http::HeaderMap` the webhook handlers rely on: names are
 stored in lower case, `get` looks a name up case-insensitively and yields
 the first value stored under it, `insert` replaces every value of a name,
 and `HeaderValue::to_str` succeeds only on visible ASCII (and tab).
 */
module Headers {
  import opened Wrappers
  import opened Hex

  /** ASCII lower-casing, as `HeaderName` normalises names. */
  function AsciiLower(s: string): (t: string)
    ensures |t| == |s|
    ensures forall i :: 0 <= i < |s| ==> t[i] == (if 'A' <= s[i] <= 'Z' then (s[i] as int + 32) as char else s[i])
  {
    if s == [] then []
    else [if 'A' <= s[0] <= 'Z' then (s[0] as int + 32) as char else s[0]] + AsciiLower(s[1..])
  }

  /** Entries in insertion order; each name is already lower-case. */
  datatype HeaderMap = HeaderMap(entries: seq<(string, seq<byte>)>)

  const Empty: HeaderMap := HeaderMap([])

  /** `HeaderMap::get`: the first value stored under the lower-cased name. */
  function Get(h: HeaderMap, name: string): (r: Option<seq<byte>>)
    ensures r.None? <==> forall i :: 0 <= i < |h.entries| ==> h.entries[i].0 != AsciiLower(name)
    ensures r.Some? ==> (AsciiLower(name), r.value) in h.entries
    decreases |h.entries|
  {
    if h.entries == [] then None
    else if h.entries[0].0 == AsciiLower(name) then Some(h.entries[0].1)
    else Get(HeaderMap(h.entries[1..]), name)
  }

  /** `get` yields the value of the first entry stored under the name. */
  lemma {:induction false} GetFirst(h: HeaderMap, name: string, i: nat)
    requires i < |h.entries| && h.entries[i].0 == AsciiLower(name)
    requires forall j :: 0 <= j < i ==> h.entries[j].0 != AsciiLower(name)
    ensures Get(h, name) == Some(h.entries[i].1)
    decreases i
  {
    if i > 0 {
      GetFirst(HeaderMap(h.entries[1..]), name, i - 1);
    }
  }

  /** `HeaderMap::insert`: drops every value of the name and appends the new one. */
  function Insert(h: HeaderMap, name: string, value: seq<byte>): (r: HeaderMap)
    ensures |r.entries| >= 1 && r.entries[|r.entries| - 1] == (AsciiLower(name), value)
    ensures forall i :: 0 <= i < |r.entries| - 1 ==> r.entries[i].0 != AsciiLower(name) && r.entries[i] in h.entries
    ensures forall e :: e in h.entries && e.0 != AsciiLower(name) ==> e in r.entries[..|r.entries| - 1]
  {
    var key := AsciiLower(name);
    HeaderMap(Without(h.entries, key) + [(key, value)])
  }

  /** The entries whose name is not `key`, in order. */
  function Without(entries: seq<(string, seq<byte>)>, key: string): (r: seq<(string, seq<byte>)>)
    ensures forall i :: 0 <= i < |r| ==> r[i].0 != key && r[i] in entries
    ensures forall e :: e in entries && e.0 != key ==> e in r
  {
    if entries == [] then []
    else if entries[0].0 == key then Without(entries[1..], key)
    else [entries[0]] + Without(entries[1..], key)
  }

  /** `insert` followed by `get` of the same name (in any case) gives the value. */
  lemma GetInsertSame(h: HeaderMap, name: string, other: string, value: seq<byte>)
    requires AsciiLower(other) == AsciiLower(name)
    ensures Get(Insert(h, name, value), other) == Some(value)
  {
  }

  /** `insert` leaves the first value of every other name alone. */
  lemma GetInsertOther(h: HeaderMap, name: string, other: string, value: seq<byte>)
    requires AsciiLower(other) != AsciiLower(name)
    ensures Get(Insert(h, name, value), other) == Get(h, other)
  {
    GetWithoutOther(h.entries, AsciiLower(name), other, value);
  }

  lemma {:induction false} GetWithoutOther(e: seq<(string, seq<byte>)>, key: string, other: string, value: seq<byte>)
    requires AsciiLower(other) != key
    ensures Get(HeaderMap(Without(e, key) + [(key, value)]), other) == Get(HeaderMap(e), other)
    decreases |e|
  {
    if e != [] {
      GetWithoutOther(e[1..], key, other, value);
      if e[0].0 != key {
        var tail := Without(e[1..], key) + [(key, value)];
        assert Without(e, key) + [(key, value)] == [e[0]] + tail;
        assert ([e[0]] + tail)[1..] == tail;
      }
    }
  }

  /** Bytes `HeaderValue::to_str` accepts: visible ASCII and horizontal tab. */
  predicate IsVisibleAscii(b: byte) {
    (32 <= b < 127) || b == 9
  }

  /** `HeaderValue::to_str`. */
  function ToStr(v: seq<byte>): (r: Option<string>)
    ensures r.Some? <==> forall i :: 0 <= i < |v| ==> IsVisibleAscii(v[i])
    ensures r.Some? ==> |r.value| == |v| && forall i :: 0 <= i < |v| ==> r.value[i] as int == v[i] as int
  {
    if forall i :: 0 <= i < |v| ==> IsVisibleAscii(v[i]) then
      Some(seq(|v|, i requires 0 <= i < |v| => v[i] as char))
    else None
  }

  /** The bytes of an ASCII text, for building header values. */
  function FromStr(s: string): (v: seq<byte>)
    requires forall i :: 0 <= i < |s| ==> s[i] as int < 256
    ensures |v| == |s| && forall i :: 0 <= i < |s| ==> v[i] as int == s[i] as int
  {
    seq(|s|, i requires 0 <= i < |s| => s[i] as int as byte)
  }

  /** Printable ASCII text survives the trip into a header value and back. */
  lemma ToStrFromStr(s: string)
    requires forall i :: 0 <= i < |s| ==> 32 <= s[i] as int < 127
    ensures ToStr(FromStr(s)) == Some(s)
  {
    var v := FromStr(s);
    assert forall i :: 0 <= i < |v| ==> IsVisibleAscii(v[i]);
    assert ToStr(v).value == s;
  }

  /** `headers.get(name).and_then(|v| v.to_str().ok())`. */
  function GetText(h: HeaderMap, name: string): (r: Option<string>)
    ensures r.Some? ==> Get(h, name).Some? && ToStr(Get(h, name).value) == r
    ensures Get(h, name).None? ==> r.None?
    ensures Get(h, name).Some? ==> r == ToStr(Get(h, name).value)
  {
    match Get(h, name)
    case None => None
    case Some(v) => ToStr(v)
  }
}

=== FILE: hex.dfy ===
/**
 The hexadecimal codec of the `hex` crate as the signature check uses it, on
 ASCII text (the only text a header value converts to): `hex::decode` accepts upper- and lower-case digits, rejects an odd-length
 input before looking at any digit, and otherwise reports the first
 character that is not a digit with its index; `hex::encode` writes
 lower-case digits, high nibble first.
 */
module Hex {
  import opened Wrappers

  newtype byte = x: int | 0 <= x < 256

  datatype HexError = OddLength | InvalidHexCharacter(c: char, index: nat)

  predicate IsHexDigit(c: char) {
    '0' <= c <= '9' || 'a' <= c <= 'f' || 'A' <= c <= 'F'
  }

  function DigitValue(c: char): (v: nat)
    requires IsHexDigit(c)
    ensures v < 16
  {
    if '0' <= c <= '9' then c as nat - '0' as nat
    else if 'a' <= c <= 'f' then c as nat - 'a' as nat + 10
    else c as nat - 'A' as nat + 10
  }

  /** The lower-case digit for a nibble. */
  function DigitChar(v: nat): (c: char)
    requires v < 16
    ensures IsHexDigit(c) && DigitValue(c) == v && !('A' <= c <= 'F')
  {
    if v < 10 then ('0' as int + v) as char else ('a' as int + v - 10) as char
  }

  /** ASCII lower-casing of the digits `A`-`F`; every other character is kept. */
  function LowerDigit(c: char): char {
    if 'A' <= c <= 'F' then (c as int - 'A' as int + 'a' as int) as char else c
  }

  /** The two lower-case digits of one byte, high nibble first. */
  function ByteDigits(x: byte): (s: string)
    ensures |s| == 2 && IsHexDigit(s[0]) && IsHexDigit(s[1])
    ensures DigitValue(s[0]) * 16 + DigitValue(s[1]) == x as nat
  {
    [DigitChar(x as nat / 16), DigitChar(x as nat % 16)]
  }

  /** `hex::encode`. */
  function Encode(b: seq<byte>): (s: string)
    ensures |s| == 2 * |b|
    ensures forall i :: 0 <= i < |s| ==> IsHexDigit(s[i]) && !('A' <= s[i] <= 'F')
  {
    if b == [] then [] else ByteDigits(b[0]) + Encode(b[1..])
  }

  /** The byte a pair of digits stands for. */
  function PairValue(hi: char, lo: char): byte
    requires IsHexDigit(hi) && IsHexDigit(lo)
  {
    (DigitValue(hi) * 16 + DigitValue(lo)) as byte
  }

  /** Decodes the digit pairs of an even-length string; `offset` is the index of
      `s[0]` in the whole input, for the error report. */
  function DecodePairs(s: string, offset: nat): (r: Result<seq<byte>, HexError>)
    requires |s| % 2 == 0
    ensures r.Success? <==> forall i :: 0 <= i < |s| ==> IsHexDigit(s[i])
    ensures r.Success? ==> 2 * |r.value| == |s|
    ensures r.Failure? ==> r.error.InvalidHexCharacter?
    ensures r.Failure? ==> offset <= r.error.index < offset + |s| && s[r.error.index - offset] == r.error.c
    ensures r.Failure? ==> !IsHexDigit(r.error.c)
    ensures r.Failure? ==> forall j :: 0 <= j < r.error.index - offset ==> IsHexDigit(s[j])
    decreases |s|
  {
    if s == [] then Success([])
    else if !IsHexDigit(s[0]) then Failure(InvalidHexCharacter(s[0], offset))
    else if !IsHexDigit(s[1]) then Failure(InvalidHexCharacter(s[1], offset + 1))
    else
      match DecodePairs(s[2..], offset + 2)
      case Failure(e) => Failure(e)
      case Success(rest) => Success([PairValue(s[0], s[1])] + rest)
  }

  /** `hex::decode`. */
  function Decode(s: string): (r: Result<seq<byte>, HexError>)
    ensures r.Success? <==> |s| % 2 == 0 && forall i :: 0 <= i < |s| ==> IsHexDigit(s[i])
    ensures r.Success? ==> 2 * |r.value| == |s|
    ensures |s| % 2 == 1 ==> r == Failure(OddLength)
    ensures r.Failure? && r.error.InvalidHexCharacter? ==>
              r.error.index < |s| && s[r.error.index] == r.error.c && !IsHexDigit(r.error.c)
              && forall j :: 0 <= j < r.error.index ==> IsHexDigit(s[j])
  {
    if |s| % 2 != 0 then Failure(OddLength) else DecodePairs(s, 0)
  }

  lemma {:induction false} DecodePairsEncode(b: seq<byte>, offset: nat)
    ensures DecodePairs(Encode(b), offset) == Success(b)
    decreases |b|
  {
    if b != [] {
      var s := Encode(b);
      assert s[2..] == Encode(b[1..]);
      DecodePairsEncode(b[1..], offset + 2);
      assert PairValue(s[0], s[1]) == b[0];
      assert b == [b[0]] + b[1..];
    }
  }

  /** Decoding what was encoded gives back the bytes. */
  lemma DecodeEncode(b: seq<byte>)
    ensures Decode(Encode(b)) == Success(b)
  {
    var s := Encode(b);
    assert |s| % 2 == 0;
    DecodePairsEncode(b, 0);
    assert Decode(s) == DecodePairs(s, 0);
  }

  /** Lower-cases every hexadecimal letter of a string. */
  function Lower(s: string): (t: string)
    ensures |t| == |s|
    ensures forall i :: 0 <= i < |s| ==> t[i] == LowerDigit(s[i])
  {
    if s == [] then [] else [LowerDigit(s[0])] + Lower(s[1..])
  }

  /** One pair: the digits of the decoded byte are the input digits in lower case. */
  lemma PairDigits(hi: char, lo: char)
    requires IsHexDigit(hi) && IsHexDigit(lo)
    ensures ByteDigits(PairValue(hi, lo)) == [LowerDigit(hi), LowerDigit(lo)]
  {
    var x := PairValue(hi, lo) as nat;
    assert x / 16 == DigitValue(hi) && x % 16 == DigitValue(lo);
  }

  lemma {:induction false} EncodeDecodePairs(s: string, offset: nat)
    requires |s| % 2 == 0 && DecodePairs(s, offset).Success?
    ensures Encode(DecodePairs(s, offset).value) == Lower(s)
    decreases |s|
  {
    if s != [] {
      var d := DecodePairs(s, offset).value;
      var rest := DecodePairs(s[2..], offset + 2).value;
      assert d == [PairValue(s[0], s[1])] + rest;
      EncodeDecodePairs(s[2..], offset + 2);
      assert d[1..] == rest;
      assert Encode(d) == ByteDigits(d[0]) + Encode(rest);
      PairDigits(s[0], s[1]);
      LowerPair(s);
    }
  }

  lemma LowerPair(s: string)
    requires |s| >= 2
    ensures Lower(s) == [LowerDigit(s[0]), LowerDigit(s[1])] + Lower(s[2..])
  {
    assert s[1..][1..] == s[2..];
  }

  /** Encoding what was decoded gives back the input with its digits
      lower-cased: decoding is case-insensitive and loses nothing else. */
  lemma EncodeDecode(s: string)
    requires Decode(s).Success?
    ensures Encode(Decode(s).value) == Lower(s)
  {
    EncodeDecodePairs(s, 0);
  }

  /** Sample verdicts of `hex::decode`. */
  lemma DecodeExamples()
    ensures Decode("0aFf") == Success([10, 255])
    ensures Decode("abc") == Failure(OddLength)
    ensures Decode("invalid_signature") == Failure(OddLength)
    ensures Decode("zz") == Failure(InvalidHexCharacter('z', 0))
  {
    var s := "0aFf";
    assert PairValue('0', 'a') == 10 && PairValue('F', 'f') == 255;
    assert s[2..] == "Ff" && "Ff"[2..] == [];
    assert DecodePairs([], 4) == Success([]);
    assert DecodePairs("Ff", 2) == Success([PairValue('F', 'f')] + []);
    assert [PairValue('F', 'f')] + [] == [255];
    assert DecodePairs(s, 0) == Success([PairValue('0', 'a')] + [255]);
    assert [PairValue('0', 'a')] + [255] == [10, 255];
  }
}

=== FILE: legacy_errors.dfy ===
/**
 The error type of the older tree (`some_errors.rs`): a smaller `SomeError`
 whose response carries a status and a user message but no error code.
 */
module LegacyErrors {

  datatype SearchError =
    | MeilisearchUrlMissing
    | MasterKeyMissing
    | DefaultSearchApiKeyNotFound
    | DefaultAdminApiKeyNotFound
    | KeyNameNotFound(name: string)

  datatype DBError = DatabaseUrlMissing | QueryFailed(cause: string)

  datatype GetPostsError = CategoryError

  datatype SomeError =
    | Search(search: SearchError)
    | Database(db: DBError)
    | Meilisearch(cause: string)
    | GetPosts(posts: GetPostsError)
    | Other(description: string)

  /** The `Display` text `thiserror` derives for each error. */
  function Display(e: SomeError): string {
    match e
    case Search(MeilisearchUrlMissing) => "Can not get MEILISEARCH_URL from env."
    case Search(MasterKeyMissing) => "Can not get MEILI_MASTER_KEY from env."
    case Search(DefaultSearchApiKeyNotFound) => "Can not found default search api key."
    case Search(DefaultAdminApiKeyNotFound) => "Can not found default admin api key."
    case Search(KeyNameNotFound(n)) => "Can not found this key, it is " + n + ", is it valid?"
    case Database(DatabaseUrlMissing) => "Can not get DATABASE_URL from env."
    case Database(QueryFailed(c)) => "Database query failed: " + c
    case Meilisearch(c) => c
    case GetPosts(CategoryError) => "Invalid Category type."
    case Other(d) => d
  }

  /** `From<sqlx::Error> for SomeError`. */
  function FromSqlx(cause: string): (e: SomeError)
    ensures e.Database? && e.db.QueryFailed? && e.db.cause == cause
  {
    Database(QueryFailed(cause))
  }

  datatype ErrorResponse = ErrorResponse(status: int, message: string, body: seq<(string, string)>)

  /** Errors caused by the client's request. */
  predicate ClientFault(e: SomeError) {
    e.GetPosts?
  }

  function Classify(e: SomeError): (int, string) {
    match e
    case Search(MeilisearchUrlMissing) => (500, "Server misconfiguration")
    case Search(MasterKeyMissing) => (500, "Server misconfiguration")
    case Database(DatabaseUrlMissing) => (500, "Server misconfiguration")
    case Meilisearch(_) => (502, "Search service unavailable")
    case Search(_) => (500, "Search service misconfigured")
    case Database(QueryFailed(_)) => (503, "Database temporarily unavailable")
    case GetPosts(CategoryError) => (400, "Something was invalid in requests.")
    case Other(_) => (500, "An unexpected error occurred")
  }

  /** `impl IntoResponse for SomeError` of the older tree. */
  function IntoResponse(e: SomeError): (r: ErrorResponse)
    ensures 400 <= r.status <= 599
    ensures 400 <= r.status <= 499 <==> ClientFault(e)
    ensures r.body == [("error", r.message), ("status", "error")]
  {
    var (status, message) := Classify(e);
    ErrorResponse(status, message, [("error", message), ("status", "error")])
  }

  /** Which errors produce which status and message. */
  lemma StatusTable(e: SomeError)
    ensures IntoResponse(e).message == "Server misconfiguration" <==>
              e in {Search(MeilisearchUrlMissing), Search(MasterKeyMissing), Database(DatabaseUrlMissing)}
    ensures IntoResponse(e).message == "Search service misconfigured" <==>
              e.Search? && (e.search.DefaultSearchApiKeyNotFound? || e.search.DefaultAdminApiKeyNotFound? || e.search.KeyNameNotFound?)
    ensures IntoResponse(e).status == 502 <==> e.Meilisearch?
    ensures IntoResponse(e).message == "Search service unavailable" <==> e.Meilisearch?
    ensures IntoResponse(e).status == 503 <==> e.Database? && e.db.QueryFailed?
    ensures IntoResponse(e).status == 400 <==> e == GetPosts(CategoryError)
    ensures IntoResponse(e).status == 500 <==> e.Search? || e == Database(DatabaseUrlMissing) || e.Other?
    ensures e.Other? ==> IntoResponse(e).message == "An unexpected error occurred"
  {
  }
}

=== FILE: mocks.dfy ===
/**
 The in-memory stand-ins the service tests run against: a repository kept
 in a map from article ID to article, a search service answering from a
 map from query text to its hits, and a GitHub client answering from a map
 from path to file text. They are the reference behaviour of the
 repository, search and GitHub contracts.

 Timestamps (`OffsetDateTime`) are integers ordered as the instants are.
 `i64` and `usize` conversions follow a release build: `x as usize` of a
 negative `i64` adds 2^64, and `usize` arithmetic wraps.
 */
module Mocks {
  import opened Wrappers
  import opened Category
  import Errors
  import Search

  /** `domain::articles::Article`, the row the repository stores. */
  datatype StoredArticle = StoredArticle(
    id: string, title: string, tags: seq<string>, category: PostCategory,
    summary: string, content: string, status: string, createdAt: int, updatedAt: int)

  /** The listing row the repository's category query yields. */
  datatype PostResponse = PostResponse(id: string, title: string, tags: seq<string>, summary: string)

  /** The contents of `MockArticleRepository`. */
  type Repo = map<string, StoredArticle>

  /** Every article is stored under its own ID. */
  ghost predicate WellKeyed(repo: Repo) {
    forall k :: k in repo ==> repo[k].id == k
  }

  // ---------------------------------------------------------------------
  // Building and updating

  /** `with_articles`: inserts in order, so a later article with an ID
      already seen replaces the earlier one. */
  function WithArticles(articles: seq<StoredArticle>): (repo: Repo)
    ensures forall i :: 0 <= i < |articles| ==> articles[i].id in repo
    ensures forall k :: k in repo ==> exists i :: 0 <= i < |articles| && articles[i].id == k
  {
    if articles == [] then map[]
    else
      var last := articles[|articles| - 1];
      WithArticles(articles[..|articles| - 1])[last.id := last]
  }

  /** The stored article for an ID is the last one in the list with that ID. */
  lemma {:induction false} WithArticlesLastWins(articles: seq<StoredArticle>, i: nat)
    requires i < |articles|
    requires forall j :: i < j < |articles| ==> articles[j].id != articles[i].id
    ensures WithArticles(articles)[articles[i].id] == articles[i]
  {
    var n := |articles| - 1;
    if i < n {
      var prefix := articles[..n];
      assert prefix[i] == articles[i];
      assert forall j :: i < j < |prefix| ==> prefix[j] == articles[j];
      WithArticlesLastWins(prefix, i);
    }
  }

  /** `with_articles` keys every article by its own ID. */
  lemma {:induction false} WithArticlesWellKeyed(articles: seq<StoredArticle>)
    ensures WellKeyed(WithArticles(articles))
  {
    if articles != [] {
      WithArticlesWellKeyed(articles[..|articles| - 1]);
    }
  }

  /** `find_optional_by_id`. */
  function FindOptionalById(repo: Repo, id: string): (r: Option<StoredArticle>)
    ensures r.Some? <==> id in repo
    ensures r.Some? ==> r.value == repo[id]
  {
    if id in repo then Some(repo[id]) else None
  }

  /** `save`: insert or replace under the article's ID. */
  function Save(repo: Repo, a: StoredArticle): (r: Repo)
    ensures FindOptionalById(r, a.id) == Some(a)
    ensures forall k :: k != a.id ==> FindOptionalById(r, k) == FindOptionalById(repo, k)
    ensures WellKeyed(repo) ==> WellKeyed(r)
  {
    repo[a.id := a]
  }

  /** `delete_by_path`: removes the entry whose key equals the argument; an
      absent key leaves the repository as it was. */
  function DeleteByPath(repo: Repo, path: string): (r: Repo)
    ensures FindOptionalById(r, path).None?
    ensures forall k :: k != path ==> FindOptionalById(r, k) == FindOptionalById(repo, k)
    ensures path !in repo ==> r == repo
    ensures WellKeyed(repo) ==> WellKeyed(r)
  {
    repo - {path}
  }

  /** Saving then deleting by the same key restores a repository that did not have it. */
  lemma SaveThenDelete(repo: Repo, a: StoredArticle)
    requires a.id !in repo
    ensures DeleteByPath(Save(repo, a), a.id) == repo
  {
  }

  /** `get_post_by_id`: the stored article or `ArticleNotFound`. */
  function GetPostById(repo: Repo, id: string): (r: Result<StoredArticle, Errors.SomeError>)
    ensures r.Success? <==> FindOptionalById(repo, id).Some?
    ensures r.Success? ==> r.value == repo[id]
    ensures r.Failure? ==> r.error == Errors.GetPosts(Errors.ArticleNotFound)
  {
    if id in repo then Success(repo[id]) else Failure(Errors.GetPosts(Errors.ArticleNotFound))
  }

  /** `get_all`: every stored article exactly once, in the map's iteration
      order (which the model leaves open). */
  method GetAll(repo: Repo) returns (all: seq<StoredArticle>)
    requires WellKeyed(repo)
    ensures |all| == |repo|
    ensures forall i :: 0 <= i < |all| ==> all[i].id in repo && repo[all[i].id] == all[i]
    ensures forall i, j :: 0 <= i < j < |all| ==> all[i].id != all[j].id
    ensures forall k :: k in repo ==> repo[k] in all
  {
    all := [];
    var rest := repo.Keys;
    while rest != {}
      invariant rest <= repo.Keys
      invariant |all| + |rest| == |repo|
      invariant forall i :: 0 <= i < |all| ==> all[i].id in repo.Keys - rest && repo[all[i].id] == all[i]
      invariant forall i, j :: 0 <= i < j < |all| ==> all[i].id != all[j].id
      invariant forall k :: k in repo.Keys - rest ==> repo[k] in all
      decreases |rest|
    {
      var k :| k in rest;
      all := all + [repo[k]];
      rest := rest - {k};
    }
  }

  // ---------------------------------------------------------------------
  // The category listing

  /** The IDs of the stored articles in a category, named by its string. */
  function CategoryKeys(repo: Repo, category: string): (ks: set<string>)
    ensures forall k :: k in ks <==> k in repo && AsStr(repo[k].category) == category
  {
    set k | k in repo && AsStr(repo[k].category) == category
  }

  /** Newest first: no article is followed by a newer one. */
  ghost predicate NewestFirst(s: seq<StoredArticle>) {
    forall i :: 0 < i < |s| ==> s[i - 1].createdAt >= s[i].createdAt
  }

  /** Newest first compares every pair, not only neighbours. */
  lemma {:induction false} NewestFirstPairs(s: seq<StoredArticle>, i: nat, j: nat)
    requires NewestFirst(s) && i <= j < |s|
    ensures s[i].createdAt >= s[j].createdAt
    decreases j - i
  {
    if i < j {
      NewestFirstPairs(s, i + 1, j);
    }
  }

  /** One step of a stable descending insertion: `a` goes after every
      element at least as new as it. */
  function InsertByDate(a: StoredArticle, s: seq<StoredArticle>): (r: seq<StoredArticle>)
    requires NewestFirst(s)
    ensures NewestFirst(r)
    ensures multiset(r) == multiset(s) + multiset{a}
    ensures |r| == |s| + 1
    ensures r[0] == a || (s != [] && r[0] == s[0])
  {
    if s == [] then [a]
    else if s[0].createdAt < a.createdAt then [a] + s
    else
      var tail := InsertByDate(a, s[1..]);
      assert s == [s[0]] + s[1..];
      [s[0]] + tail
  }

  /** `sort_by(|a, b| b.created_at.cmp(&a.created_at))`: a stable sort, newest first. */
  function SortByDate(s: seq<StoredArticle>): (r: seq<StoredArticle>)
    ensures NewestFirst(r)
    ensures multiset(r) == multiset(s)
    ensures |r| == |s|
  {
    if s == [] then []
    else
      var prefix := s[..|s| - 1];
      assert s == prefix + [s[|s| - 1]];
      InsertByDate(s[|s| - 1], SortByDate(prefix))
  }

  /** Sequences with the same multiset hold the same elements. */
  lemma SameElements(a: seq<StoredArticle>, b: seq<StoredArticle>)
    requires multiset(a) == multiset(b)
    ensures forall x :: x in a <==> x in b
  {
    forall x
      ensures x in a <==> x in b
    {
      assert x in a <==> x in multiset(a);
      assert x in b <==> x in multiset(b);
    }
  }

  const TwoTo64: int := 0x1_0000_0000_0000_0000

  /** `x as usize` for an `i64`. */
  function I64AsUsize(x: int): (r: nat)
    requires -TwoTo64 / 2 <= x < TwoTo64 / 2
    ensures x >= 0 ==> r == x
    ensures x < 0 ==> r >= TwoTo64 / 2 && r == x + TwoTo64
  {
    if x >= 0 then x else x + TwoTo64
  }

  /** How many rows `skip(skip).take(take)` leaves of `count`. */
  function WindowLength(count: nat, skip: nat, take: nat): (n: nat)
    ensures n <= take && (n == 0 || n + skip <= count)
    ensures skip < count ==> n == (if count - skip < take then count - skip else take)
  {
    if skip >= count then 0 else if count - skip < take then count - skip else take
  }

  function ToResponse(a: StoredArticle): (r: PostResponse)
    ensures r.id == a.id && r.title == a.title && r.tags == a.tags && r.summary == a.summary
  {
    PostResponse(a.id, a.title, a.tags, a.summary)
  }

  /** The category's articles, each once, in the map's iteration order. */
  method FilterCategory(repo: Repo, category: string) returns (filtered: seq<StoredArticle>)
    requires WellKeyed(repo)
    ensures |filtered| == |CategoryKeys(repo, category)|
    ensures forall i :: 0 <= i < |filtered| ==>
              filtered[i].id in CategoryKeys(repo, category) && repo[filtered[i].id] == filtered[i]
    ensures forall k :: k in CategoryKeys(repo, category) ==> repo[k] in filtered
  {
    filtered := [];
    var ids: set<string> := {};
    var rest := repo.Keys;
    while rest != {}
      invariant rest <= repo.Keys
      invariant ids <= repo.Keys - rest
      invariant |filtered| == |ids|
      invariant forall i :: 0 <= i < |filtered| ==> filtered[i].id in ids && repo[filtered[i].id] == filtered[i]
      invariant forall k :: k in ids ==> AsStr(repo[k].category) == category && repo[k] in filtered
      invariant forall k :: k in repo.Keys - rest && AsStr(repo[k].category) == category ==> k in ids
      decreases |rest|
    {
      var k :| k in rest;
      if AsStr(repo[k].category) == category {
        filtered := filtered + [repo[k]];
        ids := ids + {k};
      }
      rest := rest - {k};
    }
    assert ids == CategoryKeys(repo, category);
  }

  /** `get_posts_by_category`: the category's articles, newest first, then
      `offset` skipped and at most `page_size` taken. `ordered` is the
      whole sorted category the page is cut from. */
  method GetPostsByCategory(repo: Repo, category: string, pageSize: int, offset: int)
    returns (ordered: seq<StoredArticle>, page: seq<PostResponse>)
    requires WellKeyed(repo)
    requires -TwoTo64 / 2 <= pageSize < TwoTo64 / 2 && -TwoTo64 / 2 <= offset < TwoTo64 / 2
    ensures NewestFirst(ordered)
    ensures |ordered| == |CategoryKeys(repo, category)|
    ensures forall i :: 0 <= i < |ordered| ==>
              ordered[i].id in CategoryKeys(repo, category) && repo[ordered[i].id] == ordered[i]
    ensures forall k :: k in CategoryKeys(repo, category) ==> repo[k] in ordered
    ensures |page| == WindowLength(|ordered|, I64AsUsize(offset), I64AsUsize(pageSize))
    ensures forall i :: 0 <= i < |page| ==> page[i] == ToResponse(ordered[I64AsUsize(offset) + i])
  {
    var filtered := FilterCategory(repo, category);
    ordered := SortByDate(filtered);
    SameElements(ordered, filtered);
    forall i | 0 <= i < |ordered|
      ensures ordered[i].id in CategoryKeys(repo, category) && repo[ordered[i].id] == ordered[i]
    {
      assert ordered[i] in filtered;
    }
    var skip := I64AsUsize(offset);
    var take := I64AsUsize(pageSize);
    var n := WindowLength(|ordered|, skip, take);
    page := seq(n, i requires 0 <= i < n => ToResponse(ordered[skip + i]));
  }

  /** Twenty-five articles in one category, read ten at a time from offsets
      0, 10 and 20, come back as pages of 10, 10 and 5; an empty category
      gives an empty page. */
  lemma TwentyFiveArticlesPaged()
    ensures WindowLength(25, I64AsUsize(0), I64AsUsize(10)) == 10
    ensures WindowLength(25, I64AsUsize(10), I64AsUsize(10)) == 10
    ensures WindowLength(25, I64AsUsize(20), I64AsUsize(10)) == 5
    ensures WindowLength(0, I64AsUsize(0), I64AsUsize(10)) == 0
  {
  }

  /** A negative offset casts to a huge `usize` and skips every row; a
      negative page size casts to a huge one and takes them all. */
  lemma NegativeCasts(count: nat, pageSize: int, offset: int)
    requires count < TwoTo64 / 2
    requires -TwoTo64 / 2 <= pageSize < TwoTo64 / 2 && -TwoTo64 / 2 <= offset < TwoTo64 / 2
    ensures offset < 0 ==> WindowLength(count, I64AsUsize(offset), I64AsUsize(pageSize)) == 0
    ensures offset == 0 && pageSize < 0 ==> WindowLength(count, I64AsUsize(offset), I64AsUsize(pageSize)) == count
  {
  }

  // ---------------------------------------------------------------------
  // Search and GitHub

  /** `MockSearchService::search`: the hits stored for the query (none for
      an unknown one), cut to the requested page. */
  function MockSearch(results: map<string, seq<Search.SearchHit>>, query: string, currentPage: nat, limit: nat)
    : (r: Search.SearchResponse)
    requires limit >= 1 && Search.InUsize(currentPage) && Search.InUsize(limit)
    ensures query !in results ==> r.results == [] && r.totalHits == 0
    ensures query in results ==> r.totalHits == |results[query]|
    ensures r.currentPage == currentPage
    ensures var hits := if query in results then results[query] else [];
            var offset := Search.WrapUsize((currentPage - 1) * limit);
            && (offset < |hits| ==> r.results == hits[offset..if offset + limit < |hits| then offset + limit else |hits|])
            && (offset >= |hits| ==> r.results == [])
  {
    var hits := if query in results then results[query] else [];
    var total := |hits|;
    var offset := Search.WrapUsize((currentPage - 1) * limit);
    var page := if offset >= total then [] else hits[offset..if offset + limit < total then offset + limit else total];
    Search.SearchResponse(total, Search.TotalPages(total, limit), currentPage, page)
  }

  /** The mock's page count is the ceiling of the hits over the limit, and
      page `p >= 1` starts after the hits of the pages before it. */
  lemma MockSearchPaging(results: map<string, seq<Search.SearchHit>>, query: string, currentPage: nat, limit: nat)
    requires limit >= 1 && 1 <= currentPage && Search.InUsize(currentPage) && Search.InUsize(limit)
    requires query in results && Search.InUsize(|results[query]| + limit - 1)
    requires Search.InUsize((currentPage - 1) * limit)
    ensures var r := MockSearch(results, query, currentPage, limit);
            && r.totalPages * limit >= r.totalHits
            && (r.totalPages == 0 || (r.totalPages - 1) * limit < r.totalHits)
            && (currentPage <= r.totalPages ==> 1 <= |r.results| <= limit)
            && (currentPage > r.totalPages ==> r.results == [])
  {
    var total := |results[query]|;
    Search.TotalPagesIsCeiling(total, limit);
    var p := Search.TotalPages(total, limit);
    var c := currentPage - 1;
    var r := MockSearch(results, query, currentPage, limit);
    assert r.totalPages == p && r.totalHits == total;
    assert Search.WrapUsize(c * limit) == c * limit;
    if currentPage <= p {
      MulMonotone(c, p - 1, limit);
      assert c * limit < total;
    } else {
      MulMonotone(p, c, limit);
      assert c * limit >= total;
    }
  }

  lemma MulMonotone(a: nat, b: nat, k: nat)
    requires a <= b
    ensures a * k <= b * k
  {
  }

  /** Fifteen hits five at a time: three full pages and a total of fifteen. */
  lemma FifteenHitsPaged(results: map<string, seq<Search.SearchHit>>)
    requires "test" in results && |results["test"]| == 15
    ensures MockSearch(results, "test", 1, 5).totalHits == 15
    ensures MockSearch(results, "test", 1, 5).totalPages == 3
    ensures forall p :: 1 <= p <= 3 ==> |MockSearch(results, "test", p, 5).results| == 5
  {
  }

  /** Twenty hits with page sizes 10, 5 and 20 give 2, 4 and 1 pages; an
      unknown query gives nothing. */
  lemma TwentyHitsPageSizes(results: map<string, seq<Search.SearchHit>>)
    requires "test" in results && |results["test"]| == 20 && "nonexistent" !in results
    ensures |MockSearch(results, "test", 1, 10).results| == 10 && MockSearch(results, "test", 1, 10).totalPages == 2
    ensures |MockSearch(results, "test", 1, 5).results| == 5 && MockSearch(results, "test", 1, 5).totalPages == 4
    ensures |MockSearch(results, "test", 1, 20).results| == 20 && MockSearch(results, "test", 1, 20).totalPages == 1
    ensures MockSearch(results, "nonexistent", 1, 10).totalHits == 0
    ensures MockSearch(results, "nonexistent", 1, 10).totalPages == 0
    ensures MockSearch(results, "nonexistent", 1, 10).results == []
  {
    Search.TotalPagesIsCeiling(0, 10);
  }

  /** `MockGithubClient::get_file_content`: the stored text for the path, or
      "File not found: <path>". Owner and repository are ignored. */
  function MockFileContent(contents: map<string, string>, owner: string, repo: string, path: string)
    : (r: Result<string, Errors.SomeError>)
    ensures r.Success? <==> path in contents
    ensures r.Success? ==> r.value == contents[path]
    ensures r.Failure? ==> r.error == Errors.Other(Errors.Message("File not found: " + path))
  {
    if path in contents then Success(contents[path]) else Failure(Errors.Other(Errors.Message("File not found: " + path)))
  }
}

=== FILE: reconciliation.dfy ===
/**
 Properties of a whole push through the reconciliation engine: what may be
 both upserted and deleted, which paths reach the store, and the rename
 scenario the engine exists for.
 */
module Reconciliation {
  import opened Wrappers
  import opened TimeUtils
  import opened Errors
  import opened GithubEvents
  import opened FileFilter
  import opened ArticleService

  /** The reconciliation of a push whose name, owner and path lookup succeed,
      spelt out: modified-file articles first, then renames, then new files. */
  lemma ReconcileParts(e: WebhookEvent, env: Env)
    requires Reconcile(e, env).Success?
    ensures GetRepositoryName(e).Success? && GetRepositoryOwner(e).Success?
    ensures var owner := GetRepositoryOwner(e).value;
            var repo := GetRepositoryName(e).value;
            var changes := GetPushFileChanges(e);
            var ar := ProcessAddedAndRemoved(owner, repo, ValidAdded(changes.added), changes.removed, env);
            && ar.Success?
            && Reconcile(e, env).value.upserts ==
                 Built(FetchFiles(owner, repo, changes.modified, env), env) + ar.value.renamed + ar.value.add
            && Reconcile(e, env).value.deletes == ar.value.removed
  {
  }

  /** Only the article of a modified file can be both upserted and deleted in
      the same push; renamed and new articles never are. */
  lemma OnlyModifiedOverlapDeletes(e: WebhookEvent, env: Env, a: Article)
    requires Reconcile(e, env).Success?
    requires a in Reconcile(e, env).value.upserts && a.id in Reconcile(e, env).value.deletes
    ensures a in Built(FetchFiles(GetRepositoryOwner(e).value, GetRepositoryName(e).value, GetPushFileChanges(e).modified, env), env)
  {
    ReconcileParts(e, env);
  }

  /** Every upserted article that did not come from a modified file has a
      path the extension filter accepts. */
  lemma AddedUpsertsValid(e: WebhookEvent, env: Env, a: Article)
    requires Reconcile(e, env).Success?
    requires a in Reconcile(e, env).value.upserts
    requires a !in Built(FetchFiles(GetRepositoryOwner(e).value, GetRepositoryName(e).value, GetPushFileChanges(e).modified, env), env)
    ensures IsValidFile(a.path)
  {
    ReconcileParts(e, env);
    var valid := ValidAdded(GetPushFileChanges(e).added);
    var i :| 0 <= i < |valid| && valid[i].filePath == a.path;
    assert valid[i] in valid;
  }

  /** Given the repository's name and owner and a successful path lookup, the
      reconciliation is the modified-file articles, then the renames, then
      the new articles, deleting the unclaimed IDs. */
  lemma ReconcileOf(e: WebhookEvent, env: Env, built: seq<Article>, ar: Split)
    requires GetRepositoryName(e).Success? && GetRepositoryOwner(e).Success?
    requires Built(FetchFiles(GetRepositoryOwner(e).value, GetRepositoryName(e).value, GetPushFileChanges(e).modified, env), env) == built
    requires ProcessAddedAndRemoved(GetRepositoryOwner(e).value, GetRepositoryName(e).value,
                                    ValidAdded(GetPushFileChanges(e).added), GetPushFileChanges(e).removed, env) == Success(ar)
    ensures Reconcile(e, env) == Success(Reconciled(built + ar.renamed + ar.add, ar.removed))
  {
  }

  /** The loop over one file. */
  lemma FoldOne(f: FetchedFile, ids: set<string>, env: Env)
    ensures Fold([f], ids, env) == Step(Split([], [], ids), f, env)
  {
    assert [f][..0] == [];
  }

  /** The fetch of one record. */
  lemma FetchOne(owner: string, repo: string, c: FileChange, env: Env)
    ensures FetchFiles(owner, repo, [c], env) == [FetchedFile(c.timestamp, env.getContent(owner, repo, c.filePath), c.filePath)]
  {
  }

  /** The article of a fetched file whose front matter parses. */
  lemma ArticleOfParsed(f: FetchedFile, env: Env, text: string, fm: FrontMatter, body: string)
    requires f.content == Success(text) && env.parse(text) == Success(Parsed(Some(fm), body))
    ensures Usable(f, env) == Some((fm, body))
    ensures ArticleOf(f, env) == BuildArticle(fm, f.path, body, ArticleTime(f.timestamp, env.now), ArticleTime(f.timestamp, env.now))
  {
  }

  /** The renamed post's new name is a content file name. */
  lemma NewNameValid()
    ensures IsValidFile("b-new.md")
  {
    assert "b-new.md"[5..] == ".md";
    ValidBareName("b-new.md");
  }

  /** A plan with upserts and no deletes. */
  lemma PlanUpsertsOnly(upserts: seq<Article>)
    requires upserts != []
    ensures Plan(upserts, {}) == [UpsertBatch(upserts), CommitTx]
  {
    assert Plan(upserts, {}) == [UpsertBatch(upserts)] + [] + [CommitTx];
  }

  /** A plan with both upserts and deletes. */
  lemma PlanBoth(upserts: seq<Article>, deletes: set<string>)
    requires upserts != [] && deletes != {}
    ensures Plan(upserts, deletes) == [UpsertBatch(upserts), DeleteBatch(deletes), CommitTx]
  {
    assert Plan(upserts, deletes) == [UpsertBatch(upserts)] + [DeleteBatch(deletes)] + [CommitTx];
  }

  const Repo: Repository := Repository(Some("octo/blog"), Some(Owner("octo")))

  /** A push of one commit. */
  function OneCommitPush(added: seq<string>, removed: seq<string>, modified: seq<string>, ts: ChronoTime): (e: WebhookEvent)
    ensures GetRepositoryName(e) == Success("octo/blog") && GetRepositoryOwner(e) == Success("octo")
    ensures GetPushFileChanges(e) == FileChanges(Records(added, "added", ts), Records(removed, "removed", ts),
                                                 Records(modified, "modified", ts))
  {
    var commits := [Commit(added, removed, modified, ts)];
    assert commits[..0] == [];
    assert Collect(commits).added == [] + Records(added, "added", ts);
    WebhookEvent(Push, PushPayload(commits), Some(Repo))
  }

  /** The rename scenario: a push adds `b-new.md` whose front matter
      carries ID `b1` and removes `b-old.md`, where `b1` is stored.
      Exactly one article is upserted, `b1` at its new path, and nothing is
      deleted. */
  lemma RenameBecomesUpdate(env: Env, ts: ChronoTime, text: string, fm: FrontMatter, body: string)
    requires fm.id == "b1"
    requires env.getByPaths(["b-old.md"]) == Success({"b1"})
    requires env.getContent("octo", "octo/blog", "b-new.md") == Success(text)
    requires env.parse(text) == Success(Parsed(Some(fm), body))
    ensures var t := ArticleTime(ts, env.now);
            var e := OneCommitPush(["b-new.md"], ["b-old.md"], [], ts);
            && Reconcile(e, env) == Success(Reconciled([BuildArticle(fm, "b-new.md", body, t, t)], {}))
            && Plan(Reconcile(e, env).value.upserts, Reconcile(e, env).value.deletes)
                 == [UpsertBatch([BuildArticle(fm, "b-new.md", body, t, t)]), CommitTx]
  {
    RenameReconciles(env, ts, text, fm, body);
    var t := ArticleTime(ts, env.now);
    PlanUpsertsOnly([BuildArticle(fm, "b-new.md", body, t, t)]);
  }

  /** What the rename push reconciles to. */
  lemma RenameReconciles(env: Env, ts: ChronoTime, text: string, fm: FrontMatter, body: string)
    requires fm.id == "b1"
    requires env.getByPaths(["b-old.md"]) == Success({"b1"})
    requires env.getContent("octo", "octo/blog", "b-new.md") == Success(text)
    requires env.parse(text) == Success(Parsed(Some(fm), body))
    ensures var t := ArticleTime(ts, env.now);
            Reconcile(OneCommitPush(["b-new.md"], ["b-old.md"], [], ts), env)
              == Success(Reconciled([BuildArticle(fm, "b-new.md", body, t, t)], {}))
  {
    var t := ArticleTime(ts, env.now);
    var a := BuildArticle(fm, "b-new.md", body, t, t);
    assert [] + [a] + [] == [a];
    assert ProcessAddedAndRemoved("octo", "octo/blog", ValidAdded(Records(["b-new.md"], "added", ts)),
                                  Records(["b-old.md"], "removed", ts), env) == Success(Split([], [a], {})) by {
      NewNameValid();
      RenameSplit(env, ts, "b-new.md", "b-old.md", text, fm, body);
    }
    NothingModified(env, ts);
    ReconcileOf(OneCommitPush(["b-new.md"], ["b-old.md"], [], ts), env, [], Split([], [a], {}));
  }

  /** The added and removed halves of the rename push, after the filter. */
  lemma RenameSplit(env: Env, ts: ChronoTime, newPath: string, oldPath: string, text: string, fm: FrontMatter, body: string)
    requires IsValidFile(newPath)
    requires env.getByPaths([oldPath]) == Success({fm.id})
    requires env.getContent("octo", "octo/blog", newPath) == Success(text)
    requires env.parse(text) == Success(Parsed(Some(fm), body))
    ensures var t := ArticleTime(ts, env.now);
            ProcessAddedAndRemoved("octo", "octo/blog", ValidAdded(Records([newPath], "added", ts)),
                                   Records([oldPath], "removed", ts), env)
              == Success(Split([], [BuildArticle(fm, newPath, body, t, t)], {}))
  {
    var newFile := FileChange(newPath, "added", ts, None);
    assert Records([newPath], "added", ts) == [newFile];
    ValidAddedSingle(newFile);
    RenameClaimsId(env, ts, newPath, oldPath, text, fm, body);
  }

  /** A push that modifies nothing builds no modified-file articles. */
  lemma NothingModified(env: Env, ts: ChronoTime)
    ensures Built(FetchFiles("octo", "octo/blog", Records([], "modified", ts), env), env) == []
  {
    assert Records([], "modified", ts) == [];
    assert FetchFiles("octo", "octo/blog", [], env) == [];
  }

  /** The added side of a rename: an added file whose ID the removed file held
      claims that ID, becomes a rename, and leaves nothing to delete. */
  lemma RenameClaimsId(env: Env, ts: ChronoTime, newPath: string, oldPath: string, text: string, fm: FrontMatter, body: string)
    requires env.getByPaths([oldPath]) == Success({fm.id})
    requires env.getContent("octo", "octo/blog", newPath) == Success(text)
    requires env.parse(text) == Success(Parsed(Some(fm), body))
    ensures var t := ArticleTime(ts, env.now);
            ProcessAddedAndRemoved("octo", "octo/blog", [FileChange(newPath, "added", ts, None)],
                                   Records([oldPath], "removed", ts), env)
              == Success(Split([], [BuildArticle(fm, newPath, body, t, t)], {}))
  {
    var newFile := FileChange(newPath, "added", ts, None);
    assert RemovedPaths(Records([oldPath], "removed", ts)) == [oldPath];
    FetchOne("octo", "octo/blog", newFile, env);
    var f := FetchedFile(ts, Success(text), newPath);
    ArticleOfParsed(f, env, text, fm, body);
    FoldOne(f, {fm.id}, env);
    var t := ArticleTime(ts, env.now);
    var a := BuildArticle(fm, newPath, body, t, t);
    assert ArticleOf(f, env) == a && a.id in {fm.id};
    assert {fm.id} - {a.id} == {};
    assert Fold([f], {fm.id}, env) == Split([], [] + [a], {});
    assert [] + [a] == [a];
    assert FetchFiles("octo", "octo/blog", [newFile], env) == [f];
    var removed := Records([oldPath], "removed", ts);
    assert env.getByPaths(RemovedPaths(removed)) == Success({fm.id});
    assert ProcessAddedAndRemoved("octo", "octo/blog", [newFile], removed, env) == Success(Fold([f], {fm.id}, env));
  }

  /** A text file is not a content file. */
  lemma NotesRejected()
    ensures !IsValidFile("notes.txt")
  {
    ValidBareName("notes.txt");
    assert "notes.txt"[6..] != ".md";
    assert "notes.txt"[5..] != ".mdx";
  }

  /** A push of one commit that modifies one file and removes others: the
      modified file's article is upserted and the removed files' IDs deleted. */
  lemma ModifiedOnly(env: Env, ts: ChronoTime, path: string, removed: seq<string>, ids: set<string>,
                     text: string, fm: FrontMatter, body: string)
    requires env.getByPaths(removed) == Success(ids)
    requires env.getContent("octo", "octo/blog", path) == Success(text)
    requires env.parse(text) == Success(Parsed(Some(fm), body))
    ensures var t := ArticleTime(ts, env.now);
            Reconcile(OneCommitPush([], removed, [path], ts), env)
              == Success(Reconciled([BuildArticle(fm, path, body, t, t)], ids))
  {
    var t := ArticleTime(ts, env.now);
    var a := BuildArticle(fm, path, body, t, t);
    assert [a] + [] + [] == [a];
    OneModifiedBuilt(env, ts, path, text, fm, body);
    OnlyRemoved(env, ts, removed, ids);
    ReconcileOf(OneCommitPush([], removed, [path], ts), env, [a], Split([], [], ids));
  }

  /** One modified file whose front matter parses builds one article. */
  lemma OneModifiedBuilt(env: Env, ts: ChronoTime, path: string, text: string, fm: FrontMatter, body: string)
    requires env.getContent("octo", "octo/blog", path) == Success(text)
    requires env.parse(text) == Success(Parsed(Some(fm), body))
    ensures var t := ArticleTime(ts, env.now);
            Built(FetchFiles("octo", "octo/blog", Records([path], "modified", ts), env), env)
              == [BuildArticle(fm, path, body, t, t)]
  {
    var c := FileChange(path, "modified", ts, None);
    assert Records([path], "modified", ts) == [c];
    FetchOne("octo", "octo/blog", c, env);
    var f := FetchedFile(ts, Success(text), path);
    ArticleOfParsed(f, env, text, fm, body);
    BuiltSingle(f, env);
  }

  /** With nothing added, the removed files' IDs are all deleted. */
  lemma OnlyRemoved(env: Env, ts: ChronoTime, removed: seq<string>, ids: set<string>)
    requires env.getByPaths(removed) == Success(ids)
    ensures ProcessAddedAndRemoved("octo", "octo/blog", ValidAdded(Records([], "added", ts)),
                                   Records(removed, "removed", ts), env) == Success(Split([], [], ids))
  {
    assert RemovedPaths(Records(removed, "removed", ts)) == removed;
    assert Records([], "added", ts) == [];
    assert ValidAdded([]) == [];
    assert FetchFiles("octo", "octo/blog", [], env) == [];
  }

  /** As written, a modified file is not passed through the extension
      filter: a modified `notes.txt` with front matter is upserted. */
  lemma ModifiedFilesUnfiltered(env: Env, ts: ChronoTime, text: string, fm: FrontMatter, body: string)
    requires env.getByPaths([]) == Success({})
    requires env.getContent("octo", "octo/blog", "notes.txt") == Success(text)
    requires env.parse(text) == Success(Parsed(Some(fm), body))
    ensures !IsValidFile("notes.txt")
    ensures var t := ArticleTime(ts, env.now);
            Reconcile(OneCommitPush([], [], ["notes.txt"], ts), env)
              == Success(Reconciled([BuildArticle(fm, "notes.txt", body, t, t)], {}))
  {
    NotesRejected();
    ModifiedOnly(env, ts, "notes.txt", [], {}, text, fm, body);
  }

  /** As written, the upsert and delete sets can share an ID: a push that
      modifies a file now carrying ID `x` and removes the file where `x` was
      stored upserts `x` and then deletes it in the same transaction. */
  lemma ModifiedArticleCanBeDeleted(env: Env, ts: ChronoTime, text: string, fm: FrontMatter, body: string)
    requires fm.id == "x"
    requires env.getByPaths(["posts/old.md"]) == Success({"x"})
    requires env.getContent("octo", "octo/blog", "posts/a.md") == Success(text)
    requires env.parse(text) == Success(Parsed(Some(fm), body))
    ensures var t := ArticleTime(ts, env.now);
            var a := BuildArticle(fm, "posts/a.md", body, t, t);
            var e := OneCommitPush([], ["posts/old.md"], ["posts/a.md"], ts);
            && Reconcile(e, env) == Success(Reconciled([a], {"x"}))
            && Plan([a], {"x"}) == [UpsertBatch([a]), DeleteBatch({"x"}), CommitTx]
  {
    ModifiedOnly(env, ts, "posts/a.md", ["posts/old.md"], {"x"}, text, fm, body);
    var t := ArticleTime(ts, env.now);
    assert "x" in {"x"};
    PlanBoth([BuildArticle(fm, "posts/a.md", body, t, t)], {"x"});
  }

  /** An allowed repository's push whose transaction and index rebuild
      succeed ends in success with the planned statements issued. */
  lemma SuccessfulPush(e: WebhookEvent, allowed: set<string>, env: Env)
    requires e.kind == Push && GetRepositoryName(e).Success? && GetRepositoryName(e).value in allowed
    requires Reconcile(e, env).Success? && env.begin.Success?
    requires forall op :: env.exec(op).Success?
    requires env.createIndexClient(DefaultSearchIndex, SearchableAttributes).Success? && env.getAll.Success?
    requires forall job :: env.addDocuments(job).Success?
    ensures var r := ProcessGithubWebhookEvent(e, allowed, env);
            && r.result.Success?
            && r.issued == Plan(Reconcile(e, env).value.upserts, Reconcile(e, env).value.deletes)
            && r.index == Some(IndexJob(DefaultSearchIndex, SearchableAttributes, env.getAll.value, "id"))
  {
  }

  /** A failing statement stops the transaction before `commit`, and the
      index is not rebuilt. */
  lemma FailedStatementNoCommit(e: WebhookEvent, env: Env)
    requires Reconcile(e, env).Success? && env.begin.Success?
    requires env.exec(CommitTx).Success?
    requires exists op :: op in Plan(Reconcile(e, env).value.upserts, Reconcile(e, env).value.deletes) && env.exec(op).Failure?
    ensures ProcessPushEvent(e, env).result.Failure?
    ensures CommitTx !in ProcessPushEvent(e, env).issued
    ensures ProcessPushEvent(e, env).index.None?
  {
    var rec := Reconcile(e, env).value;
    var plan := Plan(rec.upserts, rec.deletes);
    var (issued, res) := RunTx(plan, env.exec);
    assert res.Failure?;
  }
}

=== FILE: search.dfy ===
/**
 Full-text search: the empty-query short-circuit of the handlers, the
 page/offset arithmetic, `total_pages`, the mapping of engine hits to
 `SearchHit`s, and the selection of Meilisearch API keys by name.

 The engine itself is a parameter: given the index, the query text, the
 offset and the limit it returns the page of hits (each with its optional
 highlighted/cropped form) and the optional total, or an error. Page
 numbers and counts are `usize`; the arithmetic on them wraps at 2^64 (the
 behaviour of a release build) and the model writes that out.
 */
module Search {
  import opened Wrappers
  import opened Category
  import Errors
  import LegacyErrors

  const PageItems: nat := 6
  const DefaultSearchIndex: string := "articles"

  const TwoTo64: int := 0x1_0000_0000_0000_0000

  predicate InUsize(x: int) {
    0 <= x < TwoTo64
  }

  /** Wrap-around of a mathematical integer into `usize`. */
  function WrapUsize(x: int): (r: nat)
    ensures InUsize(r)
    ensures (x - r) % TwoTo64 == 0
    ensures InUsize(x) ==> r == x
  {
    x % TwoTo64
  }

  // ---------------------------------------------------------------------
  // `str::trim`

  /** Characters with the Unicode `White_Space` property, which `str::trim` strips. */
  predicate IsWhiteSpace(c: char) {
    || ('\U{0009}' <= c <= '\U{000D}') || c == '\U{0020}' || c == '\U{0085}' || c == '\U{00A0}'
    || c == '\U{1680}' || ('\U{2000}' <= c <= '\U{200A}') || c == '\U{2028}' || c == '\U{2029}'
    || c == '\U{202F}' || c == '\U{205F}' || c == '\U{3000}'
  }

  function TrimStart(s: string): (r: string)
    ensures |r| <= |s| && r == s[|s| - |r|..]
    ensures r != [] ==> !IsWhiteSpace(r[0])
    ensures forall i :: 0 <= i < |s| - |r| ==> IsWhiteSpace(s[i])
  {
    if s == [] || !IsWhiteSpace(s[0]) then s else TrimStart(s[1..])
  }

  function TrimEnd(s: string): (r: string)
    ensures |r| <= |s| && r == s[..|r|]
    ensures r != [] ==> !IsWhiteSpace(r[|r| - 1])
    ensures forall i :: |r| <= i < |s| ==> IsWhiteSpace(s[i])
  {
    if s == [] || !IsWhiteSpace(s[|s| - 1]) then s else TrimEnd(s[..|s| - 1])
  }

  /** `str::trim`. */
  function Trim(s: string): string {
    TrimEnd(TrimStart(s))
  }

  /** A query that is empty or only white space. */
  predicate IsBlank(q: string) {
    forall i :: 0 <= i < |q| ==> IsWhiteSpace(q[i])
  }

  /** `q.trim().is_empty()` holds exactly for blank queries. */
  lemma TrimEmptyIffBlank(q: string)
    ensures Trim(q) == [] <==> IsBlank(q)
  {
    var t := TrimStart(q);
    if Trim(q) != [] {
      var r := Trim(q);
      assert r[0] == t[0];
      assert !IsWhiteSpace(q[|q| - |t|]);
    }
  }

  /** `q.trim().is_empty()`. */
  function TrimmedEmpty(q: string): (b: bool)
    ensures b <==> IsBlank(q)
  {
    TrimEmptyIffBlank(q);
    Trim(q) == []
  }

  // ---------------------------------------------------------------------
  // Hits

  /** A value of the engine's formatted-result map: a JSON string or anything else. */
  datatype FormattedValue = Str(text: string) | NotString

  /** One engine hit: the stored article's fields the mapping copies, and the
      highlighted/cropped form when the engine produced one. */
  datatype EngineHit = EngineHit(id: string, title: string, category: PostCategory,
                                 formatted: Option<map<string, FormattedValue>>)

  datatype EngineResult = EngineResult(hits: seq<EngineHit>, totalHits: Option<nat>)

  /** What the handler asks the engine for. */
  datatype SearchRequest = SearchRequest(index: string, query: string, offset: nat, limit: nat)

  type Engine = SearchRequest -> Result<EngineResult, string>

  datatype SearchHit = SearchHit(id: string, title: string, category: PostCategory, summary: string, content: string)

  /** `formatted.get(key).and_then(as_str).unwrap_or("")`, with no formatted form read as "". */
  function FormattedText(formatted: Option<map<string, FormattedValue>>, key: string): (s: string)
    ensures (formatted.Some? && key in formatted.value && formatted.value[key].Str?) ==> s == formatted.value[key].text
    ensures !(formatted.Some? && key in formatted.value && formatted.value[key].Str?) ==> s == ""
  {
    match formatted
    case None => ""
    case Some(m) => if key in m && m[key].Str? then m[key].text else ""
  }

  /** The closure mapping one engine hit to a `SearchHit`. */
  function ToHit(h: EngineHit): (r: SearchHit)
    ensures r.id == h.id && r.title == h.title && r.category == h.category
    ensures h.formatted.None? ==> r.summary == "" && r.content == ""
    ensures r.summary == FormattedText(h.formatted, "summary") && r.content == FormattedText(h.formatted, "content")
  {
    SearchHit(h.id, h.title, h.category, FormattedText(h.formatted, "summary"), FormattedText(h.formatted, "content"))
  }

  /** `hits.into_iter().map(..).collect()`. */
  function MapHits(hits: seq<EngineHit>): (r: seq<SearchHit>)
    ensures |r| == |hits|
    ensures forall i :: 0 <= i < |hits| ==> r[i] == ToHit(hits[i])
  {
    if hits == [] then [] else [ToHit(hits[0])] + MapHits(hits[1..])
  }

  // ---------------------------------------------------------------------
  // Page arithmetic

  /** `(total + limit - 1) / limit` in `usize`. */
  function TotalPages(total: nat, limit: nat): (pages: nat)
    requires limit >= 1 && InUsize(limit)
    ensures InUsize(total + limit - 1) ==> pages == (total + limit - 1) / limit
  {
    WrapUsize(total + limit - 1) / limit
  }

  /** Without overflow `total_pages` is the ceiling of `total / limit`: the
      fewest pages of `limit` hits that hold every hit. */
  lemma {:induction false} TotalPagesIsCeiling(total: nat, limit: nat)
    requires limit >= 1 && InUsize(total) && InUsize(limit) && InUsize(total + limit - 1)
    ensures TotalPages(total, limit) * limit >= total
    ensures TotalPages(total, limit) == 0 || (TotalPages(total, limit) - 1) * limit < total
    ensures TotalPages(total, limit) == 0 <==> total == 0
  {
    var p := TotalPages(total, limit);
    var n := total + limit - 1;
    assert p == n / limit;
    assert n == p * limit + n % limit;
    assert 0 <= n % limit < limit;
    if p > 0 {
      assert (p - 1) * limit == p * limit - limit;
    }
  }

  datatype SearchResponse = SearchResponse(totalHits: nat, totalPages: nat, currentPage: nat, results: seq<SearchHit>)

  /** The answer to a blank query: nothing found, the requested page echoed. */
  function EmptyResponse(page: nat): (r: SearchResponse)
    ensures r.results == [] && r.totalHits == 0 && r.totalPages == 0 && r.currentPage == page
  {
    SearchResponse(0, 0, page, [])
  }

  /** The response built from one engine result. */
  function ResponseOf(res: EngineResult, current: nat, limit: nat): (r: SearchResponse)
    requires limit >= 1 && InUsize(limit)
    ensures r.currentPage == current
    ensures r.totalHits == res.totalHits.GetOr(0)
    ensures r.totalPages == TotalPages(res.totalHits.GetOr(0), limit)
    ensures r.results == MapHits(res.hits)
  {
    var total := res.totalHits.GetOr(0);
    SearchResponse(total, TotalPages(total, limit), current, MapHits(res.hits))
  }

  /** `MeiliSearchService::search`: page at least 1, offset `(page - 1) * limit`. */
  function ServiceSearch(query: string, index: string, page: nat, limit: nat, engine: Engine): (r: Result<SearchResponse, Errors.SomeError>)
    requires limit >= 1 && InUsize(page) && InUsize(limit)
    ensures var req := SearchRequest(index, query, WrapUsize(((if page >= 1 then page else 1) - 1) * limit), limit);
            && (r.Failure? <==> engine(req).Failure?)
            && (r.Failure? ==> r.error == Errors.Meilisearch(engine(req).error))
            && (r.Success? ==> r.value == ResponseOf(engine(req).value, if page >= 1 then page else 1, limit))
    ensures r.Success? ==> r.value.currentPage >= 1 && (page >= 1 ==> r.value.currentPage == page)
  {
    var current := if page >= 1 then page else 1;
    var offset := WrapUsize((current - 1) * limit);
    match engine(SearchRequest(index, query, offset, limit))
    case Failure(cause) => Failure(Errors.Meilisearch(cause))
    case Success(res) => Success(ResponseOf(res, current, limit))
  }

  /** Without overflow the service asks for the hits that precede page
      `page` to be skipped. */
  lemma ServiceOffset(page: nat, limit: nat)
    requires page >= 1 && limit >= 1 && InUsize((page - 1) * limit)
    ensures WrapUsize(((if page >= 1 then page else 1) - 1) * limit) == (page - 1) * limit
  {
  }

  datatype SearchParams = SearchParams(q: string, page: nat)

  /** `interfaces::http::handlers::search::get_search_results`: a blank query
      (`q.trim().is_empty()`, which is `IsBlank` by `TrimmedEmpty`) is answered
      without searching; otherwise the service searches the
      default index six hits at a time and its error is the handler's. */
  function GetSearchResults(params: SearchParams, engine: Engine): (r: Result<SearchResponse, Errors.SomeError>)
    requires InUsize(params.page)
    ensures IsBlank(params.q) ==> r == Success(EmptyResponse(params.page))
    ensures !IsBlank(params.q) ==> r == ServiceSearch(params.q, DefaultSearchIndex, params.page, PageItems, engine)
  {
    if IsBlank(params.q) then Success(EmptyResponse(params.page))
    else ServiceSearch(params.q, DefaultSearchIndex, params.page, PageItems, engine)
  }

  /** The older `get_search_results` (in `handlers/search.rs` and `search.rs`):
      the same arithmetic inlined, with the older error type. */
  function LegacyGetSearchResults(params: SearchParams, engine: Engine): (r: Result<SearchResponse, LegacyErrors.SomeError>)
    requires InUsize(params.page)
    ensures IsBlank(params.q) ==> r == Success(EmptyResponse(params.page))
    ensures !IsBlank(params.q) ==>
              var current := if params.page >= 1 then params.page else 1;
              var req := SearchRequest(DefaultSearchIndex, params.q, WrapUsize(PageItems * (current - 1)), PageItems);
              && (r.Failure? <==> engine(req).Failure?)
              && (r.Failure? ==> r.error == LegacyErrors.Meilisearch(engine(req).error))
              && (r.Success? ==> r.value.currentPage == current && r.value.results == MapHits(engine(req).value.hits))
  {
    if IsBlank(params.q) then Success(EmptyResponse(params.page))
    else
      var current := if params.page >= 1 then params.page else 1;
      var offset := WrapUsize(PageItems * (current - 1));
      match engine(SearchRequest(DefaultSearchIndex, params.q, offset, PageItems))
      case Failure(cause) => Failure(LegacyErrors.Meilisearch(cause))
      case Success(res) =>
        var total := res.totalHits.GetOr(0);
        Success(SearchResponse(total, WrapUsize(total + PageItems - 1) / PageItems, current, MapHits(res.hits)))
  }

  /** The layered handler answers every request as the older one did: the same
      response on success, and a search-engine error with the same cause
      exactly when the older one reports one. */
  lemma HandlersAgree(params: SearchParams, engine: Engine)
    requires InUsize(params.page)
    ensures GetSearchResults(params, engine).Success? <==> LegacyGetSearchResults(params, engine).Success?
    ensures GetSearchResults(params, engine).Success? ==>
              GetSearchResults(params, engine).value == LegacyGetSearchResults(params, engine).value
    ensures GetSearchResults(params, engine).Failure? ==>
              GetSearchResults(params, engine).error.cause == LegacyGetSearchResults(params, engine).error.cause
  {
    var g := GetSearchResults(params, engine);
    var l := LegacyGetSearchResults(params, engine);
    if !IsBlank(params.q) {
      var current := if params.page >= 1 then params.page else 1;
      var req := SearchRequest(DefaultSearchIndex, params.q, WrapUsize((current - 1) * PageItems), PageItems);
      assert SearchRequest(DefaultSearchIndex, params.q, WrapUsize(PageItems * (current - 1)), PageItems) == req by {
        assert PageItems * (current - 1) == (current - 1) * PageItems;
      }
      assert g == ServiceSearch(params.q, DefaultSearchIndex, params.page, PageItems, engine);
      match engine(req)
      case Failure(cause) =>
        assert g == Failure(Errors.Meilisearch(cause));
        assert l == Failure(LegacyErrors.Meilisearch(cause));
      case Success(res) =>
        var total := res.totalHits.GetOr(0);
        var resp := SearchResponse(total, WrapUsize(total + PageItems - 1) / PageItems, current, MapHits(res.hits));
        assert g == Success(ResponseOf(res, current, PageItems));
        assert ResponseOf(res, current, PageItems) == resp;
        assert l == Success(resp);
    }
  }

  // ---------------------------------------------------------------------
  // API keys

  /** One Meilisearch API key: its optional name and its secret. */
  datatype ApiKey = ApiKey(name: Option<string>, key: string)

  /** `keys.iter().find(|k| k.name.as_deref() == Some(name))`, the secret of the first match. */
  function FindKey(keys: seq<ApiKey>, name: string): (r: Option<string>)
    ensures r.None? <==> forall i :: 0 <= i < |keys| ==> keys[i].name != Some(name)
  {
    if keys == [] then None
    else if keys[0].name == Some(name) then Some(keys[0].key)
    else FindKey(keys[1..], name)
  }

  /** The secret found is that of the first key carrying the name. */
  lemma {:induction false} FindKeyFirst(keys: seq<ApiKey>, name: string, i: nat)
    requires i < |keys| && keys[i].name == Some(name)
    requires forall j :: 0 <= j < i ==> keys[j].name != Some(name)
    ensures FindKey(keys, name) == Some(keys[i].key)
  {
    if i > 0 {
      assert keys[1..][i - 1] == keys[i];
      FindKeyFirst(keys[1..], name, i - 1);
    }
  }

  datatype StandardApiKey = AdminKey | SearchKey

  const AdminKeyName: string := "Default Admin API Key"
  const SearchKeyName: string := "Default Search API Key"

  function StandardKeyName(kind: StandardApiKey): string {
    match kind
    case AdminKey => AdminKeyName
    case SearchKey => SearchKeyName
  }

  /** `get_standard_key`: the listing error, the first key with the fixed
      name, or the kind's not-found error. */
  function GetStandardKey(keys: Result<seq<ApiKey>, string>, kind: StandardApiKey): (r: Result<string, Errors.SomeError>)
    ensures keys.Failure? ==> r == Failure(Errors.Meilisearch(keys.error))
    ensures keys.Success? ==> (r.Success? <==> FindKey(keys.value, StandardKeyName(kind)).Some?)
    ensures r.Success? ==> r.value == FindKey(keys.value, StandardKeyName(kind)).value
    ensures keys.Success? && r.Failure? ==>
              r.error == (if kind == AdminKey then Errors.Search(Errors.DefaultAdminApiKeyNotFound)
                          else Errors.Search(Errors.DefaultSearchApiKeyNotFound))
  {
    match keys
    case Failure(cause) => Failure(Errors.Meilisearch(cause))
    case Success(ks) =>
      match FindKey(ks, StandardKeyName(kind))
      case Some(k) => Success(k)
      case None =>
        match kind
        case AdminKey => Failure(Errors.Search(Errors.DefaultAdminApiKeyNotFound))
        case SearchKey => Failure(Errors.Search(Errors.DefaultSearchApiKeyNotFound))
  }

  /** `get_custom_key`: the first key with the given name, or `CustomApiKeyNotFound(name)`. */
  function GetCustomKey(keys: Result<seq<ApiKey>, string>, name: string): (r: Result<string, Errors.SomeError>)
    ensures keys.Failure? ==> r == Failure(Errors.Meilisearch(keys.error))
    ensures keys.Success? ==> (r.Success? <==> FindKey(keys.value, name).Some?)
    ensures r.Success? ==> r.value == FindKey(keys.value, name).value
    ensures keys.Success? && r.Failure? ==> r.error == Errors.Search(Errors.CustomApiKeyNotFound(name))
  {
    match keys
    case Failure(cause) => Failure(Errors.Meilisearch(cause))
    case Success(ks) =>
      match FindKey(ks, name)
      case Some(k) => Success(k)
      case None => Failure(Errors.Search(Errors.CustomApiKeyNotFound(name)))
  }

  /** The key kinds of the older `get_key`. */
  datatype ApiKeyType = Admin | SearchOnly | OtherKey(name: string)

  /** The key name the older `get_key` looks for. */
  function LegacyKeyName(kind: ApiKeyType): string {
    match kind
    case Admin => AdminKeyName
    case SearchOnly => SearchKeyName
    case OtherKey(t) => t
  }

  /** Older `get_key`: one function for the two fixed names and any other name. */
  function LegacyGetKey(keys: Result<seq<ApiKey>, string>, kind: ApiKeyType): (r: Result<string, LegacyErrors.SomeError>)
    ensures keys.Failure? ==> r == Failure(LegacyErrors.Meilisearch(keys.error))
    ensures keys.Success? ==> (r.Success? <==> FindKey(keys.value, LegacyKeyName(kind)).Some?)
    ensures keys.Success? && r.Success? ==> r.value == FindKey(keys.value, LegacyKeyName(kind)).value
    ensures kind == Admin && keys.Success? && r.Failure? ==>
              r.error == LegacyErrors.Search(LegacyErrors.DefaultAdminApiKeyNotFound)
    ensures kind == SearchOnly && keys.Success? && r.Failure? ==>
              r.error == LegacyErrors.Search(LegacyErrors.DefaultSearchApiKeyNotFound)
    ensures kind.OtherKey? && keys.Success? && r.Failure? ==>
              r.error == LegacyErrors.Search(LegacyErrors.KeyNameNotFound(kind.name))
  {
    var name := LegacyKeyName(kind);
    match keys
    case Failure(cause) => Failure(LegacyErrors.Meilisearch(cause))
    case Success(ks) =>
      match FindKey(ks, name)
      case Some(k) => Success(k)
      case None =>
        match kind
        case Admin => Failure(LegacyErrors.Search(LegacyErrors.DefaultAdminApiKeyNotFound))
        case SearchOnly => Failure(LegacyErrors.Search(LegacyErrors.DefaultSearchApiKeyNotFound))
        case OtherKey(n) => Failure(LegacyErrors.Search(LegacyErrors.KeyNameNotFound(n)))
  }

  /** The older single lookup finds the same secret as the two newer ones. */
  lemma KeyLookupsAgree(keys: Result<seq<ApiKey>, string>, name: string)
    ensures LegacyGetKey(keys, Admin).Success? <==> GetStandardKey(keys, AdminKey).Success?
    ensures LegacyGetKey(keys, SearchOnly).Success? <==> GetStandardKey(keys, SearchKey).Success?
    ensures LegacyGetKey(keys, OtherKey(name)).Success? <==> GetCustomKey(keys, name).Success?
    ensures LegacyGetKey(keys, Admin).Success? ==> LegacyGetKey(keys, Admin).value == GetStandardKey(keys, AdminKey).value
    ensures LegacyGetKey(keys, SearchOnly).Success? ==> LegacyGetKey(keys, SearchOnly).value == GetStandardKey(keys, SearchKey).value
    ensures LegacyGetKey(keys, OtherKey(name)).Success? ==>
              LegacyGetKey(keys, OtherKey(name)).value == GetCustomKey(keys, name).value
  {
  }

  /** The standard lookups are custom lookups of the fixed names, up to the error reported. */
  lemma StandardIsCustom(keys: Result<seq<ApiKey>, string>, kind: StandardApiKey)
    ensures GetStandardKey(keys, kind).Success? <==> GetCustomKey(keys, StandardKeyName(kind)).Success?
    ensures GetStandardKey(keys, kind).Success? ==> GetStandardKey(keys, kind).value == GetCustomKey(keys, StandardKeyName(kind)).value
  {
  }
}

=== FILE: signature.dfy ===
/**
 Authentication of GitHub webhook deliveries: the `X-Hub-Signature-256`
 header must read `sha256=` followed by the hexadecimal HMAC-SHA256 (RFC 2104,
 FIPS 180-4) of the raw request body under the shared secret. HMAC itself is
 a parameter: `Hmac::new_from_slice` accepts keys of any length, so key
 setup never fails, and `verify_slice` compares the whole tag.
 */
module Signature {
  import opened Wrappers
  import opened Hex
  import opened Headers
  import Errors

  const SignatureHeader: string := "X-Hub-Signature-256"
  const SignaturePrefix: string := "sha256="

  /** HMAC-SHA256 of a message under a key, both as bytes. */
  type Mac = (seq<byte>, seq<byte>) -> seq<byte>

  /** `str::strip_prefix`. */
  function StripPrefix(s: string, prefix: string): (r: Option<string>)
    ensures r.Some? <==> |prefix| <= |s| && s[..|prefix|] == prefix
    ensures r.Some? ==> prefix + r.value == s
  {
    if |prefix| <= |s| && s[..|prefix|] == prefix then Some(s[|prefix|..]) else None
  }

  /** What GitHub puts in the header for a body signed with a secret. */
  function Sign(secret: seq<byte>, payload: seq<byte>, hmac: Mac): string {
    SignaturePrefix + Encode(hmac(secret, payload))
  }

  /** Reference definition of an authentic header text: the prefix exactly,
      then the tag's hexadecimal digits in either case. */
  ghost predicate Authentic(text: Option<string>, tag: seq<byte>) {
    && text.Some?
    && |SignaturePrefix| <= |text.value|
    && text.value[..|SignaturePrefix|] == SignaturePrefix
    && Lower(text.value[|SignaturePrefix|..]) == Encode(tag)
  }

  /** The checks shared by both copies of `verify_signature`. */
  function Check(payload: seq<byte>, headers: HeaderMap, secret: seq<byte>, hmac: Mac): bool {
    CheckText(GetText(headers, SignatureHeader), hmac(secret, payload))
  }

  /** The checks on the header's text, given the tag computed over the body. */
  function CheckText(text: Option<string>, tag: seq<byte>): bool {
    match text
    case None => false
    case Some(signature) =>
      match StripPrefix(signature, SignaturePrefix)
      case None => false
      case Some(hexDigits) =>
        match Decode(hexDigits)
        case Failure(_) => false
        case Success(bytes) => bytes == tag
  }

  /** `infrastructure::github::signature::verify_signature`. */
  function VerifySignature(payload: seq<byte>, headers: HeaderMap, secret: seq<byte>, hmac: Mac): (r: Result<string, Errors.SomeError>)
    ensures r.Success? <==> Authentic(GetText(headers, SignatureHeader), hmac(secret, payload))
    ensures r.Success? ==> r.value == "Ok"
    ensures r.Failure? ==> r.error == Errors.WebHooks(Errors.VerifySignatureFailed)
  {
    CheckAuthentic(payload, headers, secret, hmac);
    if Check(payload, headers, secret, hmac) then Success("Ok")
    else Failure(Errors.WebHooks(Errors.VerifySignatureFailed))
  }

  /** The `bool`-returning copy in the older webhook handler. */
  function LegacyVerifySignature(payload: seq<byte>, headers: HeaderMap, secret: seq<byte>, hmac: Mac): (ok: bool)
    ensures ok <==> Authentic(GetText(headers, SignatureHeader), hmac(secret, payload))
  {
    CheckAuthentic(payload, headers, secret, hmac);
    Check(payload, headers, secret, hmac)
  }

  /** Both copies accept exactly the same requests. */
  lemma CopiesAgree(payload: seq<byte>, headers: HeaderMap, secret: seq<byte>, hmac: Mac)
    ensures LegacyVerifySignature(payload, headers, secret, hmac) == VerifySignature(payload, headers, secret, hmac).Success?
  {
  }

  lemma EncodeInjective(a: seq<byte>, b: seq<byte>)
    requires Encode(a) == Encode(b)
    ensures a == b
  {
    DecodeEncode(a);
    DecodeEncode(b);
  }

  /** Lower-case hexadecimal text is its own lower-case form. */
  lemma LowerEncode(b: seq<byte>)
    ensures Lower(Encode(b)) == Encode(b)
  {
  }

  /** A text whose lower-case form is a valid encoding decodes to its bytes. */
  lemma DecodeFromLower(x: string, tag: seq<byte>)
    requires Lower(x) == Encode(tag)
    ensures Decode(x) == Success(tag)
  {
    forall i | 0 <= i < |x|
      ensures IsHexDigit(x[i])
    {
      assert IsHexDigit(Lower(x)[i]);
    }
    var d := Decode(x).value;
    EncodeDecode(x);
    EncodeInjective(d, tag);
  }

  /** Decoding to the tag is the same as matching its encoding up to case. */
  lemma DecodeIffLower(x: string, tag: seq<byte>)
    ensures Decode(x) == Success(tag) <==> Lower(x) == Encode(tag)
  {
    if Decode(x) == Success(tag) {
      EncodeDecode(x);
    }
    if Lower(x) == Encode(tag) {
      DecodeFromLower(x, tag);
    }
  }

  lemma CheckAuthentic(payload: seq<byte>, headers: HeaderMap, secret: seq<byte>, hmac: Mac)
    ensures Check(payload, headers, secret, hmac) <==> Authentic(GetText(headers, SignatureHeader), hmac(secret, payload))
  {
    CheckTextAuthentic(GetText(headers, SignatureHeader), hmac(secret, payload));
  }

  /** The checks accept exactly the authentic texts. */
  lemma CheckTextAuthentic(text: Option<string>, tag: seq<byte>)
    ensures CheckText(text, tag) <==> Authentic(text, tag)
  {
    if text.Some? && StripPrefix(text.value, SignaturePrefix).Some? {
      DecodeIffLower(text.value[|SignaturePrefix|..], tag);
    }
  }

  /** The signature text is printable ASCII, so it fits in a header value. */
  lemma SignPrintable(secret: seq<byte>, payload: seq<byte>, hmac: Mac)
    ensures forall i :: 0 <= i < |Sign(secret, payload, hmac)| ==> 32 <= Sign(secret, payload, hmac)[i] as int < 127
  {
    var s := Sign(secret, payload, hmac);
    var e := Encode(hmac(secret, payload));
    forall i | 0 <= i < |s|
      ensures 32 <= s[i] as int < 127
    {
      if i >= |SignaturePrefix| {
        assert s[i] == e[i - |SignaturePrefix|];
        assert IsHexDigit(e[i - |SignaturePrefix|]);
      }
    }
  }

  /** Headers with the signature of `payload` inserted. */
  function SignedHeaders(headers: HeaderMap, secret: seq<byte>, payload: seq<byte>, hmac: Mac): (h: HeaderMap)
    ensures GetText(h, SignatureHeader) == Some(Sign(secret, payload, hmac))
  {
    var s := Sign(secret, payload, hmac);
    SignPrintable(secret, payload, hmac);
    GetInsertSame(headers, SignatureHeader, SignatureHeader, FromStr(s));
    ToStrFromStr(s);
    Insert(headers, SignatureHeader, FromStr(s))
  }

  /** The signature text is authentic for exactly the tags equal to its own. */
  lemma SignAuthentic(secret: seq<byte>, payload: seq<byte>, hmac: Mac, tag: seq<byte>)
    ensures Authentic(Some(Sign(secret, payload, hmac)), tag) <==> tag == hmac(secret, payload)
  {
    var e := Encode(hmac(secret, payload));
    var s := Sign(secret, payload, hmac);
    assert s[|SignaturePrefix|..] == e;
    assert s[..|SignaturePrefix|] == SignaturePrefix;
    LowerEncode(hmac(secret, payload));
    if Lower(e) == Encode(tag) {
      EncodeInjective(hmac(secret, payload), tag);
    }
  }

  /** A delivery carrying the signature GitHub computes is accepted. */
  lemma SignedRequestAccepted(payload: seq<byte>, headers: HeaderMap, secret: seq<byte>, hmac: Mac)
    ensures VerifySignature(payload, SignedHeaders(headers, secret, payload, hmac), secret, hmac).Success?
  {
    SignAuthentic(secret, payload, hmac, hmac(secret, payload));
  }

  /** A signature made for one body does not authenticate a body with a different MAC. */
  lemma TamperedPayloadRejected(payload: seq<byte>, tampered: seq<byte>, headers: HeaderMap, secret: seq<byte>, hmac: Mac)
    requires hmac(secret, tampered) != hmac(secret, payload)
    ensures VerifySignature(tampered, SignedHeaders(headers, secret, payload, hmac), secret, hmac).Failure?
  {
    SignAuthentic(secret, payload, hmac, hmac(secret, tampered));
  }

  /** Without the header there is nothing to verify. */
  lemma MissingHeaderRejected(payload: seq<byte>, secret: seq<byte>, hmac: Mac)
    ensures VerifySignature(payload, Empty, secret, hmac).Failure?
  {
    assert GetText(Empty, SignatureHeader).None?;
  }

  /** A header value with bytes outside visible ASCII is refused. */
  lemma OpaqueHeaderRejected(payload: seq<byte>, headers: HeaderMap, secret: seq<byte>, hmac: Mac)
    requires Get(headers, SignatureHeader).Some? && ToStr(Get(headers, SignatureHeader).value).None?
    ensures VerifySignature(payload, headers, secret, hmac).Failure?
  {
    assert GetText(headers, SignatureHeader).None?;
  }

  /** A header that does not start with `sha256=` is refused whatever follows. */
  lemma WrongPrefixRejected(payload: seq<byte>, headers: HeaderMap, secret: seq<byte>, hmac: Mac, text: string)
    requires GetText(headers, SignatureHeader) == Some(text)
    requires !(|SignaturePrefix| <= |text| && text[..|SignaturePrefix|] == SignaturePrefix)
    ensures VerifySignature(payload, headers, secret, hmac).Failure?
  {
    assert !Check(payload, headers, secret, hmac);
  }

  /** The right prefix followed by digits that are not a hex string is refused. */
  lemma MalformedDigitsRejected(payload: seq<byte>, headers: HeaderMap, secret: seq<byte>, hmac: Mac, text: string)
    requires GetText(headers, SignatureHeader) == Some(text)
    requires StripPrefix(text, SignaturePrefix).Some?
    requires Decode(StripPrefix(text, SignaturePrefix).value).Failure?
    ensures VerifySignature(payload, headers, secret, hmac).Failure?
  {
    assert !Check(payload, headers, secret, hmac);
  }

  /** The two malformed headers of the handler's own examples: a SHA-1 style
      prefix, and the right prefix with an odd number of characters after it. */
  lemma MalformedHeaderExamples()
    ensures StripPrefix("sha1=abc123", SignaturePrefix).None?
    ensures StripPrefix("sha256=invalid_signature", SignaturePrefix) == Some("invalid_signature")
    ensures Decode("invalid_signature") == Failure(OddLength)
  {
    Sha1PrefixRefused();
    Sha256PrefixStripped();
    OddDigitsRefused();
  }

  lemma Sha1PrefixRefused()
    ensures StripPrefix("sha1=abc123", SignaturePrefix).None?
  {
    assert "sha1=abc123"[4] != SignaturePrefix[4];
  }

  lemma Sha256PrefixStripped()
    ensures StripPrefix("sha256=invalid_signature", SignaturePrefix) == Some("invalid_signature")
  {
    assert "sha256=invalid_signature"[..|SignaturePrefix|] == SignaturePrefix;
    assert "sha256=invalid_signature"[|SignaturePrefix|..] == "invalid_signature";
  }

  lemma OddDigitsRefused()
    ensures Decode("invalid_signature") == Failure(OddLength)
  {
    assert |"invalid_signature"| == 17;
  }
}

=== FILE: time_utils.dfy ===
/**
 Conversion between the two timestamp representations of the backend:
 chrono's `DateTime<Utc>` (commit timestamps in webhook payloads) and the
 `time` crate's `OffsetDateTime` (article timestamps), both reduced to
 Unix seconds plus a sub-second nanosecond count.
 */
module TimeUtils {
  import opened Wrappers

  const NanosPerSecond: nat := 1_000_000_000

  /** Unix seconds of -9999-01-01T00:00:00Z and 9999-12-31T23:59:59Z: the range of
      `OffsetDateTime` without the `large-dates` feature. */
  const OffsetMinSeconds: int := -377_705_116_800
  const OffsetMaxSeconds: int := 253_402_300_799

  /** Unix seconds of -262143-01-01T00:00:00Z and 262142-12-31T23:59:59Z: the range of
      chrono's `DateTime<Utc>`. */
  const ChronoMinSeconds: int := -8_334_601_228_800
  const ChronoMaxSeconds: int := 8_210_266_876_799

  /** A chrono `DateTime<Utc>`: `nanos` may reach into [1e9, 2e9) only to encode a
      leap second, which chrono allows on the last second of a minute. */
  datatype ChronoTime = ChronoTime(seconds: int, nanos: nat)

  ghost predicate ValidChrono(t: ChronoTime) {
    && ChronoMinSeconds <= t.seconds <= ChronoMaxSeconds
    && t.nanos < 2 * NanosPerSecond
    && (t.nanos >= NanosPerSecond ==> t.seconds % 60 == 59)
  }

  /** A `time::OffsetDateTime` in UTC. */
  datatype OffsetTime = OffsetTime(seconds: int, nanos: nat)

  ghost predicate ValidOffset(t: OffsetTime) {
    OffsetMinSeconds <= t.seconds <= OffsetMaxSeconds && t.nanos < NanosPerSecond
  }

  /** `time::error::ComponentRange`: which component was out of range. */
  datatype ComponentRange = SecondsOutOfRange | NanosecondOutOfRange

  /** Strict chronological order of two offset timestamps. */
  predicate Before(a: OffsetTime, b: OffsetTime) {
    a.seconds < b.seconds || (a.seconds == b.seconds && a.nanos < b.nanos)
  }

  /** `chrono_to_offset`: `OffsetDateTime::from_unix_timestamp` on the seconds, then
      `replace_nanosecond` on the sub-second part. */
  function ChronoToOffset(dt: ChronoTime): (r: Result<OffsetTime, ComponentRange>)
    ensures r.Success? <==>
              OffsetMinSeconds <= dt.seconds <= OffsetMaxSeconds && dt.nanos < NanosPerSecond
    ensures r.Success? ==> r.value.seconds == dt.seconds && r.value.nanos == dt.nanos
    ensures r.Success? ==> ValidOffset(r.value)
    ensures !(OffsetMinSeconds <= dt.seconds <= OffsetMaxSeconds) ==> r == Failure(SecondsOutOfRange)
  {
    if !(OffsetMinSeconds <= dt.seconds <= OffsetMaxSeconds) then
      Failure(SecondsOutOfRange)
    else if dt.nanos >= NanosPerSecond then
      Failure(NanosecondOutOfRange)
    else
      Success(OffsetTime(dt.seconds, dt.nanos))
  }

  /** `offset_to_chrono`: `DateTime::from_timestamp(unix_timestamp, nanosecond)`. */
  function OffsetToChrono(o: OffsetTime): (r: Option<ChronoTime>)
    requires o.nanos < NanosPerSecond
    ensures r.Some? <==> ChronoMinSeconds <= o.seconds <= ChronoMaxSeconds
    ensures r.Some? ==> r.value.seconds == o.seconds && r.value.nanos == o.nanos
    ensures r.Some? ==> ValidChrono(r.value)
  {
    if ChronoMinSeconds <= o.seconds <= ChronoMaxSeconds then
      Some(ChronoTime(o.seconds, o.nanos))
    else
      None
  }

  /** Every offset timestamp lies in chrono's range, so `offset_to_chrono` never
      returns `None` on a valid `OffsetDateTime`. */
  lemma OffsetAlwaysConvertible(o: OffsetTime)
    requires ValidOffset(o)
    ensures OffsetToChrono(o).Some?
  {
  }

  /** Round trip: what `chrono_to_offset` produces, `offset_to_chrono` turns back
      into the very same chrono value. */
  lemma ChronoOffsetRoundTrip(d: ChronoTime)
    requires ChronoToOffset(d).Success?
    ensures OffsetToChrono(ChronoToOffset(d).value) == Some(d)
  {
  }

  /** The other direction: a valid offset timestamp survives the trip through chrono. */
  lemma OffsetChronoRoundTrip(o: OffsetTime)
    requires ValidOffset(o)
    ensures OffsetToChrono(o).Some?
    ensures ChronoToOffset(OffsetToChrono(o).value) == Success(o)
  {
  }

  /** A leap-second chrono value is always rejected. */
  lemma LeapSecondRejected(d: ChronoTime)
    requires ValidChrono(d) && d.nanos >= NanosPerSecond
    ensures ChronoToOffset(d).Failure?
  {
  }
}

=== FILE: webhook_handlers.dfy ===
/**
 The two `github_webhook` HTTP handlers and the per-file dispatch behind
 them. A delivery is authenticated first, then its `X-GitHub-Event` header
 is read and the body parsed as that event; from then on every failure is
 swallowed and the handler answers "Webhook received". The per-file work
 (fetching and parsing the file) has no effect on any store yet, so the
 model records which action was attempted for which path.

 The layered handler processes every repository and every event; the older
 handler first resolves the repository name (its failure is the payload
 result), ignores repositories outside the allow-list and processes push
 events only.
 */
module WebhookHandlers {
  import opened Wrappers
  import opened Hex
  import opened Headers
  import opened Signature
  import opened GithubEvents
  import opened FileFilter
  import opened TimeUtils
  import Errors

  const EventHeader: string := "X-GitHub-Event"
  const Received: string := "Webhook received"
  const NotAllowedMessage: string := "Repository not allowed"

  /** The per-file handler a change was sent to. */
  datatype FileAction = AddFile(path: string) | ModifyFile(path: string) | RemoveFile(path: string)

  /** The `match file_change.status` arm: known statuses pick a handler,
      anything else is only logged. */
  function ActionFor(c: FileChange): (r: Option<FileAction>)
    ensures r.Some? <==> c.status in {"added", "modified", "removed"}
    ensures r.Some? ==> r.value.path == c.filePath
    ensures c.status == "added" ==> r == Some(AddFile(c.filePath))
    ensures c.status == "modified" ==> r == Some(ModifyFile(c.filePath))
    ensures c.status == "removed" ==> r == Some(RemoveFile(c.filePath))
  {
    if c.status == "added" then Some(AddFile(c.filePath))
    else if c.status == "modified" then Some(ModifyFile(c.filePath))
    else if c.status == "removed" then Some(RemoveFile(c.filePath))
    else None
  }

  /** A change the loop acts on: a content file with a known status. */
  predicate Handled(c: FileChange) {
    IsValidFile(c.filePath) && ActionFor(c).Some?
  }

  /** The loop of `process_push_event` over the changed files, in order. */
  function Dispatch(changes: seq<FileChange>): (r: seq<FileAction>)
    ensures |r| <= |changes|
    decreases |changes|
  {
    if changes == [] then []
    else
      var prev := Dispatch(changes[..|changes| - 1]);
      var c := changes[|changes| - 1];
      if Handled(c) then prev + [ActionFor(c).value] else prev
  }

  /** Dispatching two runs of changes is dispatching each in turn. */
  lemma {:induction false} DispatchAppend(a: seq<FileChange>, b: seq<FileChange>)
    ensures Dispatch(a + b) == Dispatch(a) + Dispatch(b)
    decreases |b|
  {
    if b == [] {
      assert a + b == a;
    } else {
      var b' := b[..|b| - 1];
      assert (a + b)[..|a + b| - 1] == a + b';
      assert (a + b)[|a + b| - 1] == b[|b| - 1];
      DispatchAppend(a, b');
    }
  }

  /** Every action comes from a handled change, for that change's path. */
  lemma {:induction false} DispatchSound(changes: seq<FileChange>, k: nat)
    requires k < |Dispatch(changes)|
    ensures exists i :: 0 <= i < |changes| && Handled(changes[i]) && Dispatch(changes)[k] == ActionFor(changes[i]).value
    decreases |changes|
  {
    var init := changes[..|changes| - 1];
    var c := changes[|changes| - 1];
    var prev := Dispatch(init);
    if k < |prev| {
      DispatchSound(init, k);
      var i :| 0 <= i < |init| && Handled(init[i]) && prev[k] == ActionFor(init[i]).value;
      assert changes[i] == init[i];
    } else {
      assert Handled(c) && Dispatch(changes)[k] == ActionFor(c).value;
    }
  }

  /** Every handled change gets its action; nothing handled is dropped. */
  lemma {:induction false} DispatchComplete(changes: seq<FileChange>, i: nat)
    requires i < |changes| && Handled(changes[i])
    ensures ActionFor(changes[i]).value in Dispatch(changes)
    decreases |changes|
  {
    var init := changes[..|changes| - 1];
    if i < |init| {
      DispatchComplete(init, i);
      assert changes[i] == init[i];
    }
  }

  /** The records `get_push_file_changes` produces carry only the three known
      statuses, so on them the filter is the extension check alone. */
  lemma RecordsHandled(paths: seq<string>, status: string, ts: ChronoTime, k: nat)
    requires status in {"added", "modified", "removed"} && k < |paths|
    ensures Handled(Records(paths, status, ts)[k]) <==> IsValidFile(paths[k])
  {
  }

  /** `headers.get("X-GitHub-Event")` followed by `to_str`. */
  function EventType(headers: HeaderMap): (r: Result<string, Errors.SomeError>)
    ensures r.Success? <==> GetText(headers, EventHeader).Some?
    ensures r.Success? ==> r.value == GetText(headers, EventHeader).value
    ensures Get(headers, EventHeader).None? ==> r == Failure(Errors.WebHooks(Errors.MissingHeader(EventHeader)))
    ensures Get(headers, EventHeader).Some? && r.Failure? ==> r == Failure(Errors.WebHooks(Errors.InvalidHeader(EventHeader)))
  {
    match Get(headers, EventHeader)
    case None => Failure(Errors.WebHooks(Errors.MissingHeader(EventHeader)))
    case Some(v) =>
      match ToStr(v)
      case None => Failure(Errors.WebHooks(Errors.InvalidHeader(EventHeader)))
      case Some(t) => Success(t)
  }

  /** `WebhookEvent::try_from_header_and_body`: the event, or the JSON error's description. */
  type EventParser = (string, seq<byte>) -> Result<WebhookEvent, string>

  /** The response and the per-file actions of one delivery. */
  datatype Delivery = Delivery(response: Result<string, Errors.SomeError>, actions: seq<FileAction>)

  /** The steps shared by both handlers once the signature is accepted. */
  function ParseDelivery(headers: HeaderMap, body: seq<byte>, parse: EventParser): (r: Result<WebhookEvent, Errors.SomeError>)
    ensures r.Success? <==> GetText(headers, EventHeader).Some? && parse(GetText(headers, EventHeader).value, body).Success?
    ensures r.Success? ==> r.value == parse(GetText(headers, EventHeader).value, body).value
    ensures r.Failure? && EventType(headers).Success? ==>
              r.error == Errors.Parse(Errors.JsonParseError(parse(EventType(headers).value, body).error))
    ensures EventType(headers).Failure? ==> r == Failure(EventType(headers).error)
  {
    var kind :- EventType(headers);
    match parse(kind, body)
    case Failure(cause) => Failure(Errors.Parse(Errors.JsonParseError(cause)))
    case Success(e) => Success(e)
  }

  // ---------------------------------------------------------------------
  // The layered handler

  /** Layered `process_push_event`: a missing name or owner is logged and the
      event skipped; otherwise every change, added then removed then
      modified, goes through the loop. */
  function PushActions(e: WebhookEvent): (r: seq<FileAction>)
    ensures GetRepositoryName(e).Failure? || GetRepositoryOwner(e).Failure? ==> r == []
    ensures !(e.kind == Push && e.specific.PushPayload?) ==> r == []
  {
    if GetRepositoryName(e).Failure? || GetRepositoryOwner(e).Failure? then []
    else
      var ch := GetPushFileChanges(e);
      Dispatch(ch.added + ch.removed + ch.modified)
  }

  /** The actions of a push, list by list. */
  lemma PushActionsByList(e: WebhookEvent)
    requires GetRepositoryName(e).Success? && GetRepositoryOwner(e).Success?
    ensures var ch := GetPushFileChanges(e);
            PushActions(e) == Dispatch(ch.added) + Dispatch(ch.removed) + Dispatch(ch.modified)
  {
    var ch := GetPushFileChanges(e);
    DispatchAppend(ch.added + ch.removed, ch.modified);
    DispatchAppend(ch.added, ch.removed);
  }

  /** The layered handler once the signature has been accepted: read the
      event type, parse the body, act on the push, answer "Webhook received". */
  function AfterSignature(headers: HeaderMap, body: seq<byte>, parse: EventParser): (d: Delivery)
    ensures d.response.Success? <==> ParseDelivery(headers, body, parse).Success?
    ensures d.response.Success? ==> d.response.value == Received && d.actions == PushActions(ParseDelivery(headers, body, parse).value)
    ensures d.response.Failure? ==> d.response == Failure(ParseDelivery(headers, body, parse).error) && d.actions == []
  {
    match ParseDelivery(headers, body, parse)
    case Failure(err) => Delivery(Failure(err), [])
    case Success(e) => Delivery(Success(Received), PushActions(e))
  }

  /** `interfaces::http::handlers::webhook::github_webhook`. */
  function GithubWebhook(headers: HeaderMap, body: seq<byte>, secret: seq<byte>, hmac: Mac, parse: EventParser): (d: Delivery)
    ensures !Authentic(GetText(headers, SignatureHeader), hmac(secret, body)) ==>
              d == Delivery(Failure(Errors.WebHooks(Errors.VerifySignatureFailed)), [])
    ensures Authentic(GetText(headers, SignatureHeader), hmac(secret, body)) ==> d == AfterSignature(headers, body, parse)
  {
    match VerifySignature(body, headers, secret, hmac)
    case Failure(err) => Delivery(Failure(err), [])
    case Success(_) => AfterSignature(headers, body, parse)
  }

  // ---------------------------------------------------------------------
  // The older handler

  /** Older `process_push_event`: the same loop over the flat change list its
      own event accessor produced. */
  function LegacyPushActions(e: WebhookEvent, changed: seq<FileChange>): (r: seq<FileAction>)
    ensures GetRepositoryName(e).Failure? || GetRepositoryOwner(e).Failure? ==> r == []
    ensures GetRepositoryName(e).Success? && GetRepositoryOwner(e).Success? ==> r == Dispatch(changed)
  {
    if GetRepositoryName(e).Failure? || GetRepositoryOwner(e).Failure? then [] else Dispatch(changed)
  }

  /** Older `process_webhook_payload`: the name lookup's error is the result;
      a repository outside the allow-list and a non-push event are quiet
      successes. */
  function LegacyProcessPayload(e: WebhookEvent, allowed: set<string>, changed: seq<FileChange>): (r: (Result<Unit, Errors.SomeError>, seq<FileAction>))
    ensures r.0.Failure? <==> GetRepositoryName(e).Failure?
    ensures r.0.Failure? ==> r.0.error == GetRepositoryName(e).error
    ensures r.1 != [] ==> GetRepositoryName(e).Success? && GetRepositoryName(e).value in allowed && e.kind == Push
    ensures GetRepositoryName(e).Success? && GetRepositoryName(e).value in allowed && e.kind == Push ==>
              r.1 == LegacyPushActions(e, changed)
  {
    match GetRepositoryName(e)
    case Failure(err) => (Failure(err), [])
    case Success(name) =>
      if name !in allowed then (Success(Unit), [])
      else if e.kind == Push then (Success(Unit), LegacyPushActions(e, changed))
      else (Success(Unit), [])
  }

  /** The older handler once the signature has been accepted. */
  function LegacyAfterSignature(headers: HeaderMap, body: seq<byte>, parse: EventParser,
                                allowed: set<string>, changesOf: WebhookEvent -> seq<FileChange>): (d: Delivery)
    ensures d.response.Success? <==> ParseDelivery(headers, body, parse).Success?
    ensures d.response.Success? ==> d.response.value == Received
    ensures d.response.Failure? ==> d.response == Failure(ParseDelivery(headers, body, parse).error) && d.actions == []
    ensures d.actions != [] ==> var e := ParseDelivery(headers, body, parse).value;
                                GetRepositoryName(e).Success? && GetRepositoryName(e).value in allowed && e.kind == Push
  {
    match ParseDelivery(headers, body, parse)
    case Failure(err) => Delivery(Failure(err), [])
    case Success(e) =>
      var (_, actions) := LegacyProcessPayload(e, allowed, changesOf(e));
      Delivery(Success(Received), actions)
  }

  /** `handlers::webhook::github_webhook`; `changesOf` stands for the event
      accessor of the module it imports. */
  function LegacyGithubWebhook(headers: HeaderMap, body: seq<byte>, secret: seq<byte>, hmac: Mac, parse: EventParser,
                               allowed: set<string>, changesOf: WebhookEvent -> seq<FileChange>): (d: Delivery)
    ensures !Authentic(GetText(headers, SignatureHeader), hmac(secret, body)) ==>
              d == Delivery(Failure(Errors.WebHooks(Errors.VerifySignatureFailed)), [])
    ensures Authentic(GetText(headers, SignatureHeader), hmac(secret, body)) ==>
              d == LegacyAfterSignature(headers, body, parse, allowed, changesOf)
  {
    if !LegacyVerifySignature(body, headers, secret, hmac) then
      Delivery(Failure(Errors.WebHooks(Errors.VerifySignatureFailed)), [])
    else LegacyAfterSignature(headers, body, parse, allowed, changesOf)
  }

  /** Both handlers give the same response to every delivery. */
  lemma ResponsesAgree(headers: HeaderMap, body: seq<byte>, secret: seq<byte>, hmac: Mac, parse: EventParser,
                       allowed: set<string>, changesOf: WebhookEvent -> seq<FileChange>)
    ensures LegacyGithubWebhook(headers, body, secret, hmac, parse, allowed, changesOf).response
            == GithubWebhook(headers, body, secret, hmac, parse).response
  {
    CopiesAgree(body, headers, secret, hmac);
  }

  /** They act on the same files for a push from an allowed repository when
      the older accessor lists the changes as the layered one does. */
  lemma ActionsAgree(headers: HeaderMap, body: seq<byte>, secret: seq<byte>, hmac: Mac, parse: EventParser,
                     allowed: set<string>, changesOf: WebhookEvent -> seq<FileChange>)
    requires ParseDelivery(headers, body, parse).Success?
    requires var e := ParseDelivery(headers, body, parse).value;
             && e.kind == Push && GetRepositoryName(e).Success? && GetRepositoryName(e).value in allowed
             && changesOf(e) == GetPushFileChanges(e).added + GetPushFileChanges(e).removed + GetPushFileChanges(e).modified
    ensures LegacyGithubWebhook(headers, body, secret, hmac, parse, allowed, changesOf).actions
            == GithubWebhook(headers, body, secret, hmac, parse).actions
  {
    CopiesAgree(body, headers, secret, hmac);
    var e := ParseDelivery(headers, body, parse).value;
    assert LegacyProcessPayload(e, allowed, changesOf(e)).1 == LegacyPushActions(e, changesOf(e));
    assert LegacyPushActions(e, changesOf(e)) == PushActions(e);
  }

  /** Unlike the older handler, the layered one acts on a push from any
      repository: the allow-list is not consulted. */
  lemma LayeredIgnoresAllowList(headers: HeaderMap, body: seq<byte>, secret: seq<byte>, hmac: Mac, parse: EventParser,
                                changesOf: WebhookEvent -> seq<FileChange>)
    requires GithubWebhook(headers, body, secret, hmac, parse).actions != []
    ensures LegacyGithubWebhook(headers, body, secret, hmac, parse, {}, changesOf).actions == []
    ensures LegacyGithubWebhook(headers, body, secret, hmac, parse, {}, changesOf).response.Success?
  {
    CopiesAgree(body, headers, secret, hmac);
  }

  // ---------------------------------------------------------------------
  // webhook_parser

  /** `webhook_parser::process_webhook_payload`: the repository must be on
      the allow-list; the event kind is returned, nothing is processed. */
  function ProcessWebhookPayload(e: WebhookEvent, allowed: set<string>): (r: Result<EventKind, Errors.SomeError>)
    ensures r.Success? <==> GetRepositoryName(e).Success? && GetRepositoryName(e).value in allowed
    ensures r.Success? ==> r.value == e.kind
    ensures GetRepositoryName(e).Failure? ==> r == Failure(GetRepositoryName(e).error)
    ensures GetRepositoryName(e).Success? && GetRepositoryName(e).value !in allowed ==>
              r == Failure(Errors.Other(Errors.Message(NotAllowedMessage)))
  {
    var name :- GetRepositoryName(e);
    if name !in allowed then Failure(Errors.Other(Errors.Message(NotAllowedMessage)))
    else Success(e.kind)
  }

  /** The parser and the older payload step accept the same events: the
      parser fails exactly where the older step does nothing or fails. */
  lemma ParserMatchesLegacyGate(e: WebhookEvent, allowed: set<string>, changed: seq<FileChange>)
    ensures ProcessWebhookPayload(e, allowed).Failure? ==> LegacyProcessPayload(e, allowed, changed).1 == []
    ensures ProcessWebhookPayload(e, allowed).Success? && e.kind == Push ==>
              LegacyProcessPayload(e, allowed, changed).1 == LegacyPushActions(e, changed)
  {
  }
}

=== FILE: wrappers.dfy ===
/**
 Failure-compatible wrappers used throughout the model: `Option` for Rust's
 `Option<T>` and `Result` for `Result<T, E>`.
 */
module Wrappers {

  datatype Option<+T> = None | Some(value: T) {

    predicate IsFailure() {
      None?
    }

    function PropagateFailure<U>(): Option<U>
      requires None?
    {
      None
    }

    function Extract(): T
      requires Some?
    {
      value
    }

    /** Rust's `unwrap_or`. */
    function GetOr(default: T): T {
      match this
      case Some(v) => v
      case None => default
    }
  }

  datatype Result<+T, +E> = Success(value: T) | Failure(error: E) {

    predicate IsFailure() {
      Failure?
    }

    function PropagateFailure<U>(): Result<U, E>
      requires Failure?
    {
      Failure(error)
    }

    function Extract(): T
      requires Success?
    {
      value
    }

    /** Rust's `unwrap_or`. */
    function GetOr(default: T): T {
      match this
      case Success(v) => v
      case Failure(_) => default
    }
  }

  /** The unit value `()` of Rust, for `Result<(), E>`. */
  datatype Unit = Unit
}
